=== FILE: README.md ===
# PCBot game rules in Dafny

PCBot is a Discord bot with a set of text and button games. This project models
the deterministic rules inside those games and the routing of chat replies to
them, and proves properties of the model. Each game becomes immutable datatypes
plus pure transition functions. Discord calls are reduced to the decisions the
handlers make.

- `wrappers.dfy`: `Option`.
- `text.dfy`: the pieces of Python's string behaviour the games rely on. It
  covers `str.strip` and `isspace`, `isdecimal` and `int`, `str(n)`,
  lexicographic comparison, ASCII `casefold`, and `zip` truncation.
- `reply_handler.dfy`: the shared registry of `replyhandler.py`.
  - The registry is created lazily, the last writer wins and removal is idempotent.
  - It also holds the `GuessOutcome` enum and the thread check.
- `dispatcher.dfy`: `on_message_create` of `replyhandler.py`.
  - It works on a registry of handles and a store of game objects. This keeps
    Python's aliasing visible: one game can be registered under both its
    message id and its thread id.
  - It includes the corrected checkers handling described under Findings.
- `checkers_board.dfy`: the 8×8 board.
  - Covers position labels, the starting layout, `can_move_up/down` and
    `get_valid_moves`.
  - A declarative legality predicate is proved equal to the move generator.
- `checkers_game.dfy`: the game around the board.
  - Covers the move cache, `make_move` (captures, promotion, chain captures,
    end of game) and the reply parser `add_guess`.
  - Also covers the unregistering that rendering a finished game performs.
- `mastermind.dfy`: secret range, guess validation and deduplication, scoring
  and the win check.
  - Scoring is exact positional matches, then a multiset intersection of the leftovers.
  - The higher-or-lower variant is included.
- `words.dfy`: the word manipulation game. It covers vowel counting and
  masking, word-list cleaning, the scramble permutation, guesses and their
  scoring, and that file's own registry and reply filter.
- `minesweeper.dfy`: covered/flagged cells, flag toggling, `make_move` and the
  reply regex with its bounds checks.
- `tictactoe.dfy`: `check_rows`, `check_diagonals`, `check_win`,
  `produce_board`, `view_check` and a button press.
- `rps.dfy`: rock-paper-scissors picks and `determine_winner`.
- `hangman.dfy`: the word list and `GetCurrentStatus`.
- `pcgame.dfy`: the generated text-adventure backend. It covers
  `Enum.__str__`, `HandleGameInput`, `GetActions`, `_get` and `ArrayIterator`.

Where the code's behaviour is surprising, the model follows the code:

- A player left with no moves is declared the **winner**
  (`PCBot/plugins/checkers.py:587-592`).
- `make_move` on its own checks only bounds and ownership. Legality comes from
  `add_guess` gating against the cache.
- A reply with row "0" reaches the minesweeper grid as row −1, and Python
  indexing maps that to the last row.
- A `CheckersGame` is never given a `multiguesser` attribute, so the
  dispatcher raises at its attribute test for any reply aimed at a checkers
  game. The constructor itself already raises. Both are listed under Findings.

## Model

| member | source | states |
|---|---|---|
| ReplyHandler.ResetReplyHandler | PCBot/plugins/replyhandler.py:49-52 | after a reset the registry exists and every lookup fails |
| ReplyHandler.AddGame | PCBot/plugins/replyhandler.py:55-59 | the registry exists afterwards; the id maps to the added game itself (last writer wins); every other id looks up as before |
| ReplyHandler.RemoveGame | PCBot/plugins/replyhandler.py:62-66 | afterwards the id is absent and every other id looks up as before; removing an absent id, or removing before initialisation, changes nothing; initialisation is neither created nor lost |
| ReplyHandler.RemoveGameIdempotent | PCBot/plugins/replyhandler.py:62-66 | removing an id twice is the same as removing it once |
| ReplyHandler.AddThenRemove | PCBot/plugins/replyhandler.py:55-66 | adding then removing an id leaves it absent and restores every other lookup |
| ReplyHandler.GetInteractionChannel | PCBot/plugins/replyhandler.py:70-83 | the channel is the cached thread if there is one, else the fetched channel; "in the correct thread" holds iff that channel exists, is a public thread and has the requested name |
| Dispatcher.Candidate | PCBot/plugins/replyhandler.py:127-134 | the candidate game message is the referenced message if any, else the message of the game registered under the channel id, else none |
| Dispatcher.Target | PCBot/plugins/replyhandler.py:123-136 | a game is looked up only if the registry exists and the candidate message's id is registered, and then it is the game under that id; conversely, every such message finds its game |
| Dispatcher.Route | PCBot/plugins/replyhandler.py:138-144 | a message reaches a game's `add_guess` only if the game is a mastermind game, the content exists, and the author is the game's user or the game is multiguesser; conversely, every message meeting these conditions is routed |
| Dispatcher.Notices | PCBot/plugins/replyhandler.py:147-153 | an ephemeral notice is sent exactly for AlreadyMade |
| Dispatcher.FollowUp | PCBot/plugins/replyhandler.py:146-158 | Invalid leads to no action; AlreadyMade and Valid lead to an optional notice, then the edit of the game message, then deletion of the reply |
| Dispatcher.MastermindGuess | PCBot/plugins/replyhandler.py:146-158 | the guess updates the stored game object; Invalid changes neither the registry nor the actions; otherwise rendering unregisters a won game, or raises when that game has no message, after the notice has been sent |
| Dispatcher.Dispatch | PCBot/plugins/replyhandler.py:121-158 | a message that finds no game changes nothing; any message that finds a checkers game raises an AttributeError at the `multiguesser` test, before the author or the content is checked, with nothing changed; a mastermind game's message that fails the author or content test changes nothing; a routed mastermind guess is handled by MastermindGuess; the world stays well formed unless an exception escapes |
| Dispatcher.WinningGuessUnregisters | PCBot/plugins/mastermind.py:155-158 | a new winning mastermind guess removes the game under its message id and its channel id and leaves every other key alone |
| Dispatcher.AliasesSeeTheGuess | PCBot/plugins/replyhandler.py:130-134 | every registry key that refers to the guessed-at game object sees the updated game |
| Dispatcher.CheckersGuess | PCBot/plugins/checkers.py:348-393 | with the author's id passed, a checkers guess updates the stored game; a non-Invalid outcome edits, deletes and applies the unregistering of a finished game; the world stays well formed |
| Dispatcher.DispatchCorrected | PCBot/plugins/replyhandler.py:138-146 | like Dispatch for mastermind games; a checkers game has its `multiguesser` attribute, so it passes the same author and content tests as any game and then goes through CheckersGuess with the author's id; it never raises for checkers |
| Dispatcher.CheckersReplyMakesTheMove | PCBot/plugins/replyhandler.py:138-146 | for a legal move sent by the player on turn (challenger or challengee), the handler as written raises at the attribute test and changes nothing; the corrected handler makes exactly that move, edits and deletes, and keeps the move cache coherent |
| CheckersBoard.Label | PCBot/plugins/checkers.py:67-70 | a label is two non-space characters |
| CheckersBoard.ParseLabel | PCBot/plugins/checkers.py:367-373 | a text parses exactly when it is a column letter a–h (either case) followed by a row digit 1–8; the result is in bounds |
| CheckersBoard.LabelRoundTrip | PCBot/plugins/checkers.py:67-70 | parsing the label of any in-bounds position gives back the position |
| CheckersBoard.ParseLabelInverse | PCBot/plugins/checkers.py:367-373 | the label of a parsed position is the parsed text with its letter upper-cased |
| CheckersBoard.NewBoard | PCBot/plugins/checkers.py:99-112 | exactly the cells with row%2 ≠ column%2 in rows 0–2 and 5–7 hold tokens; those are regular Player2 tokens in rows 0–2 and regular Player1 tokens in rows 5–7; every other cell is empty with no owner |
| CheckersBoard.ValidMoves | PCBot/plugins/checkers.py:219-310 | every listed origin is in bounds, owned by the player and has at least one move |
| CheckersBoard.DirectionMovesLegal | PCBot/plugins/checkers.py:239-255 | the moves generated in one diagonal direction are exactly the legal steps and legal captures in that direction |
| CheckersBoard.ValidMovesExact | PCBot/plugins/checkers.py:228-308 | a move is listed for an origin iff it is legal under the declarative move rules (both directions) |
| CheckersBoard.ListedMoveShape | PCBot/plugins/checkers.py:244-304 | for every listed move: the origin is owned, the target is in bounds and empty, regular tokens move only forward, a capture is a double step over an opponent token, a non-capture is a single diagonal step, the capture flag equals the row-sum parity, and a chain allows only captures |
| CheckersBoard.LegalMoveOwnership | PCBot/plugins/checkers.py:78-88 | a legal move starts from a token and goes to an empty cell, in a direction the token may move, over an opponent's token when it captures |
| CheckersBoard.LegalMoveParity | PCBot/plugins/checkers.py:530 | a legal move is a capture iff the origin and target rows sum to an even number |
| CheckersGame.NewGame | PCBot/plugins/checkers.py:313-346 | with the base call corrected, a new game keeps its two user ids and board, starts with Player1 on turn, status STARTED, no chain capture, no cache, no message and no lost tokens, and is multiguesser |
| CheckersGame.NewGameAsWritten | PCBot/plugins/checkers.py:335-339 | as written, construction always raises: the base call hands two arguments to `object.__init__` |
| CheckersGame.GetValidMoves | PCBot/plugins/checkers.py:219-226 | the cached moves are returned unless the cache is absent or the call is forced, in which case the moves are recomputed for the given player and stored; nothing else changes |
| CheckersGame.MakeMove | PCBot/plugins/checkers.py:504-592 | out-of-range indices, an origin not owned by the player to move, or an occupied target change nothing; otherwise the effects of capture, movement, promotion, chain and turn take place, followed by the forced recompute and the end check |
| CheckersGame.MovedBoardCells | PCBot/plugins/checkers.py:530-551 | the origin is emptied; a capture empties the midpoint; the target receives the origin's token unless the midpoint is the origin, when it stays empty; every other cell is kept |
| CheckersGame.MakeMoveEffect | PCBot/plugins/checkers.py:523-581 | after a move that acts: the origin is empty; a capture empties a midpoint distinct from both ends, whatever it held, and records its token type; unless the midpoint is the origin, the target holds the mover's token, a king iff it was one or reached the promotion row; no other cell changes; every capture adds one to the opponent's lost count |
| CheckersGame.OwnMidpointIsCleared | PCBot/plugins/checkers.py:530-579 | a two-step jump over the mover's own token removes that token and still adds one to the opponent's lost count |
| CheckersGame.MakeMoveKeepsCacheCoherent | PCBot/plugins/checkers.py:583-586 | after a move the cache holds the moves of the player now to move |
| CheckersGame.ListedMoveEffect | PCBot/plugins/checkers.py:523-581 | a listed move leaves the token at the target and the origin empty; a capture clears exactly the opponent at the midpoint and adds one to that opponent's lost count; the token becomes a king on reaching the far row; the turn passes iff no chain continues |
| CheckersGame.ListedMoveKeepsWellFormed | PCBot/plugins/checkers.py:530-552 | a listed move keeps the board well formed |
| CheckersGame.TurnPassing | PCBot/plugins/checkers.py:553-581 | the chain flag is set only if the move captured and the target has a further capture; the player changes iff the flag is clear |
| CheckersGame.StuckPlayerIsDeclaredWinner | PCBot/plugins/checkers.py:583-592 | when the player to move after a move has no moves, the status names that player (the one without moves) the winner |
| CheckersGame.ParseMove | PCBot/plugins/checkers.py:361-373 | a parsed move names two in-bounds positions |
| CheckersGame.ParseMoveAccepts | PCBot/plugins/checkers.py:361-373 | every text the regex matches (two `[a-h][1-8]` groups in either case, a comma, whitespace around each) parses to the positions its groups name |
| CheckersGame.ParseMoveSound | PCBot/plugins/checkers.py:361-373 | every text that parses is one the regex matches, and the parsed positions are those its two groups name |
| CheckersGame.ParseMoveRoundTrip | PCBot/plugins/checkers.py:361-373 | two labels separated by a comma, with any whitespace around either label, parse back to the two positions |
| CheckersGame.AddGuess | PCBot/plugins/checkers.py:348-393 | add_guess never reports AlreadyMade; Valid requires a message, the user on turn and a parsable move; Invalid leaves the board, player and status unchanged |
| CheckersGame.AddGuessValidIffLegal | PCBot/plugins/checkers.py:350-393 | with a coherent cache, a guess is Valid iff the message exists, it comes from the user on turn and it names a legal move; the game is then the result of that move |
| CheckersGame.AddGuessKeepsCacheCoherent | PCBot/plugins/checkers.py:380-393 | a coherent cache stays coherent after any guess |
| CheckersGame.RenderUnregister | PCBot/plugins/checkers.py:497-500 | rendering a finished game that has a message removes it under the message id and the channel id, leaving every other key; otherwise the registry is untouched |
| Mastermind.NewGame | PCBot/plugins/mastermind.py:40-48 | the secret is the decimal text of the drawn number: digit_count digits with a non-zero lead; there are no guesses |
| Mastermind.AddGuess | PCBot/plugins/mastermind.py:51-62 | Invalid iff the stripped guess is not decimal; AlreadyMade iff it is decimal and already guessed; both leave the game unchanged; otherwise the stripped guess is appended once |
| Mastermind.RemoveFirst | PCBot/plugins/mastermind.py:84-85 | removing one occurrence removes exactly one copy of that digit |
| Mastermind.PositionalPass | PCBot/plugins/mastermind.py:73-85 | the first loop counts the positions where the guess and the secret agree, and leaves exactly those matched digits removed from both lists |
| Mastermind.MisplacedPass | PCBot/plugins/mastermind.py:96-102 | the second loop counts the size of the multiset intersection of the leftover digits |
| Mastermind.ScoreDigits | PCBot/plugins/mastermind.py:73-102 | the two counts are the positional matches and the misplaced digits |
| Mastermind.ScoreBound | PCBot/plugins/mastermind.py:73-102 | the positioned and misplaced counts sum to at most the number of secret digits |
| Mastermind.InfoMastermind | PCBot/plugins/mastermind.py:64-111 | "Too small" iff the value is below 10^(d−1); "Too big" iff it is at least 10^d; a score's counts sum to at most the secret's length |
| Mastermind.SelfScore | PCBot/plugins/mastermind.py:73-102 | any text scored against itself matches in every position with nothing misplaced |
| Mastermind.FullPositionedIsSecret | PCBot/plugins/mastermind.py:79-85 | an in-range guess with all d positions matching is the secret |
| Mastermind.WinIffFullScore | PCBot/plugins/mastermind.py:64-111 | an in-range guess equals the secret iff it scores d positioned and 0 misplaced |
| Mastermind.InfoHigherOrLower | PCBot/plugins/mastermind.py:113-119 | Correct iff equal; Too big iff the secret is lexicographically less than the guess; Too small iff the guess is lexicographically less |
| Mastermind.Render | PCBot/plugins/mastermind.py:143-160 | one info per guess; "You win!" iff the last guess is the secret, which removes the message and channel ids and leaves every other key; raises exactly when a won game has no message |
| WordManipulation.CountVowelsIsVowelPositions | PCBot/plugins/wordmanipulation.py:85-86 | summing the counts of each vowel gives the number of positions that hold a vowel |
| WordManipulation.Replace | PCBot/plugins/wordmanipulation.py:91 | str.replace of a single character keeps the length and substitutes exactly that character |
| WordManipulation.RemoveVowels | PCBot/plugins/wordmanipulation.py:88-92 | the result has the same length, each vowel is replaced by '?' and every other character is unchanged |
| WordManipulation.CleanLine | PCBot/plugins/wordmanipulation.py:60-61 | the cleaned line has no quotes or newlines, every other character keeps its count, and a line without either is unchanged |
| WordManipulation.CleanLineConcat | PCBot/plugins/wordmanipulation.py:60 | cleaning a concatenation cleans each part in turn, so the kept characters stay in their order |
| WordManipulation.VowelWords | PCBot/plugins/wordmanipulation.py:63-65 | the list holds exactly the words with four vowel positions, each drawn from the word list |
| WordManipulation.DrawIsPermutation | PCBot/plugins/wordmanipulation.py:77-80 | the scrambled word is a permutation of the chosen word |
| WordManipulation.NewGame | PCBot/plugins/wordmanipulation.py:53-83 | the word list is the file's lines, cleaned; no game when the draw index is outside the chosen list; otherwise the game belongs to the given user, is multiguesser as asked, has no thread and no guesses, the word is the stripped draw (one of the cleaned lines), the manipulated word is the vowel-masked or scrambled draw, and it holds no quote or newline |
| WordManipulation.AddGuess | PCBot/plugins/wordmanipulation.py:94-100 | True iff the guess is new, and then it is appended; otherwise the game is unchanged |
| WordManipulation.CorrectLetterCount | PCBot/plugins/wordmanipulation.py:102-121 | the count is the number of equal positions below the shorter length; it equals the word's length iff the guess starts with the word |
| WordManipulation.RenderWin | PCBot/plugins/wordmanipulation.py:156-159 | a win iff the last guess is the word; a win pops the message and channel ids and keeps every other key; raises when a won game has no message |
| WordManipulation.AcceptInput | PCBot/plugins/wordmanipulation.py:189-192 | input is accepted iff its stripped, casefolded form consists only of a–z (the empty text passes), and that form is the guess |
| WordManipulation.Candidate | PCBot/plugins/wordmanipulation.py:171-177 | the candidate game message is the referenced message if any, else the message of the game registered under the channel id, else none |
| WordManipulation.Route | PCBot/plugins/wordmanipulation.py:171-192 | a message is routed only if its candidate message id is registered, the author is the game's user or the game is multiguesser, the content exists and it is accepted input, and then the accepted text is the guess; conversely, every message meeting these conditions is routed |
| WordManipulation.OnMessageCreate | PCBot/plugins/wordmanipulation.py:167-202 | unrouted or filtered messages change nothing; an accepted guess is added, a repeat is noticed, and then the game message is edited and the reply deleted |
| Minesweeper.NewGrid | PCBot/plugins/minesweeper.py:55-61 | a new grid is size×size with every cell covered |
| Minesweeper.PyIndex | PCBot/plugins/minesweeper.py:105 | Python list indexing succeeds iff −n ≤ i < n, and counts negative indices from the end |
| Minesweeper.Toggle | PCBot/plugins/minesweeper.py:101-111 | a row or column ≥ size raises; otherwise a covered cell becomes flagged and a flagged one covered, nothing else changes, and an uncovered cell or an index below −size raises |
| Minesweeper.ToggleTwice | PCBot/plugins/minesweeper.py:105-109 | toggling the same cell twice restores the grid |
| Minesweeper.NewGame | PCBot/plugins/minesweeper.py:122-123 | a new game has a size×size grid and no recorded move |
| Minesweeper.MakeMove | PCBot/plugins/minesweeper.py:125-140 | an index ≥ size changes nothing; otherwise the last move is recorded first, FLAG toggles the cell (or reports its exception) and REVEAL raises with the grid unchanged |
| Minesweeper.MatchReply | PCBot/plugins/minesweeper.py:315-317 | a match yields an empty or f flag, a column letter and one or two digits; the letters are a–x in either case plus the four non-ASCII letters IGNORECASE pairs with them (dotless ı U+0131, dotted İ U+0130, long ſ U+017F, the Kelvin sign U+212A) |
| Minesweeper.MatchReplySound | PCBot/plugins/minesweeper.py:315-319 | every text that matches has the regex's shape, with the captured groups as its flag, letter and digits |
| Minesweeper.MatchReplyComplete | PCBot/plugins/minesweeper.py:315-317 | every text of the regex's shape (spaces, optional f, spaces, letter, spaces, digits, spaces) matches with those groups |
| Minesweeper.ParseReply | PCBot/plugins/minesweeper.py:319-332 | FLAG iff the flag group is non-empty; a reply is accepted iff it matches and its column and number−1 are below size; the row is number−1 and the column is the letter's offset from A |
| Minesweeper.ColumnOf | PCBot/plugins/minesweeper.py:326 | both cases of a letter A–X give its offset from A, below 24; ı counts as I and ſ as S; İ and the Kelvin sign land at or beyond column 24, so no grid accepts them |
| Minesweeper.DotlessIFlagsColumnI | PCBot/plugins/minesweeper.py:315-332 | the reply "fı1" matches and flags row 0 of column I (8) on a nine by nine grid |
| Minesweeper.RowZeroFlagsLastRow | PCBot/plugins/minesweeper.py:330-334 | the reply "f", letter, "0" is accepted with row −1 and flags that column's cell in the last row |
| Minesweeper.OnReply | PCBot/plugins/minesweeper.py:301-337 | only replies to a registered game with content are considered; a parsed reply makes that move on that game |
| TicTacToe.CheckRows | PCBot/plugins/tictactoe.py:46-52 | a style is returned iff some row is uniform and not the default, and it is that row's style |
| TicTacToe.Transpose | PCBot/plugins/tictactoe.py:70 | the transpose swaps rows and columns |
| TicTacToe.CheckDiagonals | PCBot/plugins/tictactoe.py:54-64 | the top-left cell is returned when the main diagonal is uniform, else the top-right cell when the anti-diagonal is uniform (default style included), else nothing |
| TicTacToe.CheckWin | PCBot/plugins/tictactoe.py:66-75 | rows are checked first, then columns, then diagonals |
| TicTacToe.RowsFindLine | PCBot/plugins/tictactoe.py:46-52 | on a 3×3 board the rows report a style iff some row is three equal non-default cells |
| TicTacToe.EndedIffLine | PCBot/plugins/tictactoe.py:92-99 | the game ends iff the board has a row, column or diagonal of the challenger's or the challengee's style; an all-default line never ends it |
| TicTacToe.LineIfEnded | PCBot/plugins/tictactoe.py:92-99 | when the game ends, the board has a line of the winning style |
| TicTacToe.EndedIfLine | PCBot/plugins/tictactoe.py:92-99 | a line of a player's style ends the game |
| TicTacToe.NewView | PCBot/plugins/tictactoe.py:34-43 | a new view has nine enabled default cells and the challenger on turn |
| TicTacToe.ProduceBoard | PCBot/plugins/tictactoe.py:77-90 | the loop places cell n at row n // 3, column n % 3 |
| TicTacToe.Press | PCBot/plugins/tictactoe.py:113-153 | only the player on turn may press; the cell is disabled and gets the code's style for that presser, the turn passes, no other cell's style changes, a press that ends the game disables every button while any other press leaves the other buttons untouched, and the view stops iff it had stopped or the board now has a winner |
| TicTacToe.WinningPressOwnsTheLine | PCBot/plugins/tictactoe.py:130-151 | a press that ends the game wins with the style it just placed |
| RockPaperScissors.DetermineWinner | PCBot/plugins/rockpaperscissors.py:72-103 | no outcome until both picks are set; a tie iff they are equal |
| RockPaperScissors.WinnerFollowsCycle | PCBot/plugins/rockpaperscissors.py:78-102 | the challenger wins iff their pick beats the other (paper-rock, scissors-paper, rock-scissors), the challengee wins iff theirs does, and swapping the picks swaps the winner |
| RockPaperScissors.ExactlyOneOutcome | PCBot/plugins/rockpaperscissors.py:74-102 | with both picks set, exactly one of tie, challenger win and challengee win holds |
| RockPaperScissors.Press | PCBot/plugins/rockpaperscissors.py:105-141 | only the two players may press; the challenger's press sets the challenger's pick, any other press sets the challengee's pick; the result is decided on the new picks and stops the view once decided |
| RockPaperScissors.BothPressesDecide | PCBot/plugins/rockpaperscissors.py:105-136 | one press by each player decides the game |
| Hangman.MistakeCount | PCBot/plugins/hangman.py:33-35 | the number of mistakes is at most the number of guesses |
| Hangman.MistakeCountIsWrongGuesses | PCBot/plugins/hangman.py:33-35 | the mistakes are the guesses, counted with repetition, that do not occur in the word |
| Hangman.Masked | PCBot/plugins/hangman.py:41-46 | the mask has the word's length and shows a letter iff it was guessed, '_' elsewhere |
| Hangman.MaskedRevealsWord | PCBot/plugins/hangman.py:41-46 | the mask equals the word iff every letter was guessed (for words without '_') |
| Hangman.GetCurrentStatus | PCBot/plugins/hangman.py:30-49 | five or more mistakes report the loss and reveal the word; otherwise the mask is shown; the status always ends with "Guesses: " and the guesses in order |
| Hangman.WordsAsWrittenMergesTwoWords | PCBot/plugins/hangman.py:18-21 | the list as written has seven entries; the draw at index 4 starts a game on "theseare", and no draw gives "these" or "are" |
| Hangman.NewGame | PCBot/plugins/hangman.py:66-69 | a draw gives a game iff its index is below seven, the length of the list as written; the word is that entry and there are no guesses |
| Hangman.NewGameIntended | PCBot/plugins/hangman.py:66-69 | the same draw from the intended eight-word list |
| Hangman.WordsCanBeDrawn | PCBot/plugins/hangman.py:18-21 | the intended list has eight non-empty words without '_', and every one of them, "these" and "are" included, can be drawn |
| Text.Join | PCBot/PCGame.py:19 | `sep.join(parts)` is empty for no parts, starts with the first part, ends with the last, and has the parts' total length plus one separator between each two neighbours |
| Text.JoinSnoc | PCBot/PCGame.py:19 | joining one more part appends the separator and that part |
| PCGame.EnumToString | PCBot/PCGame.py:15-19 | the rendering starts with the tag; without params it is the tag; with params, the tag is followed by parentheses enclosing exactly the params joined with ", ", and empty params render as "()" |
| PCGame.EnumToStringReadsBack | PCBot/PCGame.py:15-19 | reading the tag back off a rendering gives the tag and whether params were present |
| PCGame.HealthChangeRendersWithParentheses | PCBot/PCGame.py:22-26 | the HealthChangeType constants are built with empty params and so render as their tag followed by "()" |
| PCGame.NewGameState | PCBot/PCGame.py:60-61 | a new state starts at the main menu |
| PCGame.HandleGameInput | PCBot/PCGame.py:63-66 | the screen becomes the action's target and True is returned |
| PCGame.VisibleBound | PCBot/PCGame.py:93-102 | the visible actions are never more than the actions |
| PCGame.GetActions | PCBot/PCGame.py:93-102 | exactly the actions visible in the state, in their original order |
| PCGame.StartGame | PCBot/PCGame.py:196-202 | the main menu offers one action, "Start Game", and taking it leads to the test screen, which offers nothing |
| PCGame.ArrayGet | PCBot/PCGame.py:166-170 | the element is returned iff 0 ≤ idx < len, else nothing |
| PCGame.NewIterator | PCBot/PCGame.py:143-145 | an iterator starts at position 0 of the array |
| PCGame.Next | PCBot/PCGame.py:147-158 | next returns the element at the old position iff hasNext, and advances the position by one |
| PCGame.Drain | PCBot/PCGame.py:147-158 | iterating until hasNext fails yields exactly the remaining elements in order and leaves the iterator exhausted |

## Left out

- Discord plumbing is not modelled. This covers slash-command callbacks, thread creation, `respond`/`edit`/`delete`, menus and buttons, and `send_text_message`. The handlers' decisions are modelled as returned action lists instead. `send_text_message` passing the game object as the thread name (`PCBot/plugins/replyhandler.py:90`) is plumbing and is not modelled.
- Rendered text is not modelled: `get_board`, `MinesweeperGrid.__str__` and the games' `__str__` text, including the mastermind and word info sentences. Only the decisions inside rendering are kept: the scores, the win check and the unregistering side effects.
- Randomness is not modelled. `randrange`, `choice` and `sample` become parameters: the drawn number, an index, and a sequence of picks.
- Reading the word list file is not modelled. Its lines are a parameter, cleaned inside `WordManipulation.NewGame`. The list is loaded once and cached in module globals; the model rebuilds it on every call, which gives the same list.
- Unicode is treated as ASCII for `isdecimal`, `int`, `\d` and `casefold`: digits are ASCII only, and case folding maps only A–Z. Whitespace is modelled in full: the ASCII set plus the other code points Python's `str.isspace` accepts. The minesweeper column class `[a-x]` under IGNORECASE is modelled in full too: it also admits the four non-ASCII letters that share a case with a letter in it.
- Minesweeper bombs, revealing, flood fill and win/loss are not modelled, since the code has none. Hangman has no `add_guess`.
- Tic-tac-toe buttons: the model does not rely on a pressed button being disabled, since the handler itself does not check it. A press of an already styled cell is modelled as the code does it.
- CheckersGame.NewGame: this is the corrected constructor: it reads the `True` handed to the base class as the game's `multiguesser` attribute. The board is passed in; `CheckersBoard.NewBoard` builds the starting one.
- `abcattrs` (`@abstractattrs`, `Abstract[...]`) is an external library and is not modelled. The model assumes two things about it. First, it does not check at class creation that a subclass gives values to the `Abstract` attributes of `TextGuessGame` (`PCBot/plugins/replyhandler.py:29-31`). `MastermindGame` gives all three (`PCBot/plugins/mastermind.py:32-38`), but `CheckersGame` never gives `multiguesser` (`PCBot/plugins/checkers.py:313-330`). If the library did check, importing `checkers.py` would fail and neither checkers finding could be reached. Second, it adds no initialiser and no attribute values. `CheckersGame.NewGameAsWritten` and `Dispatcher.Dispatch` rely on both.
- CheckersBoard.NewBoard: states the layout cell by cell; the count of twelve tokens per player follows from it but is not stated as a number.
- CheckersGame.MakeMove: positions are natural numbers, so a negative row or column cannot be represented. The code checks only `>= board_size`, and none of its callers produces a negative position.
- PCGame.GetActions: `isVisible` is modelled as a pure function of the state. Haxe closures with side effects are not modelled.
- Hangman.NewGame: the game is created with `{}` as its guesses. That is an empty dict, modelled as an empty guess sequence.
- The other plugins are not modelled: `aoc.py`, `info.py`, `dectalk.py`, `textadventure.py`, `textadventurenew.py`, `mirufun.py`, the plugin manager, bot data, reload, help, the mocking and testing helpers, and start-up. They are HTTP, FFI, subprocess, reflection or UI code with no game rules.
- Concurrency is not modelled. The bot runs on a single-threaded event loop.

## Findings

| source | as written | input that shows it | evidently intended | confidence | as-written member | corrected member |
|---|---|---|---|---|---|---|
| PCBot/plugins/hangman.py:18-21 | a missing comma makes Python join `'these' 'are'` into one entry, so the list has seven words and one of them is "theseare" | the `random.choice` draw at index 4 gives the word "theseare" | eight words, "these" and "are" separate | high, not executed | Hangman.WordsAsWrittenMergesTwoWords | Hangman.WordsCanBeDrawn |
| PCBot/plugins/checkers.py:339 | `super().__init__(user_id, True)` reaches `object.__init__`, because neither `TextGuessGame` nor `ABC` defines an initialiser; it is handed two arguments and raises TypeError, so no checkers game can be constructed | starting any checkers challenge | the base class records `multiguesser = True` | medium: assumes `abcattrs` neither checks `CheckersGame` for its `Abstract` attributes when the class is created nor adds an initialiser; if it checked, the import itself would fail; not executed | CheckersGame.NewGameAsWritten | CheckersGame.NewGame |
| PCBot/plugins/replyhandler.py:138-146 | checkers games register in this registry (`PCBot/plugins/checkers.py:775-785`), but a `CheckersGame` never gets a `multiguesser` attribute, so line 138 raises AttributeError for any reply aimed at one, whoever sends it; past that, line 146 would pass only the text to `CheckersGame.add_guess`, which also takes the user id (`PCBot/plugins/checkers.py:348`) | a reply "c3, d4" by the user on turn to a registered checkers game | the game is multiguesser and the author's id is passed, so that the move is made | high that line 138 raises for a `CheckersGame`; the line is reached only if `abcattrs` does not check `CheckersGame` for its `Abstract` attributes when the class is created and a game can be constructed; not executed | Dispatcher.Dispatch | Dispatcher.CheckersReplyMakesTheMove |

=== FILE: checkers_board.dfy ===
/** The checkers board of `checkers.py`: positions and their labels, cells,
    the initial layout and the move generator `get_valid_moves`, together
    with a declarative definition of a legal move that the generator is
    proved to enumerate exactly. */
module CheckersBoard {
  import opened Wrappers
  import opened Text

  const BoardSize: nat := 8

  /** Player1 moves up the board (towards row 0), Player2 moves down. */
  datatype Player = Player1 | Player2 {
    function Other(): Player {
      if Player1? then Player2 else Player1
    }
  }

  datatype TokenType = Empty | Regular | King

  /** A board position; row 0 is the top row, labelled 8. Every position the
      bot builds comes from a label or from the generator, so the
      coordinates are never negative. */
  datatype Position = Position(row: nat, column: nat)

  datatype Cell = Cell(token: TokenType, player: Option<Player>) {
    /** `can_move_up`: Player1's tokens and kings. */
    predicate CanMoveUp() {
      player == Some(Player1) || token == King
    }

    /** `can_move_down`: Player2's tokens and kings. */
    predicate CanMoveDown() {
      player == Some(Player2) || token == King
    }
  }

  const EmptyCell := Cell(Empty, None)

  type Board = seq<seq<Cell>>

  predicate InBounds(p: Position) {
    p.row < BoardSize && p.column < BoardSize
  }

  predicate IsBoard(b: Board) {
    |b| == BoardSize && forall r :: 0 <= r < |b| ==> |b[r]| == BoardSize
  }

  function At(b: Board, p: Position): Cell
    requires IsBoard(b) && InBounds(p)
  {
    b[p.row][p.column]
  }

  /** The board with the cell at `p` replaced by `c`. */
  function Put(b: Board, p: Position, c: Cell): (r: Board)
    requires IsBoard(b) && InBounds(p)
    ensures IsBoard(r)
    ensures At(r, p) == c
    ensures forall q :: InBounds(q) && q != p ==> At(r, q) == At(b, q)
  {
    b[p.row := b[p.row][p.column := c]]
  }

  /** Every cell is either empty with no owner or occupied with an owner. */
  ghost predicate WellFormed(b: Board) {
    && IsBoard(b)
    && forall p :: InBounds(p) ==> (At(b, p).token == Empty <==> At(b, p).player == None)
  }

  /** The 64 positions of the board. */
  function Positions(): (ps: set<Position>)
    ensures forall p :: p in ps <==> InBounds(p)
  {
    var ps := set r: nat, c: nat | r < BoardSize && c < BoardSize :: Position(r, c);
    assert forall p :: InBounds(p) ==> p in ps by {
      forall p | InBounds(p) ensures p in ps {
        assert p == Position(p.row, p.column);
      }
    }
    ps
  }

  // Labels: `CheckersBoardPosition.__str__` and the conversion of a label
  // back to a position in `add_guess`.

  /** `CheckersBoardPosition.__str__`: the column letter A-H followed by
      `8 - row`. */
  function Label(p: Position): (s: string)
    requires InBounds(p)
    ensures |s| == 2 && !IsSpace(s[0]) && !IsSpace(s[1])
  {
    [('A' as int + p.column) as char, DigitChar(BoardSize - p.row)]
  }

  predicate IsColumnLetter(c: char) {
    'a' <= c <= 'h' || 'A' <= c <= 'H'
  }

  predicate IsRowDigit(c: char) {
    '1' <= c <= '8'
  }

  /** A group `[a-h][1-8]` of the move regex (matched ignoring case), turned
      into a position as `add_guess` does. */
  function ParseLabel(s: string): (r: Option<Position>)
    ensures r.Some? ==> InBounds(r.value)
    ensures r.Some? <==> |s| == 2 && IsColumnLetter(s[0]) && IsRowDigit(s[1])
  {
    if |s| == 2 && IsColumnLetter(s[0]) && IsRowDigit(s[1]) then
      var column := FoldUpper(s[0]) as int - 'A' as int;
      var row := BoardSize - DigitValue(s[1]);
      Some(Position(row, column))
    else None
  }

  function FoldUpper(c: char): char {
    if 'a' <= c <= 'z' then (c as int - 32) as char else c
  }

  /** Reading back a label gives the position it was made from, and a label
      read back is re-rendered to its upper-case form. */
  lemma LabelRoundTrip(p: Position)
    requires InBounds(p)
    ensures ParseLabel(Label(p)) == Some(p)
  {
  }

  lemma ParseLabelInverse(s: string)
    requires ParseLabel(s).Some?
    ensures Label(ParseLabel(s).value) == [FoldUpper(s[0]), s[1]]
  {
  }

  // The initial layout (`CheckersBoard.__init__`).

  /** The cell the starting layout puts at (row, column): Player2's regular
      tokens on the dark squares of rows 0-2, Player1's on those of rows 5-7,
      every other cell empty. */
  function StartCell(row: nat, column: nat): Cell {
    if row % 2 == column % 2 then EmptyCell
    else if row <= 2 then Cell(Regular, Some(Player2))
    else if row >= BoardSize - 3 then Cell(Regular, Some(Player1))
    else EmptyCell
  }

  /** `CheckersBoard.__init__`: an empty 8x8 board, then for each of the
      first three rows every column gets either a Player1 token on the
      mirrored row (same parity of row and column) or a Player2 token. */
  method NewBoard() returns (b: Board)
    ensures WellFormed(b)
    ensures forall p :: InBounds(p) ==> At(b, p) == StartCell(p.row, p.column)
    ensures forall p :: InBounds(p) ==>
      (At(b, p).token != Empty <==> p.row % 2 != p.column % 2 && (p.row <= 2 || p.row >= BoardSize - 3))
    ensures forall p :: InBounds(p) && At(b, p).token != Empty ==>
      At(b, p) == Cell(Regular, Some(if p.row <= 2 then Player2 else Player1))
  {
    b := seq(BoardSize, _ => seq(BoardSize, _ => EmptyCell));
    var row := 0;
    while row < 3
      invariant 0 <= row <= 3
      invariant IsBoard(b)
      invariant forall r, c :: 0 <= r < BoardSize && 0 <= c < BoardSize ==>
        b[r][c] == (if r < row || r >= BoardSize - row then StartCell(r, c) else EmptyCell)
    {
      var column := 0;
      while column < BoardSize
        invariant 0 <= column <= BoardSize
        invariant IsBoard(b)
        invariant forall r, c :: 0 <= r < BoardSize && 0 <= c < BoardSize ==>
          b[r][c] == (if r < row || r >= BoardSize - row then StartCell(r, c)
                      else if (r == row || r == BoardSize - row - 1) && c < column then StartCell(r, c)
                      else EmptyCell)
      {
        if row % 2 == column % 2 {
          var mirrored := BoardSize - row - 1;
          b := b[mirrored := b[mirrored][column := Cell(Regular, Some(Player1))]];
        } else {
          b := b[row := b[row][column := Cell(Regular, Some(Player2))]];
        }
        column := column + 1;
      }
      row := row + 1;
    }
  }

  // The move generator (`CheckersBoard.get_valid_moves`).

  /** A move in the cache: whether it captures, and where the token lands. */
  datatype Move = Move(capture: bool, target: Position)

  /** The cache type: origin position to its set of moves. */
  type Moves = map<Position, set<Move>>

  /** The moves in one diagonal direction (dr, dc), each -1 or 1: a step onto
      an adjacent empty cell (only when no capture chain is in progress), or
      a jump over an adjacent cell not owned by `player` onto an empty cell
      beyond it. */
  function DirectionMoves(b: Board, player: Player, repeated: bool, p: Position, dr: int, dc: int)
    : set<Move>
    requires IsBoard(b) && InBounds(p)
    requires (dr == 1 || dr == -1) && (dc == 1 || dc == -1)
  {
    var r1 := p.row + dr;
    var c1 := p.column + dc;
    if !(0 <= r1 < BoardSize && 0 <= c1 < BoardSize) then {}
    else if b[r1][c1].token == Empty then
      if repeated then {} else {Move(false, Position(r1, c1))}
    else if b[r1][c1].player != Some(player)
            && 0 <= r1 + dr < BoardSize && 0 <= c1 + dc < BoardSize
            && b[r1 + dr][c1 + dc].token == Empty then
      {Move(true, Position(r1 + dr, c1 + dc))}
    else {}
  }

  /** The moves of the token at `p`: the two upward diagonals when it can
      move up, the two downward ones when it can move down. */
  function MovesFrom(b: Board, player: Player, repeated: bool, p: Position): set<Move>
    requires IsBoard(b) && InBounds(p)
  {
    var cell := At(b, p);
    (if cell.CanMoveUp()
       then DirectionMoves(b, player, repeated, p, -1, -1) + DirectionMoves(b, player, repeated, p, -1, 1)
       else {})
    + (if cell.CanMoveDown()
         then DirectionMoves(b, player, repeated, p, 1, -1) + DirectionMoves(b, player, repeated, p, 1, 1)
         else {})
  }

  /** `get_valid_moves` when it recomputes: every position owned by `player`
      that has at least one move, mapped to its moves. */
  function ValidMoves(b: Board, player: Player, repeated: bool): (m: Moves)
    requires IsBoard(b)
    ensures forall p :: p in m ==> InBounds(p) && At(b, p).player == Some(player) && m[p] != {}
  {
    map p | p in Positions() && At(b, p).player == Some(player) && MovesFrom(b, player, repeated, p) != {}
      :: MovesFrom(b, player, repeated, p)
  }

  /** The midpoint of two positions, as `make_move` computes it with `//`. */
  function Midpoint(a: Position, b: Position): Position {
    Position((a.row + b.row) / 2, (a.column + b.column) / 2)
  }

  function Abs(x: int): nat {
    if x < 0 then -x else x
  }

  /** The rules, stated without reference to the generator: `player`'s token
      at `p` may make move `m` when the target is an empty in-board cell one
      diagonal step away (not during a capture chain), or two steps away over
      an occupied cell the player does not own; regular tokens only go
      forward (Player1 up, Player2 down), kings both ways. */
  ghost predicate IsLegalMove(b: Board, player: Player, repeated: bool, p: Position, m: Move)
    requires IsBoard(b)
  {
    var dr := m.target.row - p.row;
    var dc := m.target.column - p.column;
    && InBounds(p) && InBounds(m.target)
    && At(b, p).player == Some(player)
    && At(b, m.target).token == Empty
    && ((dr < 0 && At(b, p).CanMoveUp()) || (dr > 0 && At(b, p).CanMoveDown()))
    && if m.capture then
         && Abs(dr) == 2 && Abs(dc) == 2
         && At(b, Midpoint(p, m.target)).token != Empty
         && At(b, Midpoint(p, m.target)).player != Some(player)
       else
         !repeated && Abs(dr) == 1 && Abs(dc) == 1
  }

  lemma DirectionMovesLegal(b: Board, player: Player, repeated: bool, p: Position, dr: int, dc: int, m: Move)
    requires IsBoard(b) && InBounds(p) && At(b, p).player == Some(player)
    requires (dr == 1 || dr == -1) && (dc == 1 || dc == -1)
    requires (dr < 0 && At(b, p).CanMoveUp()) || (dr > 0 && At(b, p).CanMoveDown())
    ensures m in DirectionMoves(b, player, repeated, p, dr, dc) <==>
            (IsLegalMove(b, player, repeated, p, m)
             && m.target.row - p.row == (if m.capture then 2 * dr else dr)
             && m.target.column - p.column == (if m.capture then 2 * dc else dc))
  {
    var r1 := p.row + dr;
    var c1 := p.column + dc;
    if m.capture && 0 <= r1 < BoardSize && 0 <= c1 < BoardSize
       && m.target.row - p.row == 2 * dr && m.target.column - p.column == 2 * dc {
      assert Midpoint(p, m.target) == Position(r1, c1);
    }
  }

  /** The generator is exact: a move is listed for origin `p` if and only if
      it is legal by the rules above. */
  lemma {:induction false} ValidMovesExact(b: Board, player: Player, repeated: bool, p: Position, m: Move)
    requires IsBoard(b)
    ensures (p in ValidMoves(b, player, repeated) && m in ValidMoves(b, player, repeated)[p])
            <==> IsLegalMove(b, player, repeated, p, m)
  {
    if InBounds(p) && At(b, p).player == Some(player) {
      var cell := At(b, p);
      var dr := m.target.row - p.row;
      var dc := m.target.column - p.column;
      var up := cell.CanMoveUp();
      var down := cell.CanMoveDown();
      if up {
        DirectionMovesLegal(b, player, repeated, p, -1, -1, m);
        DirectionMovesLegal(b, player, repeated, p, -1, 1, m);
      }
      if down {
        DirectionMovesLegal(b, player, repeated, p, 1, -1, m);
        DirectionMovesLegal(b, player, repeated, p, 1, 1, m);
      }
      if IsLegalMove(b, player, repeated, p, m) {
        var sr := if dr < 0 then -1 else 1;
        var sc := if dc < 0 then -1 else 1;
        DirectionMovesLegal(b, player, repeated, p, sr, sc, m);
        assert m in MovesFrom(b, player, repeated, p);
      }
    }
  }

  /** What every listed move looks like: it starts from one of the player's
      tokens and lands on an empty in-board cell; regular Player1 tokens only
      move to smaller rows and regular Player2 tokens to larger ones; its
      capture flag is the row-parity test `make_move` uses; a capture jumps
      two diagonal steps over a token the player does not own, and during a
      capture chain every listed move is a capture. */
  lemma ListedMoveShape(b: Board, player: Player, repeated: bool, p: Position, m: Move)
    requires WellFormed(b)
    requires p in ValidMoves(b, player, repeated) && m in ValidMoves(b, player, repeated)[p]
    ensures InBounds(p) && At(b, p).player == Some(player) && At(b, p).token != Empty
    ensures InBounds(m.target) && At(b, m.target) == EmptyCell
    ensures At(b, p).token == Regular && player == Player1 ==> m.target.row < p.row
    ensures At(b, p).token == Regular && player == Player2 ==> m.target.row > p.row
    ensures m.capture <==> (p.row + m.target.row) % 2 == 0
    ensures m.capture ==> Abs(m.target.row - p.row) == 2 && Abs(m.target.column - p.column) == 2
    ensures m.capture ==> At(b, Midpoint(p, m.target)).player == Some(player.Other())
    ensures !m.capture ==> Abs(m.target.row - p.row) == 1 && Abs(m.target.column - p.column) == 1
    ensures repeated ==> m.capture
  {
    ValidMovesExact(b, player, repeated, p, m);
    LegalMoveOwnership(b, player, repeated, p, m);
    LegalMoveParity(b, player, repeated, p, m);
  }

  lemma LegalMoveOwnership(b: Board, player: Player, repeated: bool, p: Position, m: Move)
    requires WellFormed(b)
    requires IsLegalMove(b, player, repeated, p, m)
    ensures At(b, p).token != Empty
    ensures At(b, m.target) == EmptyCell
    ensures At(b, p).token == Regular && player == Player1 ==> m.target.row < p.row
    ensures At(b, p).token == Regular && player == Player2 ==> m.target.row > p.row
    ensures m.capture ==> At(b, Midpoint(p, m.target)).player == Some(player.Other())
  {
    assert At(b, m.target).player == None;
    if m.capture {
      var mid := Midpoint(p, m.target);
      assert InBounds(mid);
      assert At(b, mid).player != None;
      var owner := At(b, mid).player.value;
      assert owner != player;
      assert owner == player.Other() by {
        if player == Player1 { assert owner == Player2; } else { assert owner == Player1; }
      }
    }
  }

  lemma LegalMoveParity(b: Board, player: Player, repeated: bool, p: Position, m: Move)
    requires IsBoard(b)
    requires IsLegalMove(b, player, repeated, p, m)
    ensures m.capture <==> (p.row + m.target.row) % 2 == 0
  {
    var t: int := m.target.row;
    var r: int := p.row;
    if m.capture {
      assert t == r + 2 || t == r - 2;
    } else {
      assert t == r + 1 || t == r - 1;
    }
  }
}

=== FILE: checkers_game.dfy ===
/** `CheckersGame` of `checkers.py`: the valid-move cache, `make_move` (with
    capture, promotion, chain captures and the end-of-game check) and the
    textual move parser `add_guess`. */
module CheckersGame {
  import opened Wrappers
  import opened Text
  import opened CheckersBoard
  import opened ReplyHandler

  datatype GameStatus = Started | Player1Won | Player2Won

  datatype InputMethod = ScreenInput | ReplyInput

  /** The status that declares `p` the winner. */
  function WonBy(p: Player): GameStatus {
    if p == Player1 then Player1Won else Player2Won
  }

  /** The game object; `validMoves` is the board's `_valid_moves` cache. */
  datatype Game = Game(
    userId: Snowflake,
    challengeeId: Snowflake,
    message: Option<GameMessage>,
    board: Board,
    validMoves: Option<Moves>,
    status: GameStatus,
    player: Player,
    repeatedCapture: bool,
    userLostTokenCount: nat,
    challengeeLostTokenCount: nat,
    lastToken: Option<Position>,
    lastTarget: Option<Position>,
    lastCaptured: Option<Position>,
    lastCapturedType: Option<TokenType>,
    lastInputMethod: Option<InputMethod>,
    multiguesser: bool)

  /** A game as the constructor evidently means to leave it, on a given
      board: the `True` handed to the base class becomes the game's
      `multiguesser` attribute, so both players' replies reach it. */
  function NewGame(userId: Snowflake, challengeeId: Snowflake, board: Board): (g: Game)
    ensures g.player == Player1 && g.status == Started && !g.repeatedCapture
    ensures g.validMoves == None && g.message == None
    ensures g.userLostTokenCount == 0 && g.challengeeLostTokenCount == 0
    ensures g.userId == userId && g.challengeeId == challengeeId && g.board == board
    ensures g.multiguesser
  {
    Game(userId, challengeeId, None, board, None, Started, Player1, false, 0, 0,
         None, None, None, None, None, true)
  }

  /** The result of calling a constructor. */
  datatype Construction = ConstructorRaised | Constructed(game: Game)

  /** Whether `object.__init__` raises a TypeError when an initialiser that
      overrides it passes `extraArgs` arguments besides the instance. */
  predicate ObjectInitRaises(extraArgs: nat) {
    extraArgs > 0
  }

  /** The constructor as written: `super().__init__(user_id, True)` passes
      two arguments, and since neither the base class nor `ABC` defines an
      initialiser they reach `object.__init__`, which raises before any
      attribute is set. */
  function NewGameAsWritten(userId: Snowflake, challengeeId: Snowflake, board: Board): (r: Construction)
    ensures r == ConstructorRaised
  {
    if ObjectInitRaises(2) then ConstructorRaised
    else Constructed(NewGame(userId, challengeeId, board))
  }

  /** The cache holds nothing, or exactly the moves of the player to move
      under the current capture-chain flag. */
  ghost predicate CacheCoherent(g: Game) {
    IsBoard(g.board) &&
    (g.validMoves.None? || g.validMoves.value == ValidMoves(g.board, g.player, g.repeatedCapture))
  }

  /** `get_valid_moves` with its cache: the cached map is returned unless it
      is absent or `force` is set, in which case the moves of `player` are
      recomputed and stored. The cache is not keyed by player. */
  function GetValidMoves(g: Game, player: Player, repeated: bool, force: bool): (r: (Moves, Game))
    requires IsBoard(g.board)
    ensures r.1 == g.(validMoves := Some(r.0))
    ensures g.validMoves.Some? && !force ==> r.0 == g.validMoves.value
    ensures g.validMoves.None? || force ==> r.0 == ValidMoves(g.board, player, repeated)
  {
    if g.validMoves.Some? && !force then (g.validMoves.value, g)
    else
      var moves := ValidMoves(g.board, player, repeated);
      (moves, g.(validMoves := Some(moves)))
  }

  /** Whether `make_move` acts at all: both positions on the board, the
      origin holds a token of the player to move, the target is empty. */
  predicate Applies(g: Game, token: Position, target: Position)
    requires IsBoard(g.board)
  {
    && InBounds(token) && InBounds(target)
    && At(g.board, token).token != Empty
    && At(g.board, token).player == Some(g.player)
    && At(g.board, target).token == Empty
  }

  /** `make_move` treats a move as a capture when the two rows have the same
      parity. */
  predicate Capturing(token: Position, target: Position) {
    (token.row + target.row) % 2 == 0
  }

  /** The board after the capture (if any) and the relocation, before
      promotion. The token is read after the midpoint is cleared, because
      the code reads it through the same cell object. */
  function MovedBoard(b: Board, token: Position, target: Position): (r: Board)
    requires IsBoard(b) && InBounds(token) && InBounds(target) && token != target
    ensures IsBoard(r)
  {
    var cleared := if Capturing(token, target) then Put(b, Midpoint(token, target), EmptyCell) else b;
    Put(Put(cleared, target, At(cleared, token)), token, EmptyCell)
  }

  /** What `MovedBoard` does to each cell: the origin is emptied; a
      capture empties the midpoint; the target receives the origin's token,
      except when the midpoint is the origin itself, in which case the
      token was cleared before it was read and the target stays empty;
      every other cell is kept. */
  lemma MovedBoardCells(b: Board, token: Position, target: Position)
    requires IsBoard(b) && InBounds(token) && InBounds(target) && token != target
    ensures var r := MovedBoard(b, token, target);
      var mid := Midpoint(token, target);
      && At(r, token) == EmptyCell
      && (Capturing(token, target) && mid != token && mid != target ==> At(r, mid) == EmptyCell)
      && (!(Capturing(token, target) && mid == token) ==> At(r, target) == At(b, token))
      && (Capturing(token, target) && mid == token ==> At(r, target) == EmptyCell)
      && (forall q ::
            (InBounds(q) && q != token && q != target && !(Capturing(token, target) && q == mid))
            ==> At(r, q) == At(b, q))
  {
  }

  /** Whether the capture chain continues: the moved token, recomputed in
      capture-only mode on the board before promotion, can capture again. */
  predicate ChainContinues(b: Board, player: Player, target: Position)
    requires IsBoard(b)
  {
    var chain := ValidMoves(b, player, true);
    target in chain && exists m :: m in chain[target] && m.capture
  }

  /** Promotion row for the player who just moved. */
  predicate PromotionRow(player: Player, target: Position) {
    (player == Player1 && target.row == 0) || (player == Player2 && target.row == BoardSize - 1)
  }

  /** `CheckersGame.make_move`. Nothing changes unless the move `Applies`;
      legality of the move is not checked here. */
  function MakeMove(g: Game, token: Position, target: Position, inputMethod: InputMethod): (r: Game)
    requires IsBoard(g.board)
    ensures IsBoard(r.board)
    ensures !Applies(g, token, target) ==> r == g
    ensures Applies(g, token, target) ==>
      && r.lastToken == Some(token) && r.lastTarget == Some(target)
      && r.lastInputMethod == Some(inputMethod)
      && r.lastCaptured == (if Capturing(token, target) then Some(Midpoint(token, target)) else None)
      && (r.repeatedCapture ==> Capturing(token, target))
      && (r.player == g.player <==> r.repeatedCapture)
      && r.validMoves == Some(ValidMoves(r.board, r.player, r.repeatedCapture))
      && r.status == (if ValidMoves(r.board, r.player, r.repeatedCapture) == map[]
                      then WonBy(r.player) else g.status)
      && r.userId == g.userId && r.challengeeId == g.challengeeId && r.message == g.message
  {
    if !Applies(g, token, target) then g
    else
      var capturing := Capturing(token, target);
      var mid := Midpoint(token, target);
      var moved := MovedBoard(g.board, token, target);
      var repeated := capturing && ChainContinues(moved, g.player, target);
      var board :=
        if PromotionRow(g.player, target) then Put(moved, target, Cell(King, At(moved, target).player))
        else moved;
      var player := if repeated then g.player else g.player.Other();
      var remaining := ValidMoves(board, player, repeated);
      g.(board := board,
         validMoves := Some(remaining),
         status := if remaining == map[] then WonBy(player) else g.status,
         player := player,
         repeatedCapture := repeated,
         userLostTokenCount :=
           if capturing && g.player == Player2 then g.userLostTokenCount + 1 else g.userLostTokenCount,
         challengeeLostTokenCount :=
           if capturing && g.player == Player1 then g.challengeeLostTokenCount + 1 else g.challengeeLostTokenCount,
         lastToken := Some(token),
         lastTarget := Some(target),
         lastCaptured := if capturing then Some(mid) else None,
         lastCapturedType := if capturing then Some(At(g.board, mid).token) else None,
         lastInputMethod := Some(inputMethod))
  }

  /** The board and the counters after a move that acts: the origin is
      empty; a capture empties the midpoint whatever it holds (when the
      midpoint is neither end) and records the token type taken; unless the
      midpoint is the origin itself, the mover's token sits on the target,
      a king exactly when it was one or reached its promotion row; nothing
      else on the board changes; and every capture adds one to the
      opponent's lost count. */
  lemma MakeMoveEffect(g: Game, token: Position, target: Position, inputMethod: InputMethod)
    requires IsBoard(g.board) && Applies(g, token, target)
    ensures var r := MakeMove(g, token, target, inputMethod);
      var mid := Midpoint(token, target);
      && At(r.board, token) == EmptyCell
      && (Capturing(token, target) && mid != token && mid != target ==>
            At(r.board, mid) == EmptyCell && r.lastCapturedType == Some(At(g.board, mid).token))
      && (!(Capturing(token, target) && mid == token) ==>
            && At(r.board, target).player == Some(g.player)
            && At(r.board, target).token ==
                 (if PromotionRow(g.player, target) then King else At(g.board, token).token))
      && (forall q ::
            (InBounds(q) && q != token && q != target && !(Capturing(token, target) && q == mid))
            ==> At(r.board, q) == At(g.board, q))
      && r.userLostTokenCount ==
           g.userLostTokenCount + (if Capturing(token, target) && g.player == Player2 then 1 else 0)
      && r.challengeeLostTokenCount ==
           g.challengeeLostTokenCount + (if Capturing(token, target) && g.player == Player1 then 1 else 0)
  {
    var moved := MovedBoard(g.board, token, target);
    MovedBoardCells(g.board, token, target);
    var r := MakeMove(g, token, target, inputMethod);
    assert r.board == if PromotionRow(g.player, target) then Put(moved, target, Cell(King, At(moved, target).player))
                      else moved;
  }

  /** After any move that acts, the cache matches the player to move again:
      the forced recomputation at the end of `make_move` restores the
      invariant whatever the cache held before. */
  lemma MakeMoveKeepsCacheCoherent(g: Game, token: Position, target: Position, inputMethod: InputMethod)
    requires CacheCoherent(g)
    ensures CacheCoherent(MakeMove(g, token, target, inputMethod))
  {
  }

  /** The effect of applying a move the generator lists: the token arrives at
      the target and its origin is empty; it is a king exactly when it was
      one or it reached its promotion row; a capture empties the midpoint,
      which held an opponent token, and adds one to that opponent's lost
      count; nothing else on the board changes, and the board stays well
      formed. */
  lemma ListedMoveEffect(g: Game, token: Position, m: Move, inputMethod: InputMethod)
    requires WellFormed(g.board)
    requires token in ValidMoves(g.board, g.player, g.repeatedCapture)
    requires m in ValidMoves(g.board, g.player, g.repeatedCapture)[token]
    ensures Applies(g, token, m.target)
    ensures var r := MakeMove(g, token, m.target, inputMethod);
      && At(r.board, token) == EmptyCell
      && At(r.board, m.target).player == Some(g.player)
      && (At(r.board, m.target).token == King <==>
            At(g.board, token).token == King || PromotionRow(g.player, m.target))
      && (m.capture ==>
            && At(g.board, Midpoint(token, m.target)).player == Some(g.player.Other())
            && At(r.board, Midpoint(token, m.target)) == EmptyCell
            && r.lastCapturedType == Some(At(g.board, Midpoint(token, m.target)).token))
      && (forall q :: InBounds(q) && q != token && q != m.target
                      && (m.capture ==> q != Midpoint(token, m.target))
                      ==> At(r.board, q) == At(g.board, q))
      && r.userLostTokenCount ==
           g.userLostTokenCount + (if m.capture && g.player == Player2 then 1 else 0)
      && r.challengeeLostTokenCount ==
           g.challengeeLostTokenCount + (if m.capture && g.player == Player1 then 1 else 0)
  {
    var target := m.target;
    ListedMoveShape(g.board, g.player, g.repeatedCapture, token, m);
    if m.capture {
      MidpointDistinct(token, target);
    }
    MakeMoveEffect(g, token, target, inputMethod);
  }

  /** Applying a listed move keeps the board well formed: every cell is
      empty exactly when it has no owner. */
  lemma ListedMoveKeepsWellFormed(g: Game, token: Position, m: Move, inputMethod: InputMethod)
    requires WellFormed(g.board)
    requires token in ValidMoves(g.board, g.player, g.repeatedCapture)
    requires m in ValidMoves(g.board, g.player, g.repeatedCapture)[token]
    ensures WellFormed(MakeMove(g, token, m.target, inputMethod).board)
  {
    ListedMoveEffect(g, token, m, inputMethod);
    var r := MakeMove(g, token, m.target, inputMethod);
    var mid := Midpoint(token, m.target);
    forall q | InBounds(q)
      ensures At(r.board, q).token == Empty <==> At(r.board, q).player == None
    {
      if q != token && q != m.target && !(m.capture && q == mid) {
        assert At(r.board, q) == At(g.board, q);
      }
    }
  }

  /** `make_move` clears the midpoint of a jump without looking at it: a
      two-step jump over the mover's own token removes that token, and the
      opponent's lost count still goes up. `add_guess` never asks for such a
      move, because the generator only lists jumps over opponent tokens. */
  lemma OwnMidpointIsCleared(g: Game, token: Position, target: Position, inputMethod: InputMethod)
    requires IsBoard(g.board) && Applies(g, token, target)
    requires Abs(token.row - target.row) == 2 && Abs(token.column - target.column) == 2
    requires At(g.board, Midpoint(token, target)).player == Some(g.player)
    ensures var r := MakeMove(g, token, target, inputMethod);
      && At(r.board, Midpoint(token, target)) == EmptyCell
      && At(r.board, target).player == Some(g.player)
      && (g.player == Player1 ==> r.challengeeLostTokenCount == g.challengeeLostTokenCount + 1)
      && (g.player == Player2 ==> r.userLostTokenCount == g.userLostTokenCount + 1)
  {
    MidpointDistinct(token, target);
    MakeMoveEffect(g, token, target, inputMethod);
  }

  /** The midpoint of a two-step diagonal jump is neither of its ends. */
  lemma MidpointDistinct(a: Position, b: Position)
    requires Abs(a.row - b.row) == 2 && Abs(a.column - b.column) == 2
    ensures Midpoint(a, b) != a && Midpoint(a, b) != b
    ensures InBounds(a) && InBounds(b) ==> InBounds(Midpoint(a, b))
  {
  }

  /** The turn passes exactly when no capture chain continues, and a chain
      only continues after a capture whose landing cell can capture again. */
  lemma TurnPassing(g: Game, token: Position, target: Position, inputMethod: InputMethod)
    requires IsBoard(g.board) && Applies(g, token, target)
    ensures var r := MakeMove(g, token, target, inputMethod);
      && (r.player == g.player.Other() <==> !r.repeatedCapture)
      && (r.repeatedCapture <==>
            Capturing(token, target) && ChainContinues(MovedBoard(g.board, token, target), g.player, target))
  {
  }

  /** As written, when the player to move after a move has no move at all,
      that player is declared the winner: after a move that passes the turn,
      the winner is the opponent of the player who moved. */
  lemma StuckPlayerIsDeclaredWinner(g: Game, token: Position, target: Position, inputMethod: InputMethod)
    requires IsBoard(g.board) && Applies(g, token, target)
    requires var r := MakeMove(g, token, target, inputMethod);
      !r.repeatedCapture && ValidMoves(r.board, r.player, false) == map[]
    ensures MakeMove(g, token, target, inputMethod).status == WonBy(g.player.Other())
  {
  }

  // The textual move parser of `add_guess`.

  /** The regex `^\s*([a-h][1-8])\s*,\s*([a-h][1-8])\s*$` (ignoring case)
      followed by the conversion of both groups to positions. */
  function ParseMove(guess: string): (r: Option<(Position, Position)>)
    ensures r.Some? ==> InBounds(r.value.0) && InBounds(r.value.1)
  {
    var t := Strip(guess);
    if |t| < 5 then None
    else
      var token := ParseLabel(t[..2]);
      var target := ParseLabel(t[|t| - 2..]);
      if token.Some? && target.Some? && Strip(t[2..|t| - 2]) == "," then Some((token.value, target.value))
      else None
  }

  /** `guess` is text the move regex matches, cut into its parts: two
      `[a-h][1-8]` groups (either case) separated by a comma, with
      whitespace around each. */
  predicate IsMoveText(guess: string, w1: string, a: string, w2: string, w3: string, b: string, w4: string) {
    && AllSpace(w1) && AllSpace(w2) && AllSpace(w3) && AllSpace(w4)
    && ParseLabel(a).Some? && ParseLabel(b).Some?
    && guess == w1 + a + w2 + "," + w3 + b + w4
  }

  /** Any text the regex matches is parsed into the positions its two
      groups name. */
  lemma ParseMoveAccepts(guess: string, w1: string, a: string, w2: string, w3: string, b: string, w4: string)
    requires IsMoveText(guess, w1, a, w2, w3, b, w4)
    ensures ParseMove(guess) == Some((ParseLabel(a).value, ParseLabel(b).value))
  {
    var core := a + w2 + "," + w3 + b;
    assert guess == w1 + core + w4;
    assert core[0] == a[0] && core[|core| - 1] == b[1];
    StripPadded(w1, core, w4);
    ParseStrippedMove(a, w2, w3, b);
  }

  /** Every reply that parses is text the regex matches, and the parse
      names the positions of its two groups. */
  lemma ParseMoveSound(guess: string)
    requires ParseMove(guess).Some?
    ensures exists w1, a, w2, w3, b, w4 ::
      && IsMoveText(guess, w1, a, w2, w3, b, w4)
      && ParseLabel(a) == Some(ParseMove(guess).value.0)
      && ParseLabel(b) == Some(ParseMove(guess).value.1)
  {
    var t := Strip(guess);
    assert |t| >= 5 && Strip(t[2..|t| - 2]) == ",";
    assert ParseMove(guess).value == (ParseLabel(t[..2]).value, ParseLabel(t[|t| - 2..]).value);
    var w1, w4 := AroundStripped(guess);
    var a, w2, w3, b := StrippedMoveParts(t);
    Regroup(w1, a, w2, w3, b, w4);
    assert IsMoveText(guess, w1, a, w2, w3, b, w4);
  }

  lemma Regroup(w1: string, a: string, w2: string, w3: string, b: string, w4: string)
    ensures w1 + (a + w2 + "," + w3 + b) + w4 == w1 + a + w2 + "," + w3 + b + w4
  {
    var t := a + w2 + "," + w3 + b;
    var rhs := w1 + a + w2 + "," + w3 + b + w4;
    assert |w1 + t + w4| == |rhs|;
    forall k | 0 <= k < |rhs| ensures (w1 + t + w4)[k] == rhs[k] {
    }
  }

  /** A stripped reply cut at its first two and last two characters, with
      the comma and its surrounding whitespace between them. */
  lemma StrippedMoveParts(t: string) returns (a: string, w2: string, w3: string, b: string)
    requires |t| >= 5 && Strip(t[2..|t| - 2]) == ","
    ensures a == t[..2] && b == t[|t| - 2..] && AllSpace(w2) && AllSpace(w3)
    ensures t == a + w2 + "," + w3 + b
  {
    var mid := t[2..|t| - 2];
    w2, w3 := AroundStripped(mid);
    a, b := t[..2], t[|t| - 2..];
    SplitAt(t, 2);
    SplitAt(t[2..], |t| - 4);
    assert t[2..][..|t| - 4] == mid && t[2..][|t| - 4..] == b;
    assert t == a + (w2 + "," + w3) + b;
    CommaRegroup(a, w2, w3, b);
  }

  lemma CommaRegroup(a: string, w2: string, w3: string, b: string)
    ensures a + (w2 + "," + w3) + b == a + w2 + "," + w3 + b
  {
    var lhs, rhs := a + (w2 + "," + w3) + b, a + w2 + "," + w3 + b;
    assert |lhs| == |rhs|;
    forall k | 0 <= k < |rhs| ensures lhs[k] == rhs[k] {
    }
  }


  /** Replying with two rendered labels separated by a comma, with any
      whitespace around them, names exactly those two positions. */
  lemma ParseMoveRoundTrip(w1: string, p: Position, w2: string, w3: string, q: Position, w4: string)
    requires InBounds(p) && InBounds(q)
    requires AllSpace(w1) && AllSpace(w2) && AllSpace(w3) && AllSpace(w4)
    ensures ParseMove(w1 + Label(p) + w2 + "," + w3 + Label(q) + w4) == Some((p, q))
  {
    LabelRoundTrip(p);
    LabelRoundTrip(q);
    ParseMoveAccepts(w1 + Label(p) + w2 + "," + w3 + Label(q) + w4, w1, Label(p), w2, w3, Label(q), w4);
  }

  /** The parse of an already stripped reply, the second half of
      `ParseMoveAccepts`. */
  lemma ParseStrippedMove(a: string, w2: string, w3: string, b: string)
    requires ParseLabel(a).Some? && ParseLabel(b).Some? && AllSpace(w2) && AllSpace(w3)
    ensures var t := a + w2 + "," + w3 + b;
      && |t| >= 5
      && ParseLabel(t[..2]) == ParseLabel(a)
      && ParseLabel(t[|t| - 2..]) == ParseLabel(b)
      && Strip(t[2..|t| - 2]) == ","
  {
    var t := a + w2 + "," + w3 + b;
    assert t[..2] == a;
    assert t[|t| - 2..] == b;
    assert t[2..|t| - 2] == w2 + "," + w3;
    StripPadded(w2, ",", w3);
  }

  /** The user whose turn it is. */
  function UserOnTurn(g: Game): Snowflake {
    if g.player == Player1 then g.userId else g.challengeeId
  }

  /** `CheckersGame.add_guess(user_id, guess)`: Invalid before the game
      message exists, for anyone but the user on turn, for text that is not
      a move, and for a move not in the (possibly cached) valid moves;
      otherwise the move is made and the outcome is Valid. Looking up the
      valid moves fills an empty cache even when the guess is then rejected. */
  function AddGuess(g: Game, userId: Snowflake, guess: string): (r: (Game, GuessOutcome))
    requires IsBoard(g.board)
    ensures r.1 != AlreadyMade
    ensures r.1 == Valid ==>
      && g.message.Some? && userId == UserOnTurn(g) && ParseMove(guess).Some?
    ensures r.1 == Invalid ==> r.0.board == g.board && r.0.player == g.player && r.0.status == g.status
    ensures IsBoard(r.0.board)
  {
    if g.message.None? || userId != UserOnTurn(g) then (g, Invalid)
    else match ParseMove(guess)
      case None => (g, Invalid)
      case Some((token, target)) =>
        var (moves, g1) := GetValidMoves(g, g.player, g.repeatedCapture, false);
        if token !in moves || (Move(false, target) !in moves[token] && Move(true, target) !in moves[token])
        then (g1, Invalid)
        else (MakeMove(g1, token, target, ReplyInput), Valid)
  }

  /** With a coherent cache, a guess is Valid exactly when it comes from the
      user on turn, after the message exists, and names a legal move; the
      game is then the result of making that move. */
  lemma AddGuessValidIffLegal(g: Game, userId: Snowflake, guess: string)
    requires CacheCoherent(g)
    ensures var r := AddGuess(g, userId, guess);
      && (r.1 == Valid <==>
            && g.message.Some? && userId == UserOnTurn(g) && ParseMove(guess).Some?
            && (IsLegalMove(g.board, g.player, g.repeatedCapture, ParseMove(guess).value.0,
                            Move(false, ParseMove(guess).value.1))
                || IsLegalMove(g.board, g.player, g.repeatedCapture, ParseMove(guess).value.0,
                               Move(true, ParseMove(guess).value.1))))
      && (r.1 == Valid ==>
            r.0 == MakeMove(g.(validMoves := Some(ValidMoves(g.board, g.player, g.repeatedCapture))),
                            ParseMove(guess).value.0, ParseMove(guess).value.1, ReplyInput))
  {
    if g.message.Some? && userId == UserOnTurn(g) && ParseMove(guess).Some? {
      var (token, target) := ParseMove(guess).value;
      var moves := ValidMoves(g.board, g.player, g.repeatedCapture);
      assert GetValidMoves(g, g.player, g.repeatedCapture, false) == (moves, g.(validMoves := Some(moves)));
      ValidMovesExact(g.board, g.player, g.repeatedCapture, token, Move(false, target));
      ValidMovesExact(g.board, g.player, g.repeatedCapture, token, Move(true, target));
    }
  }

  /** Handling a guess keeps the move cache coherent, whatever the outcome. */
  lemma AddGuessKeepsCacheCoherent(g: Game, userId: Snowflake, guess: string)
    requires CacheCoherent(g)
    ensures CacheCoherent(AddGuess(g, userId, guess).0)
  {
    if g.message.Some? && userId == UserOnTurn(g) && ParseMove(guess).Some? {
      var (token, target) := ParseMove(guess).value;
      var moves := ValidMoves(g.board, g.player, g.repeatedCapture);
      var g1 := g.(validMoves := Some(moves));
      assert GetValidMoves(g, g.player, g.repeatedCapture, false) == (moves, g1);
      assert CacheCoherent(g1);
      MakeMoveKeepsCacheCoherent(g1, token, target, ReplyInput);
    }
  }

  /** The side effect of rendering a game (`__str__`): once the game is
      over and its message exists, the game is removed under the message id
      and then under the channel id. */
  function RenderUnregister<G>(g: Game, registry: Registry<G>): (r: Registry<G>)
    ensures g.status == Started || g.message.None? ==> r == registry
    ensures g.status != Started && g.message.Some? ==>
      && Lookup(r, g.message.value.id) == None
      && Lookup(r, g.message.value.channelId) == None
      && forall k :: k != g.message.value.id && k != g.message.value.channelId ==>
           Lookup(r, k) == Lookup(registry, k)
  {
    if g.message.Some? && g.status != Started then
      RemoveGame(RemoveGame(registry, g.message.value.id), g.message.value.channelId)
    else registry
  }
}

=== FILE: dispatcher.dfy ===
/** `on_message_create` of `replyhandler.py`: the routing of a Discord
    message to the text based game it answers, modelled as a pure function
    from the registry, the games and the event to the new state and the
    list of Discord actions taken.

    Python's object identity matters here: a game is registered under its
    message id and, when it runs in a thread, also under the thread's
    channel id, and both keys refer to one mutable object. The registry
    therefore maps keys to handles, and a separate store maps handles to the
    games' current states. */
module Dispatcher {
  import opened Wrappers
  import opened Text
  import opened ReplyHandler
  import MM = Mastermind
  import CG = CheckersGame
  import CheckersBoard

  /** A reference to one game object. */
  type Handle = nat

  /** The games that register with the shared registry. */
  datatype TextGame =
    | MastermindEntry(mastermind: MM.Game)
    | CheckersEntry(checkers: CG.Game)
  {
    function Message(): Option<GameMessage> {
      match this
      case MastermindEntry(g) => g.message
      case CheckersEntry(g) => g.message
    }

    function UserId(): Snowflake {
      match this
      case MastermindEntry(g) => g.userId
      case CheckersEntry(g) => g.userId
    }

    /** The `multiguesser` attribute. A checkers game only has one once its
        constructor is corrected (see `CheckersGame.NewGame`); as written,
        reading it raises (see `Dispatch`). */
    function Multiguesser(): bool {
      match this
      case MastermindEntry(g) => g.multiguesser
      case CheckersEntry(g) => g.multiguesser
    }
  }

  datatype World = World(registry: Registry<Handle>, store: map<Handle, TextGame>)

  /** Every registered key refers to a stored game, and every stored
      mastermind game satisfies its own invariant. */
  predicate WellFormedWorld(w: World) {
    && (w.registry.Games? ==> forall k | k in w.registry.games :: w.registry.games[k] in w.store)
    && (forall h | h in w.store && w.store[h].MastermindEntry? :: MM.WellFormed(w.store[h].mastermind))
    && (forall h | h in w.store && w.store[h].CheckersEntry? :: CheckersBoard.IsBoard(w.store[h].checkers.board))
  }

  /** What the bot sees of a created message: its channel, its author, the
      message it replies to (if any) and its text (absent for some message
      kinds). */
  datatype Event = Event(
    channelId: Snowflake,
    authorId: Snowflake,
    referenced: Option<GameMessage>,
    content: Option<string>)

  /** Discord calls the handler makes, in order. */
  datatype Action =
    | NotifyAlreadyMade(guess: string)
    | EditGameMessage(messageId: Snowflake)
    | DeleteInput

  /** Exceptions that escape the handler. */
  datatype Failure =
    | MissingAttribute   // AttributeError: a checkers game has no `multiguesser` attribute
    | MessageIsNone      // AttributeError: a won game is rendered before its message exists

  datatype Outcome = Outcome(world: World, actions: seq<Action>, failure: Option<Failure>)

  /** The game message a reply is for: the referenced message when there is
      one, otherwise the message of the game registered under the channel. */
  function Candidate(w: World, e: Event): (r: Option<GameMessage>)
    requires WellFormedWorld(w)
    ensures e.referenced.Some? ==> r == e.referenced
    ensures e.referenced.None? && r.Some? ==>
      Lookup(w.registry, e.channelId).Some? && r == w.store[Lookup(w.registry, e.channelId).value].Message()
    ensures e.referenced.None? && Lookup(w.registry, e.channelId).None? ==> r == None
  {
    if e.referenced.Some? then e.referenced
    else match Lookup(w.registry, e.channelId)
      case Some(h) => w.store[h].Message()
      case None => None
  }

  /** The lookup of lines 123-136: the game message a reply is for and the
      handle of the game registered under its id, or `None` when the
      message is ignored before any game is consulted. */
  function Target(w: World, e: Event): (r: Option<(GameMessage, Handle)>)
    requires WellFormedWorld(w)
    ensures w.registry.Uninitialised? ==> r == None
    ensures r.Some? ==> && Candidate(w, e) == Some(r.value.0)
                        && Lookup(w.registry, r.value.0.id) == Some(r.value.1)
                        && r.value.1 in w.store
    ensures w.registry.Games? && Candidate(w, e).Some? && Lookup(w.registry, Candidate(w, e).value.id).Some? ==>
      r.Some?
  {
    if w.registry.Uninitialised? then None
    else
      match Candidate(w, e)
      case None => None
      case Some(gm) =>
        match Lookup(w.registry, gm.id)
        case None => None
        case Some(h) => Some((gm, h))
  }

  /** The tests of lines 138-142: a game that is not multiguesser only
      takes guesses from its own user, and a message without text is not a
      guess. */
  predicate Accepts(game: TextGame, e: Event) {
    (game.Multiguesser() || e.authorId == game.UserId()) && e.content.Some?
  }

  /** The routing decision of lines 123-144 as written: the game message
      and the handle of the game a message is a guess for, or `None` when
      the message is ignored. Only a mastermind game gets that far; for a
      checkers game the attribute test raises instead (see `Dispatch`). */
  function Route(w: World, e: Event): (r: Option<(GameMessage, Handle)>)
    requires WellFormedWorld(w)
    ensures e.content.None? ==> r == None
    ensures r.Some? ==> && r == Target(w, e)
                        && w.store[r.value.1].MastermindEntry?
                        && (w.store[r.value.1].mastermind.multiguesser
                            || e.authorId == w.store[r.value.1].mastermind.userId)
    ensures (&& Target(w, e).Some? && e.content.Some?
             && var h := Target(w, e).value.1;
                && w.store[h].MastermindEntry?
                && (w.store[h].mastermind.multiguesser || e.authorId == w.store[h].mastermind.userId)) ==> r.Some?
  {
    match Target(w, e)
    case None => None
    case Some((gm, h)) =>
      if w.store[h].MastermindEntry? && Accepts(w.store[h], e) then Some((gm, h)) else None
  }

  /** The ephemeral notice sent for a guess already made. */
  function Notices(outcome: GuessOutcome, guess: string): (r: seq<Action>)
    ensures |r| <= 1
    ensures r != [] <==> outcome == AlreadyMade
  {
    if outcome == AlreadyMade then [NotifyAlreadyMade(guess)] else []
  }

  /** The Discord calls that follow a guess outcome (lines 147-158):
      nothing for Invalid; a notice, then the edit and the deletion for
      AlreadyMade; the edit and the deletion for Valid. */
  function FollowUp(outcome: GuessOutcome, guess: string, messageId: Snowflake): (r: seq<Action>)
    ensures outcome == Invalid <==> r == []
    ensures outcome != Invalid ==> r == Notices(outcome, guess) + [EditGameMessage(messageId), DeleteInput]
    ensures NotifyAlreadyMade(guess) in r <==> outcome == AlreadyMade
  {
    match outcome
    case Invalid => []
    case AlreadyMade => [NotifyAlreadyMade(guess), EditGameMessage(messageId), DeleteInput]
    case Valid => [EditGameMessage(messageId), DeleteInput]
  }

  /** A routed mastermind guess: the guess is added to the game behind the
      handle; unless it is Invalid, the game is rendered for the edit, which
      unregisters a won game or raises when the won game has no message.
      The notice for a repeated guess goes out before the rendering. */
  function MastermindGuess(w: World, gm: GameMessage, h: Handle, guess: string): (o: Outcome)
    requires WellFormedWorld(w) && h in w.store && w.store[h].MastermindEntry?
    ensures var (g', outcome) := MM.AddGuess(w.store[h].mastermind, guess);
      && o.world.store == w.store[h := MastermindEntry(g')]
      && (outcome == Invalid ==> o.actions == [] && o.failure == None && o.world.registry == w.registry)
      && (o.failure.None? ==> o.actions == FollowUp(outcome, guess, gm.id) && WellFormedWorld(o.world))
      && (o.failure.Some? ==> && o.failure == Some(MessageIsNone)
                              && o.actions == Notices(outcome, guess)
                              && o.world.registry == w.registry)
      && (o.failure.Some? <==> outcome != Invalid && MM.Render(g', w.registry).RenderRaised?)
      && (o.failure.None? && outcome != Invalid ==> o.world.registry == MM.Render(g', w.registry).registry)
  {
    var (g', outcome) := MM.AddGuess(w.store[h].mastermind, guess);
    var store' := w.store[h := MastermindEntry(g')];
    if outcome == Invalid then Outcome(World(w.registry, store'), [], None)
    else
      match MM.Render(g', w.registry)
      case RenderRaised => Outcome(World(w.registry, store'), Notices(outcome, guess), Some(MessageIsNone))
      case Rendered(_, _, registry') => Outcome(World(registry', store'), FollowUp(outcome, guess, gm.id), None)
  }

  /** `on_message_create` as written. A routed mastermind guess is handled
      by `MastermindGuess`. Any message aimed at a checkers game raises an
      AttributeError at line 138, before the author and the text are
      looked at and before anything changes: the game never receives a
      `multiguesser` attribute. The call at line 146, which passes only the
      text to an `add_guess` that also expects the user id, is therefore
      never reached for checkers. */
  function Dispatch(w: World, e: Event): (o: Outcome)
    requires WellFormedWorld(w)
    ensures Target(w, e).None? ==> o == Outcome(w, [], None)
    ensures Target(w, e).Some? && w.store[Target(w, e).value.1].CheckersEntry? ==>
      o == Outcome(w, [], Some(MissingAttribute))
    ensures Target(w, e).Some? && w.store[Target(w, e).value.1].MastermindEntry? && Route(w, e).None? ==>
      o == Outcome(w, [], None)
    ensures Route(w, e).Some? ==>
      o == MastermindGuess(w, Route(w, e).value.0, Route(w, e).value.1, e.content.value)
    ensures o.failure.None? ==> WellFormedWorld(o.world)
  {
    match Target(w, e)
    case None => Outcome(w, [], None)
    case Some((gm, h)) =>
      if w.store[h].CheckersEntry? then Outcome(w, [], Some(MissingAttribute))
      else if !Accepts(w.store[h], e) then Outcome(w, [], None)
      else MastermindGuess(w, gm, h, e.content.value)
  }

  /** A winning guess unregisters the game under both its message id and
      its channel id, and leaves every other key as it was. */
  lemma WinningGuessUnregisters(w: World, e: Event)
    requires WellFormedWorld(w)
    requires Route(w, e).Some? && w.store[Route(w, e).value.1].MastermindEntry?
    requires var g := w.store[Route(w, e).value.1].mastermind;
      g.message.Some? && IsDecimal(Strip(e.content.value)) && Strip(e.content.value) !in g.guesses
      && Strip(e.content.value) == g.number
    ensures var o := Dispatch(w, e);
      var g := w.store[Route(w, e).value.1].mastermind;
      && o.failure.None?
      && Lookup(o.world.registry, g.message.value.id) == None
      && Lookup(o.world.registry, g.message.value.channelId) == None
      && forall k :: k != g.message.value.id && k != g.message.value.channelId ==>
           Lookup(o.world.registry, k) == Lookup(w.registry, k)
  {
  }

  /** Every key that refers to the guessed-at game sees the updated game:
      a guess made by reply is visible through the channel key too. */
  lemma AliasesSeeTheGuess(w: World, e: Event, k: Snowflake)
    requires WellFormedWorld(w)
    requires Route(w, e).Some? && w.store[Route(w, e).value.1].MastermindEntry?
    requires Lookup(w.registry, k) == Some(Route(w, e).value.1)
    requires Lookup(Dispatch(w, e).world.registry, k).Some?
    ensures var h := Route(w, e).value.1;
      Dispatch(w, e).world.store[h] ==
        MastermindEntry(MM.AddGuess(w.store[h].mastermind, e.content.value).0)
  {
  }

  /** A routed checkers guess handled the way `CheckersGame.add_guess`
      expects to be called, with the author's id as well as the text.
      Unless the guess is Invalid, the game is rendered for the edit, which
      unregisters a finished game under its message and channel ids. */
  function CheckersGuess(w: World, gm: GameMessage, h: Handle, authorId: Snowflake, guess: string): (o: Outcome)
    requires WellFormedWorld(w) && h in w.store && w.store[h].CheckersEntry?
    ensures var (g', outcome) := CG.AddGuess(w.store[h].checkers, authorId, guess);
      && o.world.store == w.store[h := CheckersEntry(g')]
      && o.failure == None
      && (outcome == Invalid ==> o.actions == [] && o.world.registry == w.registry)
      && (outcome != Invalid ==> o.actions == FollowUp(outcome, guess, gm.id)
                                 && o.world.registry == CG.RenderUnregister(g', w.registry))
    ensures WellFormedWorld(o.world)
  {
    var (g', outcome) := CG.AddGuess(w.store[h].checkers, authorId, guess);
    var store' := w.store[h := CheckersEntry(g')];
    if outcome == Invalid then Outcome(World(w.registry, store'), [], None)
    else
      var registry' := CG.RenderUnregister(g', w.registry);
      UnregisterStaysInStore(g', w.registry, store');
      Outcome(World(registry', store'), FollowUp(outcome, guess, gm.id), None)
  }

  /** Unregistering a finished game keeps every remaining key pointing
      into the store. */
  lemma UnregisterStaysInStore(g: CG.Game, registry: Registry<Handle>, store: map<Handle, TextGame>)
    requires registry.Games? ==> forall k | k in registry.games :: registry.games[k] in store
    ensures var r := CG.RenderUnregister(g, registry);
      r.Games? ==> forall k | k in r.games :: r.games[k] in store
  {
    var r := CG.RenderUnregister(g, registry);
    if r.Games? {
      forall k | k in r.games ensures r.games[k] in store {
        assert Lookup(r, k) == Some(r.games[k]);
      }
    }
  }

  /** `on_message_create` with checkers games as evidently intended: the
      game has its `multiguesser` attribute (set by the corrected
      constructor), so the tests of lines 138-142 apply to it as to any
      game, and the call at line 146 passes the author's id along with the
      text. Mastermind games are handled as before. */
  function DispatchCorrected(w: World, e: Event): (o: Outcome)
    requires WellFormedWorld(w)
    ensures Target(w, e).None? ==> o == Outcome(w, [], None)
    ensures Target(w, e).Some? && w.store[Target(w, e).value.1].MastermindEntry? ==> o == Dispatch(w, e)
    ensures Target(w, e).Some? && w.store[Target(w, e).value.1].CheckersEntry? ==>
      var (gm, h) := Target(w, e).value;
      var g := w.store[h].checkers;
      && (e.content.None? || !(g.multiguesser || e.authorId == g.userId) ==> o == Outcome(w, [], None))
      && (e.content.Some? && (g.multiguesser || e.authorId == g.userId) ==>
            o == CheckersGuess(w, gm, h, e.authorId, e.content.value))
    ensures o.failure.None? ==> WellFormedWorld(o.world)
  {
    match Target(w, e)
    case None => Outcome(w, [], None)
    case Some((gm, h)) =>
      if !Accepts(w.store[h], e) then Outcome(w, [], None)
      else if w.store[h].CheckersEntry? then CheckersGuess(w, gm, h, e.authorId, e.content.value)
      else MastermindGuess(w, gm, h, e.content.value)
  }

  /** As written, any reply to a checkers game raises before anything
      changes; with the corrected constructor and call, a legal move sent by
      the player on turn (either of the two) is made, the game message is
      edited and the reply deleted, and the move cache stays coherent. */
  lemma CheckersReplyMakesTheMove(w: World, e: Event)
    requires WellFormedWorld(w)
    requires Target(w, e).Some? && w.store[Target(w, e).value.1].CheckersEntry?
    requires e.content.Some?
    requires var g := w.store[Target(w, e).value.1].checkers;
      && g.multiguesser
      && CG.CacheCoherent(g) && g.message.Some? && e.authorId == CG.UserOnTurn(g)
      && CG.ParseMove(e.content.value).Some?
      && var (p, q) := CG.ParseMove(e.content.value).value;
         CheckersBoard.IsLegalMove(g.board, g.player, g.repeatedCapture, p, CheckersBoard.Move(false, q))
         || CheckersBoard.IsLegalMove(g.board, g.player, g.repeatedCapture, p, CheckersBoard.Move(true, q))
    ensures Dispatch(w, e) == Outcome(w, [], Some(MissingAttribute))
    ensures var (gm, h) := Target(w, e).value;
      var g := w.store[h].checkers;
      var (p, q) := CG.ParseMove(e.content.value).value;
      var o := DispatchCorrected(w, e);
      && o.failure == None
      && o.actions == [EditGameMessage(gm.id), DeleteInput]
      && o.world.store[h].CheckersEntry?
      && o.world.store[h].checkers ==
           CG.MakeMove(g.(validMoves := Some(CheckersBoard.ValidMoves(g.board, g.player, g.repeatedCapture))),
                       p, q, CG.ReplyInput)
      && CG.CacheCoherent(o.world.store[h].checkers)
  {
    var (gm, h) := Target(w, e).value;
    var g := w.store[h].checkers;
    CG.AddGuessValidIffLegal(g, e.authorId, e.content.value);
    CG.AddGuessKeepsCacheCoherent(g, e.authorId, e.content.value);
  }
}

=== FILE: hangman.dfy ===
/** `hangman.py`: the status text of a hangman game, built from the word
    and the letters guessed so far. */
module Hangman {
  import opened Wrappers

  /** The module constant `maxMistakeCount`. */
  const MaxMistakeCount: nat := 5

  datatype Game = Game(word: string, guesses: seq<char>)

  /** The number of guesses, with repetitions, that are not in the word. */
  function MistakeCount(word: string, guesses: seq<char>): (n: nat)
    ensures n <= |guesses|
  {
    if guesses == [] then 0
    else MistakeCount(word, guesses[..|guesses| - 1]) + (if guesses[|guesses| - 1] in word then 0 else 1)
  }

  /** A new guess adds one mistake exactly when it is not in the word. */
  lemma MistakeCountGuess(word: string, guesses: seq<char>, c: char)
    ensures MistakeCount(word, guesses + [c]) == MistakeCount(word, guesses) + (if c in word then 0 else 1)
  {
    assert (guesses + [c])[..|guesses|] == guesses;
  }

  /** The mistakes are the guesses outside the word, counted with
      repetitions. */
  lemma {:induction false} MistakeCountIsWrongGuesses(word: string, guesses: seq<char>)
    ensures MistakeCount(word, guesses) == |WrongGuesses(word, guesses)|
    decreases |guesses|
  {
    if guesses != [] {
      var init := guesses[..|guesses| - 1];
      MistakeCountIsWrongGuesses(word, init);
      assert guesses == init + [guesses[|guesses| - 1]];
      WrongGuessesSnoc(word, init, guesses[|guesses| - 1]);
    }
  }

  /** The guesses outside the word, in order. */
  function WrongGuesses(word: string, guesses: seq<char>): (r: seq<char>)
    ensures forall i :: 0 <= i < |r| ==> r[i] !in word && r[i] in guesses
  {
    if guesses == [] then []
    else (if guesses[0] in word then [] else [guesses[0]]) + WrongGuesses(word, guesses[1..])
  }

  lemma {:induction false} WrongGuessesSnoc(word: string, guesses: seq<char>, c: char)
    ensures WrongGuesses(word, guesses + [c]) == WrongGuesses(word, guesses) + (if c in word then [] else [c])
    decreases |guesses|
  {
    if guesses == [] {
      assert [] + [c] == [c];
    } else {
      assert (guesses + [c])[1..] == guesses[1..] + [c];
      WrongGuessesSnoc(word, guesses[1..], c);
    }
  }

  /** The masked word: each letter shown when it was guessed, '_' elsewhere. */
  function Masked(word: string, guesses: seq<char>): (m: string)
    ensures |m| == |word|
    ensures forall i :: 0 <= i < |word| ==> m[i] == if word[i] in guesses then word[i] else '_'
  {
    seq(|word|, i requires 0 <= i < |word| => if word[i] in guesses then word[i] else '_')
  }

  /** Once every letter is guessed the masked word is the word; the converse
      holds for a word without '_'. */
  lemma MaskedRevealsWord(word: string, guesses: seq<char>)
    ensures (forall i :: 0 <= i < |word| ==> word[i] in guesses) ==> Masked(word, guesses) == word
    ensures '_' !in word && Masked(word, guesses) == word ==> forall i :: 0 <= i < |word| ==> word[i] in guesses
  {
    if '_' !in word && Masked(word, guesses) == word {
      forall i | 0 <= i < |word| ensures word[i] in guesses {
        assert Masked(word, guesses)[i] == word[i];
      }
    }
  }

  const LossText: string := "You have made too many incorrect guesses\nThe answer was: "
  const GuessesText: string := "\n\nGuesses: "

  /** `GetCurrentStatus`: the loss report revealing the word once the
      mistakes reach the maximum, the masked word otherwise, and in both
      cases the list of guesses in order. */
  function GetCurrentStatus(g: Game): (status: string)
    ensures MistakeCount(g.word, g.guesses) >= MaxMistakeCount ==>
      status == LossText + g.word + "." + GuessesText + g.guesses
    ensures MistakeCount(g.word, g.guesses) < MaxMistakeCount ==>
      status == Masked(g.word, g.guesses) + GuessesText + g.guesses
    ensures status[|status| - |GuessesText + g.guesses|..] == GuessesText + g.guesses
  {
    var head := if MistakeCount(g.word, g.guesses) >= MaxMistakeCount then LossText + g.word + "."
                else Masked(g.word, g.guesses);
    assert (head + (GuessesText + g.guesses))[|head|..] == GuessesText + g.guesses;
    head + GuessesText + g.guesses
  }

  // The word list.

  /** The module list `words` as written: a missing comma makes Python
      concatenate the adjacent literals 'these' and 'are' into one entry. */
  const WordsAsWritten: seq<string> := ["this", "is", "a", "test", "theseare", "some", "words"]

  /** The list as its layout intends it: eight separate words. */
  const Words: seq<string> := ["this", "is", "a", "test", "these", "are", "some", "words"]

  /** A new game as written: the word is drawn by index (the
      `random.choice` draw) from the list as written, and the game starts
      with no guesses; an index past the end is the draw that cannot
      happen, modelled as `None`. */
  function NewGame(index: nat): (g: Option<Game>)
    ensures g.Some? <==> index < |WordsAsWritten|
    ensures g.Some? ==> g.value.word == WordsAsWritten[index] && g.value.guesses == []
  {
    if index < |WordsAsWritten| then Some(Game(WordsAsWritten[index], [])) else None
  }

  /** The discrepancy: the written list has seven entries, the draw at
      index 4 gives the word "theseare", and no draw gives "these" or
      "are". */
  lemma WordsAsWrittenMergesTwoWords()
    ensures |WordsAsWritten| == 7
    ensures NewGame(4) == Some(Game("theseare", []))
    ensures forall i: nat :: NewGame(i).Some? ==> NewGame(i).value.word != "these" && NewGame(i).value.word != "are"
  {
    assert WordsAsWritten[4] == "theseare";
    forall i: nat | NewGame(i).Some?
      ensures NewGame(i).value.word != "these" && NewGame(i).value.word != "are"
    {
      assert NewGame(i).value.word == WordsAsWritten[i];
      assert "these" !in WordsAsWritten && "are" !in WordsAsWritten;
    }
  }

  /** A new game as intended: the same draw from the eight intended words. */
  function NewGameIntended(index: nat): (g: Option<Game>)
    ensures g.Some? <==> index < |Words|
    ensures g.Some? ==> g.value.word == Words[index] && g.value.guesses == []
  {
    if index < |Words| then Some(Game(Words[index], [])) else None
  }

  /** Every intended word can be drawn, "these" and "are" among them, and
      every word is a non-empty string of lower-case letters, so the masked
      word shows '_' exactly where a letter is still missing. */
  lemma WordsCanBeDrawn()
    ensures |Words| == 8
    ensures forall w :: w in Words ==> exists i :: 0 <= i < |Words| && NewGameIntended(i) == Some(Game(w, []))
    ensures NewGameIntended(4) == Some(Game("these", [])) && NewGameIntended(5) == Some(Game("are", []))
    ensures forall i :: 0 <= i < |Words| ==> |Words[i]| > 0 && '_' !in Words[i]
  {
    assert Words[4] == "these" && Words[5] == "are";
    forall w | w in Words
      ensures exists i :: 0 <= i < |Words| && NewGameIntended(i) == Some(Game(w, []))
    {
      var i :| 0 <= i < |Words| && Words[i] == w;
      assert NewGameIntended(i) == Some(Game(w, []));
    }
  }
}

=== FILE: mastermind.dfy ===
/** `MastermindGame` of `mastermind.py`: the secret number, guess
    validation and deduplication, the scoring of a guess (exact positions
    first, then the multiset intersection of what is left) and the win check
    that unregisters a finished game. */
module Mastermind {
  import opened Wrappers
  import opened Text
  import opened ReplyHandler

  /** The module constants `digit_count` and `higher_or_lower`. */
  const DigitCount: nat := 4
  const HigherOrLower: bool := false

  datatype Game = Game(
    userId: Snowflake,
    inThread: bool,
    message: Option<GameMessage>,
    number: string,
    guesses: seq<string>,
    multiguesser: bool)

  /** The game invariant: the secret is a `DigitCount`-digit decimal with a
      non-zero lead, and every stored guess is decimal. */
  predicate WellFormed(g: Game) {
    && |g.number| == DigitCount && IsDecimal(g.number) && g.number[0] != '0'
    && forall i :: 0 <= i < |g.guesses| ==> IsDecimal(g.guesses[i])
  }

  /** `MastermindGame.__init__`; `pick` is the value `randrange` drew from
      [10^(d-1), 10^d). The secret is its decimal string. */
  function NewGame(userId: Snowflake, multiguesser: bool, pick: nat): (g: Game)
    requires Pow10(DigitCount - 1) <= pick < Pow10(DigitCount)
    ensures WellFormed(g)
    ensures Value(g.number) == pick
    ensures g.guesses == [] && g.message == None && !g.inThread
  {
    NatToStringLength(pick, DigitCount);
    Game(userId, false, None, NatToString(pick), [], multiguesser)
  }

  /** `add_guess`: the stripped guess must be decimal (the empty string is
      not); a guess already made is reported and not stored again; any other
      is appended once. */
  function AddGuess(g: Game, guess: string): (r: (Game, GuessOutcome))
    ensures r.1 == Invalid <==> !IsDecimal(Strip(guess))
    ensures r.1 == AlreadyMade <==> IsDecimal(Strip(guess)) && Strip(guess) in g.guesses
    ensures r.1 != Valid ==> r.0 == g
    ensures r.1 == Valid ==> r.0 == g.(guesses := g.guesses + [Strip(guess)])
    ensures WellFormed(g) ==> WellFormed(r.0)
  {
    var processed := Strip(guess);
    if !IsDecimal(processed) then (g, Invalid)
    else if processed in g.guesses then (g, AlreadyMade)
    else (g.(guesses := g.guesses + [processed]), Valid)
  }

  // Scoring.

  /** The feedback on one guess. */
  datatype Info = TooSmall | TooBig | Correct | Score(positioned: nat, misplaced: nat)

  /** The multiset of digits that sit at the same index below k in both. */
  function MatchedUpTo(a: string, b: string, k: nat): multiset<char>
    requires k <= |a| && k <= |b|
  {
    if k == 0 then multiset{} else MatchedUpTo(a, b, k - 1) + (if a[k - 1] == b[k - 1] then multiset{a[k - 1]} else multiset{})
  }

  /** Correct digits in the wrong place: the size of the multiset
      intersection of the guess and secret digits left after removing the
      positional matches. */
  function Misplaced(guess: string, number: string): nat {
    var m := MatchedUpTo(guess, number, Min(|guess|, |number|));
    |(multiset(guess) - m) * (multiset(number) - m)|
  }

  lemma {:induction false} MatchedCount(a: string, b: string, k: nat)
    requires k <= |a| && k <= |b|
    ensures |MatchedUpTo(a, b, k)| == MatchesUpTo(a, b, k) <= k
    decreases k
  {
    if k > 0 {
      MatchedCount(a, b, k - 1);
    }
  }

  /** The matched digits below k are digits of the first prefix. */
  lemma {:induction false} MatchedSub(a: string, b: string, k: nat)
    requires k <= |a| && k <= |b|
    ensures MatchedUpTo(a, b, k) <= multiset(a[..k])
    decreases k
  {
    if k > 0 {
      MatchedSub(a, b, k - 1);
      assert a[..k] == a[..k - 1] + [a[k - 1]];
    }
  }

  /** The matches do not depend on which string comes first. */
  lemma {:induction false} MatchedSymmetric(a: string, b: string, k: nat)
    requires k <= |a| && k <= |b|
    ensures MatchedUpTo(a, b, k) == MatchedUpTo(b, a, k)
    decreases k
  {
    if k > 0 {
      MatchedSymmetric(a, b, k - 1);
    }
  }

  /** Python's `list.remove(x)`: deletes the first occurrence of `x`. */
  function RemoveFirst(xs: seq<char>, x: char): (r: seq<char>)
    requires x in xs
    ensures multiset(r) + multiset{x} == multiset(xs)
    ensures |r| == |xs| - 1
  {
    assert xs == [xs[0]] + xs[1..];
    if xs[0] == x then xs[1..]
    else [xs[0]] + RemoveFirst(xs[1..], x)
  }

  lemma SubtractAdded(a: multiset<char>, m: multiset<char>, g: multiset<char>)
    requires a + m == g
    ensures a == g - m
  {
    assert forall y :: a[y] == (g - m)[y];
  }

  lemma CardSub(a: multiset<char>, b: multiset<char>)
    requires a <= b
    ensures |b - a| == |b| - |a|
  {
    assert b == a + (b - a) by {
      assert forall y :: b[y] == (a + (b - a))[y];
    }
  }

  lemma CardInter(a: multiset<char>, b: multiset<char>)
    ensures |a * b| <= |b|
  {
    CardSub(a * b, b);
  }

  lemma IntersectBoth(x: char, a: multiset<char>, b: multiset<char>)
    ensures (multiset{x} + a) * (multiset{x} + b) == multiset{x} + a * b
  {
    assert forall y :: ((multiset{x} + a) * (multiset{x} + b))[y] == (multiset{x} + a * b)[y];
  }

  lemma IntersectOne(x: char, a: multiset<char>, b: multiset<char>)
    requires x !in b
    ensures (multiset{x} + a) * b == a * b
  {
    assert forall y :: ((multiset{x} + a) * b)[y] == (a * b)[y];
  }

  lemma PrefixWithin(s: string, k: nat)
    requires k <= |s|
    ensures multiset(s[..k]) <= multiset(s)
  {
    assert s == s[..k] + s[k..];
  }

  /** The matched digits below k form a sub-multiset of each string. */
  lemma MatchedWithin(a: string, b: string, k: nat)
    requires k <= |a| && k <= |b|
    ensures MatchedUpTo(a, b, k) <= multiset(a)
    ensures MatchedUpTo(a, b, k) <= multiset(b)
  {
    MatchedSub(a, b, k);
    MatchedSub(b, a, k);
    MatchedSymmetric(a, b, k);
    PrefixWithin(a, k);
    PrefixWithin(b, k);
  }

  /** One step of the first loop: the digit of an equal pair is still
      among the remaining digits, and removing it keeps the accounting. */
  lemma PassStep(a: string, b: string, i: nat, digits: seq<char>, whole: seq<char>)
    requires i < |a| && i < |b| && a[i] == b[i]
    requires whole == a || whole == b
    requires multiset(digits) + MatchedUpTo(a, b, i) == multiset(whole)
    ensures a[i] in digits
    ensures multiset(RemoveFirst(digits, a[i])) + MatchedUpTo(a, b, i + 1) == multiset(whole)
  {
    var d := a[i];
    var m := MatchedUpTo(a, b, i);
    MatchedWithin(a, b, i + 1);
    assert MatchedUpTo(a, b, i + 1) == m + multiset{d};
    assert multiset(whole)[d] == multiset(digits)[d] + m[d];
    assert multiset(digits)[d] > 0;
    var r := RemoveFirst(digits, d);
    assert forall y :: (multiset(r) + (m + multiset{d}))[y] == multiset(whole)[y];
  }

  /** The first loop of `_get_guess_info_mastermind`: it walks the `zip`
      pairs and, for each equal pair, counts it and removes one such digit
      from each list of digits. */
  method PositionalPass(guess: string, number: string)
    returns (positioned: nat, guessDigits: seq<char>, numberDigits: seq<char>)
    ensures positioned == ZipMatches(guess, number)
    ensures multiset(guessDigits) + MatchedUpTo(guess, number, Min(|guess|, |number|)) == multiset(guess)
    ensures multiset(numberDigits) + MatchedUpTo(guess, number, Min(|guess|, |number|)) == multiset(number)
  {
    var n := Min(|guess|, |number|);
    guessDigits := guess;
    numberDigits := number;
    positioned := 0;
    var i := 0;
    while i < n
      invariant 0 <= i <= n
      invariant positioned == MatchesUpTo(guess, number, i)
      invariant multiset(guessDigits) + MatchedUpTo(guess, number, i) == multiset(guess)
      invariant multiset(numberDigits) + MatchedUpTo(guess, number, i) == multiset(number)
    {
      if guess[i] == number[i] {
        var d := guess[i];
        PassStep(guess, number, i, guessDigits, guess);
        PassStep(guess, number, i, numberDigits, number);
        positioned := positioned + 1;
        guessDigits := RemoveFirst(guessDigits, d);
        numberDigits := RemoveFirst(numberDigits, d);
      }
      assert MatchedUpTo(guess, number, i + 1) == MatchedUpTo(guess, number, i) + (if guess[i] == number[i] then multiset{guess[i]} else multiset{});
      i := i + 1;
    }
  }

  /** The second loop: for each remaining guess digit still present among
      the remaining secret digits, count it and remove it from the secret. */
  method MisplacedPass(guessDigits: seq<char>, numberDigits: seq<char>) returns (misplaced: nat)
    ensures misplaced == |multiset(guessDigits) * multiset(numberDigits)|
  {
    var left := numberDigits;
    misplaced := 0;
    var j := 0;
    while j < |guessDigits|
      invariant 0 <= j <= |guessDigits|
      invariant misplaced + |multiset(guessDigits[j..]) * multiset(left)|
                == |multiset(guessDigits) * multiset(numberDigits)|
    {
      var d := guessDigits[j];
      assert guessDigits[j..] == [d] + guessDigits[j + 1..];
      if d in left {
        var rest := RemoveFirst(left, d);
        assert multiset(left) == multiset{d} + multiset(rest);
        IntersectBoth(d, multiset(guessDigits[j + 1..]), multiset(rest));
        misplaced := misplaced + 1;
        left := rest;
      } else {
        IntersectOne(d, multiset(guessDigits[j + 1..]), multiset(left));
      }
      j := j + 1;
    }
    assert guessDigits[j..] == [];
  }

  /** `_get_guess_info_mastermind`'s scoring of an in-range guess: the two
      loops together compute the positional matches and the multiset
      intersection of what they leave. */
  method ScoreDigits(guess: string, number: string) returns (positioned: nat, misplaced: nat)
    ensures positioned == ZipMatches(guess, number)
    ensures misplaced == Misplaced(guess, number)
  {
    var guessDigits, numberDigits;
    positioned, guessDigits, numberDigits := PositionalPass(guess, number);
    var m := MatchedUpTo(guess, number, Min(|guess|, |number|));
    SubtractAdded(multiset(guessDigits), m, multiset(guess));
    SubtractAdded(multiset(numberDigits), m, multiset(number));
    misplaced := MisplacedPass(guessDigits, numberDigits);
  }

  /** The two counts never exceed the number of secret digits. */
  lemma ScoreBound(guess: string, number: string)
    ensures ZipMatches(guess, number) + Misplaced(guess, number) <= |number|
  {
    var n := Min(|guess|, |number|);
    var m := MatchedUpTo(guess, number, n);
    MatchedCount(guess, number, n);
    MatchedWithin(guess, number, n);
    CardSub(m, multiset(number));
    CardInter(multiset(guess) - m, multiset(number) - m);
  }

  /** `_get_guess_info_mastermind`: out-of-range values are reported as too
      small or too big, in-range ones are scored. */
  function InfoMastermind(number: string, guess: string): (r: Info)
    requires IsDecimal(guess)
    ensures Value(guess) < Pow10(DigitCount - 1) <==> r == TooSmall
    ensures Value(guess) >= Pow10(DigitCount) <==> r == TooBig
    ensures r.Score? ==> r.positioned + r.misplaced <= |number|
  {
    var v := Value(guess);
    if v < Pow10(DigitCount - 1) then TooSmall
    else if v >= Pow10(DigitCount) then TooBig
    else
      ScoreBound(guess, number);
      Score(ZipMatches(guess, number), Misplaced(guess, number))
  }

  /** The secret scores full marks against itself. */
  lemma SelfScore(s: string)
    ensures ZipMatches(s, s) == |s| && Misplaced(s, s) == 0
  {
    MatchedCount(s, s, |s|);
    MatchesAll(s, s, |s|);
    MatchedWithin(s, s, |s|);
    var m := MatchedUpTo(s, s, |s|);
    assert s[..|s|] == s;
    SubMultisetSameSize(m, multiset(s));
    assert multiset(s) - m == multiset{};
  }

  /** A decimal guess with every secret digit in place is the secret: a
      longer one would have a leading zero, so its value would be too small
      to be in range. */
  lemma FullPositionedIsSecret(s: string, guess: string)
    requires |s| == DigitCount && s[0] != '0' && IsDecimal(guess)
    requires Value(guess) < Pow10(DigitCount)
    requires ZipMatches(guess, s) == DigitCount
    ensures guess == s
  {
    var n := Min(|guess|, |s|);
    MatchesAll(guess, s, n);
    MatchedCount(guess, s, n);
    assert n == DigitCount;
    assert guess[..DigitCount] == s[..DigitCount] == s;
    if |guess| > DigitCount {
      assert guess[0] == s[0];
      LeadingDigitBound(guess);
      Pow10Mono(DigitCount, |guess| - 1);
      assert false;
    }
    assert guess == guess[..DigitCount];
  }

  /** For a valid secret, an in-range guess equals the secret exactly when
      all digits are correctly positioned and none is misplaced. */
  lemma WinIffFullScore(g: Game, guess: string)
    requires WellFormed(g) && IsDecimal(guess)
    requires Pow10(DigitCount - 1) <= Value(guess) < Pow10(DigitCount)
    ensures guess == g.number <==>
            InfoMastermind(g.number, guess) == Score(DigitCount, 0)
  {
    if guess == g.number {
      SelfScore(guess);
    } else if ZipMatches(guess, g.number) == DigitCount {
      FullPositionedIsSecret(g.number, guess);
    }
  }

  lemma SubMultisetSameSize(a: multiset<char>, b: multiset<char>)
    requires a <= b && |a| == |b|
    ensures a == b
  {
    var d := b - a;
    assert b == a + d;
    assert |d| == 0;
    assert d == multiset{};
  }

  lemma {:induction false} Pow10Mono(a: nat, b: nat)
    requires a <= b
    ensures Pow10(a) <= Pow10(b)
    decreases b
  {
    if a < b {
      Pow10Mono(a, b - 1);
    }
  }

  /** `_get_guess_info_higher_or_lower`: Python's lexicographic string
      comparison against the secret. */
  function InfoHigherOrLower(number: string, guess: string): (r: Info)
    ensures r == TooBig || r == TooSmall || r == Correct
    ensures r == Correct <==> guess == number
    ensures r == TooBig <==> LexLess(number, guess)
    ensures r == TooSmall <==> LexLess(guess, number)
  {
    LexTrichotomy(guess, number);
    if LexLess(number, guess) then TooBig
    else if LexLess(guess, number) then TooSmall
    else Correct
  }

  function GuessInfo(number: string, guess: string): Info
    requires IsDecimal(guess)
  {
    if HigherOrLower then InfoHigherOrLower(number, guess) else InfoMastermind(number, guess)
  }

  /** What rendering the game (`__str__`) decides: the feedback for every
      guess, whether the game is won, and the registry after the win removes
      the message id and then the channel id. Rendering a won game whose
      message was never sent raises (it dereferences `None`). */
  datatype Rendered<G> = Rendered(infos: seq<Info>, won: bool, registry: Registry<G>) | RenderRaised

  function Render<G>(g: Game, registry: Registry<G>): (r: Rendered<G>)
    requires WellFormed(g)
    ensures r.Rendered? ==> (|r.infos| == |g.guesses|
      && forall i :: 0 <= i < |g.guesses| ==> r.infos[i] == GuessInfo(g.number, g.guesses[i]))
    ensures r.RenderRaised? <==> |g.guesses| > 0 && g.number == g.guesses[|g.guesses| - 1] && g.message.None?
    ensures r.Rendered? ==> (r.won <==> |g.guesses| > 0 && g.number == g.guesses[|g.guesses| - 1])
    ensures r.Rendered? && !r.won ==> r.registry == registry
    ensures r.Rendered? && r.won ==>
      && Lookup(r.registry, g.message.value.id) == None
      && Lookup(r.registry, g.message.value.channelId) == None
      && forall k :: k != g.message.value.id && k != g.message.value.channelId ==>
           Lookup(r.registry, k) == Lookup(registry, k)
  {
    var infos := seq(|g.guesses|, i requires 0 <= i < |g.guesses| => GuessInfo(g.number, g.guesses[i]));
    if |g.guesses| == 0 || g.number != g.guesses[|g.guesses| - 1] then Rendered(infos, false, registry)
    else if g.message.None? then RenderRaised
    else Rendered(infos, true, RemoveGame(RemoveGame(registry, g.message.value.id), g.message.value.channelId))
  }
}

=== FILE: minesweeper.dfy ===
/** `minesweeper.py`: the grid of covered, flagged and uncovered cells,
    flag toggling, `make_move` (only flagging is implemented; revealing
    raises) and the textual reply parser. There are no bombs in the code. */
module Minesweeper {
  import opened Wrappers
  import opened Text

  datatype CellState = Covered | Flagged | Uncovered
  datatype MoveOption = Flag | Reveal
  datatype InputMethod = ScreenInput | ReplyInput

  /** The exceptions the code raises. */
  datatype Error =
    | OutOfRange         // `toggle_cell_flagged_status` on a row or column >= size
    | IndexError         // a negative index below -size
    | UnexpectedState    // toggling an uncovered cell
    | UnexpectedOption   // `make_move` with REVEAL

  datatype Attempt<T> = Done(value: T) | Raised(error: Error)

  datatype Grid = Grid(size: nat, cells: seq<seq<CellState>>)

  predicate IsGrid(g: Grid) {
    && |g.cells| == g.size
    && forall r :: 0 <= r < |g.cells| ==> |g.cells[r]| == g.size
  }

  /** `MinesweeperGrid(size)`: size rows of size covered cells. */
  function NewGrid(size: nat): (g: Grid)
    ensures IsGrid(g) && g.size == size
    ensures forall r, c :: 0 <= r < size && 0 <= c < size ==> g.cells[r][c] == Covered
  {
    Grid(size, seq(size, _ => seq(size, _ => Covered)))
  }

  /** Python list indexing: a negative index counts from the end; anything
      outside [-n, n) raises. */
  function PyIndex(i: int, n: nat): (r: Option<nat>)
    ensures r.Some? <==> -(n as int) <= i < n
    ensures r.Some? ==> r.value < n && (r.value == i || r.value == i + n)
  {
    if 0 <= i < n then Some(i) else if -(n as int) <= i < 0 then Some(i + n) else None
  }

  /** `toggle_cell_flagged_status`: rejects a row or column >= size, flags a
      covered cell, unflags a flagged one, and raises on an uncovered one. */
  function Toggle(g: Grid, row: int, column: int): (r: Attempt<Grid>)
    requires IsGrid(g)
    ensures (row >= g.size || column >= g.size) ==> r == Raised(OutOfRange)
    ensures r.Done? ==> IsGrid(r.value) && r.value.size == g.size
    ensures r.Done? ==> PyIndex(row, g.size).Some? && PyIndex(column, g.size).Some?
    ensures r.Done? ==>
      var (i, j) := (PyIndex(row, g.size).value, PyIndex(column, g.size).value);
      && g.cells[i][j] != Uncovered
      && r.value.cells[i][j] == (if g.cells[i][j] == Covered then Flagged else Covered)
      && forall a, b :: 0 <= a < g.size && 0 <= b < g.size && (a, b) != (i, j) ==>
           r.value.cells[a][b] == g.cells[a][b]
    ensures row < g.size && column < g.size ==>
      (r.Raised? <==> PyIndex(row, g.size).None? || PyIndex(column, g.size).None?
                      || g.cells[PyIndex(row, g.size).value][PyIndex(column, g.size).value] == Uncovered)
  {
    if row >= g.size || column >= g.size then Raised(OutOfRange)
    else if PyIndex(row, g.size).None? || PyIndex(column, g.size).None? then Raised(IndexError)
    else
      var i := PyIndex(row, g.size).value;
      var j := PyIndex(column, g.size).value;
      match g.cells[i][j]
      case Covered => Done(g.(cells := g.cells[i := g.cells[i][j := Flagged]]))
      case Flagged => Done(g.(cells := g.cells[i := g.cells[i][j := Covered]]))
      case Uncovered => Raised(UnexpectedState)
  }

  /** Toggling the same cell twice restores the grid. */
  lemma ToggleTwice(g: Grid, row: int, column: int)
    requires IsGrid(g) && Toggle(g, row, column).Done?
    ensures Toggle(Toggle(g, row, column).value, row, column) == Done(g)
  {
    var i := PyIndex(row, g.size).value;
    var j := PyIndex(column, g.size).value;
    var g1 := Toggle(g, row, column).value;
    var g2 := Toggle(g1, row, column);
    assert g2.Done?;
    assert g2.value.cells[i] == g.cells[i];
    assert g2.value.cells == g.cells;
  }

  datatype Game = Game(
    grid: Grid,
    lastColumn: Option<int>,
    lastRow: Option<int>,
    lastOption: Option<MoveOption>,
    lastInputMethod: Option<InputMethod>)

  function NewGame(size: nat): (g: Game)
    ensures IsGrid(g.grid) && g.grid.size == size
    ensures g.lastColumn == None && g.lastRow == None && g.lastOption == None && g.lastInputMethod == None
  {
    Game(NewGrid(size), None, None, None, None)
  }

  /** `make_move`: an index >= size changes nothing; otherwise the move is
      recorded in the `last_*` fields first, then FLAG toggles the cell and
      REVEAL raises (keeping the recorded fields, since the object was
      already updated when the exception left). The exception is returned
      alongside the state it left behind. */
  function MakeMove(g: Game, row: int, column: int, option: MoveOption, inputMethod: InputMethod)
    : (r: (Game, Option<Error>))
    requires IsGrid(g.grid)
    ensures row >= g.grid.size || column >= g.grid.size ==> r == (g, None)
    ensures row < g.grid.size && column < g.grid.size ==>
      && r.0.lastRow == Some(row) && r.0.lastColumn == Some(column)
      && r.0.lastOption == Some(option) && r.0.lastInputMethod == Some(inputMethod)
    ensures row < g.grid.size && column < g.grid.size && option == Reveal ==>
      r.1 == Some(UnexpectedOption) && r.0.grid == g.grid
    ensures row < g.grid.size && column < g.grid.size && option == Flag ==>
      match Toggle(g.grid, row, column)
      case Done(grid') => r.1 == None && r.0.grid == grid'
      case Raised(e) => r.1 == Some(e) && r.0.grid == g.grid
    ensures IsGrid(r.0.grid) && r.0.grid.size == g.grid.size
  {
    if row >= g.grid.size || column >= g.grid.size then (g, None)
    else
      var recorded := g.(lastColumn := Some(column), lastRow := Some(row),
                         lastOption := Some(option), lastInputMethod := Some(inputMethod));
      if option == Reveal then (recorded, Some(UnexpectedOption))
      else match Toggle(g.grid, row, column)
        case Done(grid') => (recorded.(grid := grid'), None)
        case Raised(e) => (recorded, Some(e))
  }

  // The reply parser.

  /** The class `[a-x]` under IGNORECASE. Python's `re` matches a
      character whose lower case lies in the class, or which shares a case
      with a letter in it: besides A-X and a-x, that admits the dotless
      U+0131 and the dotted U+0130 (both i), the long s U+017F and the
      Kelvin sign U+212A (k). */
  predicate IsColumnLetter(c: char) {
    || 'a' <= c <= 'x' || 'A' <= c <= 'X'
    || c == '\U{131}' || c == '\U{130}' || c == '\U{17f}' || c == '\U{212a}'
  }

  /** The first character of `str.upper()` on a column letter: the ASCII
      lower-case letters, the dotless i and the long s have an upper-case
      ASCII letter; the other column letters are upper case already. */
  function UpperOf(c: char): (u: char)
    requires IsColumnLetter(c)
    ensures 'A' <= u <= 'X' <==> c != '\U{130}' && c != '\U{212a}'
    ensures 'a' <= c <= 'x' ==> u as int - c as int == 'A' as int - 'a' as int
    ensures 'A' <= c <= 'X' || c == '\U{130}' || c == '\U{212a}' ==> u == c
  {
    if 'a' <= c <= 'x' then (c as int - 'a' as int + 'A' as int) as char
    else if c == '\U{131}' then 'I'
    else if c == '\U{17f}' then 'S'
    else c
  }

  /** `\d{1,2}`. */
  predicate IsNumberText(s: string) {
    1 <= |s| <= 2 && forall i :: 0 <= i < |s| ==> IsDigit(s[i])
  }

  /** The flag group `(f?)` under IGNORECASE. */
  predicate IsFlagText(s: string) {
    s == "" || s == "f" || s == "F"
  }

  /** What the regex `^\s*(f?)\s*([a-x])\s*(\d{1,2})\s*$` (ignoring case)
      captures: the flag text, the letter and the digits. Matching from the
      right: after stripping, the digits are the trailing run of one or two
      digits, the letter is the last non-space character before them, and
      what precedes the letter must strip to the flag text. So "f5" is the
      letter F with no flag, as the regex finds after backtracking. */
  function MatchReply(text: string): (r: Option<(string, char, string)>)
    ensures r.Some? ==> IsFlagText(r.value.0) && IsColumnLetter(r.value.1) && IsNumberText(r.value.2)
  {
    var s := Strip(text);
    var k := DigitRun(s);
    if k == 0 then None
    else
      var rest := TrimRight(s[..|s| - k]);
      if rest == [] || !IsColumnLetter(rest[|rest| - 1]) then None
      else
        var flag := TrimRight(rest[..|rest| - 1]);
        if !IsFlagText(flag) then None
        else Some((flag, rest[|rest| - 1], s[|s| - k..]))
  }

  /** The length of the trailing run of digits, capped at two. */
  function DigitRun(s: string): (k: nat)
    ensures k <= 2 && k <= |s|
    ensures k > 0 ==> IsNumberText(s[|s| - k..])
  {
    if |s| >= 2 && IsDigit(s[|s| - 1]) && IsDigit(s[|s| - 2]) then 2
    else if |s| >= 1 && IsDigit(s[|s| - 1]) then 1
    else 0
  }

  /** `text` is text the reply regex matches, cut into its parts: the flag
      group, the letter and the digits, with whitespace around each. */
  predicate IsReplyText(text: string, w1: string, f: string, w2: string, letter: char, w3: string,
                        digits: string, w4: string) {
    && AllSpace(w1) && AllSpace(w2) && AllSpace(w3) && AllSpace(w4)
    && IsFlagText(f) && IsColumnLetter(letter) && IsNumberText(digits)
    && text == w1 + f + w2 + [letter] + w3 + digits + w4
  }

  /** Every reply that matches is text of the regex's shape, and the
      groups are its parts. */
  lemma MatchReplySound(text: string)
    requires MatchReply(text).Some?
    ensures var (f, letter, digits) := MatchReply(text).value;
      exists w1, w2, w3, w4 :: IsReplyText(text, w1, f, w2, letter, w3, digits, w4)
  {
    var (f, letter, digits) := MatchReply(text).value;
    var w1, w4 := AroundStripped(text);
    var w2, w3 := StrippedReply(text);
    ReplyRegroup(w1, f, w2, letter, w3, digits, w4);
    assert IsReplyText(text, w1, f, w2, letter, w3, digits, w4);
  }

  /** The stripped text of a matching reply, cut into its parts. */
  lemma StrippedReply(text: string) returns (w2: string, w3: string)
    requires MatchReply(text).Some?
    ensures var (f, letter, digits) := MatchReply(text).value;
      AllSpace(w2) && AllSpace(w3) && Strip(text) == f + w2 + [letter] + w3 + digits
  {
    var (f, letter, digits) := MatchReply(text).value;
    var s := Strip(text);
    var k := DigitRun(s);
    var head := s[..|s| - k];
    var rest := TrimRight(head);
    var pre := rest[..|rest| - 1];
    assert f == TrimRight(pre) && letter == rest[|rest| - 1] && digits == s[|s| - k..];
    w3 := TrimRightSplits(head);
    w2 := TrimRightSplits(pre);
    SplitAt(rest, |rest| - 1);
    SplitAt(s, |s| - k);
    ReplyPartsRegroup(s, head, rest, pre, f, w2, letter, w3, digits);
  }

  lemma ReplyPartsRegroup(s: string, head: string, rest: string, pre: string,
                          f: string, w2: string, letter: char, w3: string, digits: string)
    requires s == head + digits && head == rest + w3 && rest == pre + [letter] && pre == f + w2
    ensures s == f + w2 + [letter] + w3 + digits
  {
  }

  lemma ReplyRegroup(w1: string, f: string, w2: string, letter: char, w3: string, digits: string, w4: string)
    ensures w1 + ((f + w2) + [letter] + w3 + digits) + w4 == w1 + f + w2 + [letter] + w3 + digits + w4
  {
    var rhs := w1 + f + w2 + [letter] + w3 + digits + w4;
    var lhs := w1 + ((f + w2) + [letter] + w3 + digits) + w4;
    assert |lhs| == |rhs|;
    forall i | 0 <= i < |rhs| ensures lhs[i] == rhs[i] {
    }
  }

  /** Any text of the shape the regex describes is matched, with the same
      groups. */
  lemma MatchReplyComplete(w1: string, f: string, w2: string, letter: char, w3: string, digits: string, w4: string)
    requires AllSpace(w1) && AllSpace(w2) && AllSpace(w3) && AllSpace(w4)
    requires IsFlagText(f) && IsColumnLetter(letter) && IsNumberText(digits)
    ensures MatchReply(w1 + f + w2 + [letter] + w3 + digits + w4) == Some((f, letter, digits))
  {
    if f == "" {
      assert w1 + f + w2 + [letter] + w3 + digits + w4 == (w1 + w2) + [letter] + w3 + digits + w4;
      SpaceConcat(w1, w2);
      MatchUnflagged(w1 + w2, letter, w3, digits, w4);
    } else {
      MatchFlagged(w1, f, w2, letter, w3, digits, w4);
    }
  }

  lemma MatchUnflagged(w1: string, letter: char, w3: string, digits: string, w4: string)
    requires AllSpace(w1) && AllSpace(w3) && AllSpace(w4)
    requires IsColumnLetter(letter) && IsNumberText(digits)
    ensures MatchReply(w1 + [letter] + w3 + digits + w4) == Some(("", letter, digits))
  {
    var text := w1 + [letter] + w3 + digits + w4;
    var core := "" + [] + [letter] + w3 + digits;
    assert core == [letter] + w3 + digits;
    assert text == w1 + core + w4;
    assert core[0] == letter;
    assert core[|core| - 1] == digits[|digits| - 1];
    StripPadded(w1, core, w4);
    MatchStripped(text, "", [], letter, w3, digits);
  }

  lemma MatchFlagged(w1: string, f: string, w2: string, letter: char, w3: string, digits: string, w4: string)
    requires AllSpace(w1) && AllSpace(w2) && AllSpace(w3) && AllSpace(w4)
    requires (f == "f" || f == "F") && IsColumnLetter(letter) && IsNumberText(digits)
    ensures MatchReply(w1 + f + w2 + [letter] + w3 + digits + w4) == Some((f, letter, digits))
  {
    var text := w1 + f + w2 + [letter] + w3 + digits + w4;
    var core := f + w2 + [letter] + w3 + digits;
    assert text == w1 + core + w4;
    assert core[0] == f[0];
    StripPadded(w1, core, w4);
    MatchStripped(text, f, w2, letter, w3, digits);
  }

  lemma SpaceConcat(a: string, b: string)
    requires AllSpace(a) && AllSpace(b)
    ensures AllSpace(a + b)
  {
    forall i | 0 <= i < |a + b| ensures IsSpace((a + b)[i]) {
      if i >= |a| {
        assert (a + b)[i] == b[i - |a|];
      }
    }
  }

  /** The match of a text whose stripped form is already in shape. */
  lemma MatchStripped(text: string, f: string, w2: string, letter: char, w3: string, digits: string)
    requires AllSpace(w2) && AllSpace(w3)
    requires IsFlagText(f) && IsColumnLetter(letter) && IsNumberText(digits)
    requires Strip(text) == f + w2 + [letter] + w3 + digits
    ensures MatchReply(text) == Some((f, letter, digits))
  {
    MatchCore(f, w2, letter, w3, digits);
  }

  lemma MatchCore(f: string, w2: string, letter: char, w3: string, digits: string)
    requires AllSpace(w2) && AllSpace(w3)
    requires IsFlagText(f) && IsColumnLetter(letter) && IsNumberText(digits)
    ensures var s := f + w2 + [letter] + w3 + digits;
      var k := |digits|;
      && DigitRun(s) == k
      && s[|s| - k..] == digits
      && TrimRight(s[..|s| - k]) == f + w2 + [letter]
      && TrimRight(f + w2) == f
  {
    var s := f + w2 + [letter] + w3 + digits;
    var k := |digits|;
    assert s[..|s| - k] == (f + w2 + [letter]) + w3;
    TrimRightPadded(f + w2 + [letter], w3);
    TrimRightPadded(f, w2);
    DigitRunExact(f + w2 + [letter], w3, digits);
  }

  /** The trailing digit run stops at the letter or the spaces before the
      digits. */
  lemma DigitRunExact(head: string, w3: string, digits: string)
    requires head != [] && !IsDigit(head[|head| - 1])
    requires AllSpace(w3) && IsNumberText(digits)
    ensures DigitRun(head + w3 + digits) == |digits|
  {
    var s := head + w3 + digits;
    if |digits| == 1 {
      assert s[|s| - 2] == (head + w3)[|head + w3| - 1];
      if w3 != [] {
        assert IsSpace(s[|s| - 2]);
      }
    }
  }

  /** The column of a letter: the code of its upper case minus 'A'. Both
      cases of a letter A-X give the same column below 24; the dotless i is
      column I and the long s column S, while the dotted I and the Kelvin
      sign are far beyond any grid. */
  function ColumnOf(c: char): (col: nat)
    requires IsColumnLetter(c)
    ensures col < 24 <==> c != '\U{130}' && c != '\U{212a}'
    ensures 'a' <= c <= 'x' ==> col == c as int - 'a' as int
    ensures 'A' <= c <= 'X' ==> col == c as int - 'A' as int
    ensures c == '\U{131}' ==> col == ColumnOf('I')
    ensures c == '\U{17f}' ==> col == ColumnOf('S')
  {
    UpperOf(c) as int - 'A' as int
  }

  /** The dotless i in a reply stands for column I: on the default nine by
      nine grid "fı1" flags the top cell of the last column. */
  lemma DotlessIFlagsColumnI()
    ensures MatchReply(['f', '\U{131}', '1']) == Some(("f", '\U{131}', "1"))
    ensures ParseReply(['f', '\U{131}', '1'], 9) == Some((0, 8, Flag))
  {
    RowZeroMatchesDigit('\U{131}', '1');
    assert Value("1") == 1;
  }

  /** The reply parse of `on_message_create`: FLAG when the flag group is
      an f, otherwise REVEAL; the column of the letter; and the number less
      one as the row. A column or row >= size rejects the reply; "0" gives
      row -1, which passes the check. */
  function ParseReply(text: string, size: nat): (r: Option<(int, nat, MoveOption)>)
    ensures r.Some? ==> r.value.1 < size && -1 <= r.value.0 < size
    ensures r.Some? ==> MatchReply(text).Some? && (r.value.2 == Flag <==> MatchReply(text).value.0 != "")
    ensures MatchReply(text).None? ==> r.None?
    ensures MatchReply(text).Some? ==>
      var (_, letter, digits) := MatchReply(text).value;
      (r.Some? <==> ColumnOf(letter) < size && Value(digits) - 1 < size)
      && (r.Some? ==> r.value.0 == Value(digits) - 1 && r.value.1 == ColumnOf(letter))
  {
    match MatchReply(text)
    case None => None
    case Some((flag, letter, digits)) =>
      var option := if flag != "" then Flag else Reveal;
      var column := ColumnOf(letter);
      if column >= size then None
      else
        var row := Value(digits) - 1;
        if row >= size then None
        else Some((row, column, option))
  }

  /** A reply "0" (any column) reaches the grid as row -1, which Python's
      indexing maps to the last row: flagging it flags the last row's cell. */
  lemma RowZeroFlagsLastRow(g: Game, letter: char)
    requires IsGrid(g.grid) && g.grid.size > 0 && IsColumnLetter(letter) && ColumnOf(letter) < g.grid.size
    requires g.grid.cells[g.grid.size - 1][ColumnOf(letter)] == Covered
    ensures ParseReply(['f', letter, '0'], g.grid.size) == Some((-1, ColumnOf(letter), Flag))
    ensures var r := MakeMove(g, -1, ColumnOf(letter), Flag, ReplyInput);
      r.1 == None && r.0.grid.cells[g.grid.size - 1][ColumnOf(letter)] == Flagged
  {
    RowZeroMatches(letter);
    assert Value("0") == 0;
    var n := g.grid.size;
    var t := Toggle(g.grid, -1, ColumnOf(letter));
    assert PyIndex(-1, n) == Some(n - 1);
    assert t.Done? && t.value.cells[n - 1][ColumnOf(letter)] == Flagged;
  }

  lemma RowZeroMatches(letter: char)
    requires IsColumnLetter(letter)
    ensures MatchReply(['f', letter, '0']) == Some(("f", letter, "0"))
  {
    RowZeroMatchesDigit(letter, '0');
  }

  lemma RowZeroMatchesDigit(letter: char, digit: char)
    requires IsColumnLetter(letter) && IsDigit(digit)
    ensures MatchReply(['f', letter, digit]) == Some(("f", letter, [digit]))
  {
    var none: string := [];
    assert ['f', letter, digit] == none + "f" + none + [letter] + none + [digit] + none;
    MatchFlagged(none, "f", none, letter, none, [digit], none);
  }

  datatype ReplyOutcome = Ignored | Moved(game: Game, error: Option<Error>)

  /** `on_message_create`: only replies to a registered game message with
      text are considered; a parsed move is made, after which the screen is
      reloaded and the reply deleted (unless the move raised). `games`
      holds the games registered for replies, by message id. */
  function OnReply(games: map<nat, Game>, referenced: Option<nat>, content: Option<string>): (r: ReplyOutcome)
    requires forall k | k in games :: IsGrid(games[k].grid)
    ensures referenced.None? || referenced.value !in games || content.None? ==> r == Ignored
    ensures r.Moved? ==>
      && referenced.Some? && referenced.value in games && content.Some?
      && var g := games[referenced.value];
         ParseReply(content.value, g.grid.size).Some?
         && var (row, column, option) := ParseReply(content.value, g.grid.size).value;
            r == Moved(MakeMove(g, row, column, option, ReplyInput).0, MakeMove(g, row, column, option, ReplyInput).1)
    ensures (&& referenced.Some? && referenced.value in games && content.Some?
             && ParseReply(content.value, games[referenced.value].grid.size).Some?) ==> r.Moved?
  {
    if referenced.None? || referenced.value !in games || content.None? then Ignored
    else
      var g := games[referenced.value];
      match ParseReply(content.value, g.grid.size)
      case None => Ignored
      case Some((row, column, option)) =>
        var (g', e) := MakeMove(g, row, column, option, ReplyInput);
        Moved(g', e)
  }
}

=== FILE: pcgame.dfy ===
/** `PCGame.py`: the pieces of the generated text-adventure backend that
    carry logic: the enum rendering, the game state's screen transition,
    the filtering of visible actions, bounds-checked array access and the
    array iterator. */
module PCGame {
  import opened Wrappers
  import opened Text

  /** A generated enum value; `params` holds the already rendered
      parameters, and `None` stands for a value built without any. */
  datatype EnumValue = EnumValue(tag: string, index: nat, params: Option<seq<string>>)

  /** `Enum.__str__`: the bare tag without parameters, else the tag followed
      by the parameters separated by ", " in parentheses. */
  function EnumToString(e: EnumValue): (s: string)
    ensures |s| >= |e.tag| && s[..|e.tag|] == e.tag
    ensures e.params.None? ==> s == e.tag
    ensures e.params.Some? ==> |s| >= |e.tag| + 2 && s[|e.tag|] == '(' && s[|s| - 1] == ')'
    ensures e.params == Some([]) ==> s == e.tag + "()"
    ensures e.params.Some? ==> s[|e.tag| + 1..|s| - 1] == Join(", ", e.params.value)
    ensures e.params.Some? ==> |s| == |e.tag| + 2 + |Join(", ", e.params.value)|
  {
    match e.params
    case None => e.tag
    case Some(ps) => e.tag + "(" + Join(", ", ps) + ")"
  }

  /** Reading a rendered value back: the text before the first '(' and
      whether there was one. */
  function ReadTag(s: string): (string, bool) {
    if s == [] then ([], false)
    else if s[0] == '(' then ([], true)
    else var (t, p) := ReadTag(s[1..]); ([s[0]] + t, p)
  }

  lemma {:induction false} ReadTagAppend(tag: string, rest: string)
    requires '(' !in tag
    ensures ReadTag(tag + rest) == (tag + ReadTag(rest).0, ReadTag(rest).1)
    decreases |tag|
  {
    if tag != [] {
      assert (tag + rest)[0] == tag[0] && (tag + rest)[1..] == tag[1..] + rest;
      ReadTagAppend(tag[1..], rest);
      assert tag[0] != '(' && tag + rest != [];
      assert ReadTag(tag + rest) == ([tag[0]] + ReadTag(tag[1..] + rest).0, ReadTag(tag[1..] + rest).1);
      assert [tag[0]] + (tag[1..] + ReadTag(rest).0) == tag + ReadTag(rest).0;
    } else {
      assert tag + rest == rest && tag + ReadTag(rest).0 == ReadTag(rest).0;
    }
  }

  /** For a tag without '(', the rendering gives back the tag and tells a
      value with parameters (even an empty tuple) from one without. */
  lemma EnumToStringReadsBack(e: EnumValue)
    requires '(' !in e.tag
    ensures ReadTag(EnumToString(e)) == (e.tag, e.params.Some?)
  {
    match e.params
    case None =>
      ReadTagAppend(e.tag, []);
      assert e.tag + [] == e.tag;
    case Some(ps) =>
      var rest := "(" + Join(", ", ps) + ")";
      assert EnumToString(e) == e.tag + rest;
      ReadTagAppend(e.tag, rest);
      assert ReadTag(rest) == ([], true);
      assert e.tag + [] == e.tag;
  }

  /** The three health change kinds, each built with an empty tuple of
      parameters. */
  datatype HealthChangeType = PhysicalCombat | MagicalCombat | Heal

  function HealthChangeValue(h: HealthChangeType): (e: EnumValue)
    ensures e.params == Some([])
  {
    match h
    case PhysicalCombat => EnumValue("PhysicalCombat", 0, Some([]))
    case MagicalCombat => EnumValue("MagicalCombat", 1, Some([]))
    case Heal => EnumValue("Heal", 2, Some([]))
  }

  /** Built with `()` rather than without parameters, these constants
      render with a trailing "()". */
  lemma HealthChangeRendersWithParentheses()
    ensures EnumToString(HealthChangeValue(PhysicalCombat)) == "PhysicalCombat()"
    ensures EnumToString(HealthChangeValue(MagicalCombat)) == "MagicalCombat()"
    ensures EnumToString(HealthChangeValue(Heal)) == "Heal()"
  {
  }

  /** Screens are identified by their place in the global data. */
  datatype ScreenName = MainMenu | Test

  datatype GameState = GameState(currentScreen: ScreenName)

  /** `ScreenActionType.GotoScreen`, the only kind of action. */
  datatype ScreenActionType = GotoScreen(screen: ScreenName)

  datatype ScreenAction = ScreenAction(title: string, actionType: ScreenActionType, isVisible: GameState -> bool)

  datatype ActionScreen = ActionScreen(body: string, actions: seq<ScreenAction>)

  /** A new game state starts at the main menu. */
  function NewGameState(): (s: GameState)
    ensures s.currentScreen == MainMenu
  {
    GameState(MainMenu)
  }

  /** `HandleGameInput`: moves to the action's target screen and reports
      the input as handled. */
  function HandleGameInput(state: GameState, action: ScreenActionType): (r: (GameState, bool))
    ensures r.1
    ensures r.0.currentScreen == action.screen
  {
    (GameState(action.screen), true)
  }

  /** The reference: the visible actions, in their order. */
  ghost function Visible(actions: seq<ScreenAction>, state: GameState): seq<ScreenAction> {
    if actions == [] then []
    else Visible(actions[..|actions| - 1], state)
         + (if actions[|actions| - 1].isVisible(state) then [actions[|actions| - 1]] else [])
  }

  lemma VisibleBound(actions: seq<ScreenAction>, state: GameState)
    ensures |Visible(actions, state)| <= |actions|
    ensures forall a :: a in Visible(actions, state) ==> a in actions && a.isVisible(state)
  {
    if actions != [] {
      VisibleBound(actions[..|actions| - 1], state);
    }
  }

  /** `_get`: the element at a valid index, nothing otherwise. */
  function ArrayGet<T>(x: seq<T>, idx: int): (r: Option<T>)
    ensures r.Some? <==> 0 <= idx < |x|
    ensures r.Some? ==> r.value == x[idx]
  {
    if idx > -1 && idx < |x| then Some(x[idx]) else None
  }

  /** `GetActions`: walks the screen's actions with bounds-checked reads and
      keeps those visible in the given state. */
  method GetActions(screen: ActionScreen, state: GameState) returns (r: seq<ScreenAction>)
    ensures r == Visible(screen.actions, state)
    ensures |r| <= |screen.actions|
    ensures forall a :: a in r ==> a in screen.actions && a.isVisible(state)
  {
    r := [];
    var i := 0;
    while i < |screen.actions|
      invariant 0 <= i <= |screen.actions|
      invariant r == Visible(screen.actions[..i], state)
    {
      var action := ArrayGet(screen.actions, i);
      assert screen.actions[..i + 1][..i] == screen.actions[..i];
      i := i + 1;
      if action.value.isVisible(state) {
        r := r + [action.value];
      }
    }
    assert screen.actions[..i] == screen.actions;
    VisibleBound(screen.actions, state);
  }

  const MainMenuBody: string :=
    "Untitled text adventure game\n----------------------------\nBy the UTAS Programming Club\n\nCurrently unimplemented :("
  const StartTitle: string := "Start Game"

  /** The global data: a main menu whose one action, always visible, goes
      to a test screen with no actions. */
  function Screen(name: ScreenName): ActionScreen {
    match name
    case MainMenu =>
      ActionScreen(MainMenuBody, [ScreenAction(StartTitle, GotoScreen(Test), _ => true)])
    case Test => ActionScreen("This is a test", [])
  }

  /** From a new game, the only offered action leads to the test screen,
      where nothing is offered. */
  method StartGame() returns (offered: seq<ScreenAction>, after: GameState, remaining: seq<ScreenAction>)
    ensures |offered| == 1 && offered[0].title == StartTitle
    ensures after.currentScreen == Test
    ensures remaining == []
  {
    var state := NewGameState();
    ScreensVisible(state);
    offered := GetActions(Screen(state.currentScreen), state);
    var (next, _) := HandleGameInput(state, offered[0].actionType);
    after := next;
    ScreensVisible(after);
    remaining := GetActions(Screen(after.currentScreen), after);
  }

  lemma ScreensVisible(state: GameState)
    ensures Visible(Screen(MainMenu).actions, state) == Screen(MainMenu).actions
    ensures Visible(Screen(Test).actions, state) == []
  {
    assert Screen(MainMenu).actions[..0] == [];
  }

  /** `ArrayIterator`: an array and the position of the next read. */
  datatype ArrayIterator<T> = ArrayIterator(elements: seq<T>, current: int)

  function NewIterator<T>(elements: seq<T>): (it: ArrayIterator<T>)
    ensures it.elements == elements && it.current == 0
  {
    ArrayIterator(elements, 0)
  }

  predicate HasNext<T>(it: ArrayIterator<T>) {
    it.current < |it.elements|
  }

  /** `next`: the element at the current position, if any, and the
      position moved on by one in every case. */
  function Next<T>(it: ArrayIterator<T>): (r: (Option<T>, ArrayIterator<T>))
    ensures r.1.elements == it.elements && r.1.current == it.current + 1
    ensures 0 <= it.current ==> (r.0.Some? <==> HasNext(it))
    ensures r.0.Some? ==> 0 <= it.current < |it.elements| && r.0.value == it.elements[it.current]
  {
    (ArrayGet(it.elements, it.current), it.(current := it.current + 1))
  }

  /** Reading until `hasNext` fails yields the array from the starting
      position on. */
  method Drain<T>(it: ArrayIterator<T>) returns (items: seq<T>, last: ArrayIterator<T>)
    requires 0 <= it.current <= |it.elements|
    ensures items == it.elements[it.current..]
    ensures !HasNext(last) && last.current == |it.elements|
  {
    items := [];
    last := it;
    while HasNext(last)
      invariant last.elements == it.elements
      invariant it.current <= last.current <= |it.elements|
      invariant items == it.elements[it.current..last.current]
      decreases |it.elements| - last.current
    {
      var (x, next) := Next(last);
      assert it.elements[it.current..next.current] == it.elements[it.current..last.current] + [x.value];
      items := items + [x.value];
      last := next;
    }
  }
}

=== FILE: reply_handler.dfy ===
/** The shared reply-routing registry of `replyhandler.py`: the guess outcome
    enum, the process-wide map from snowflake to game (lazily created,
    last writer wins, idempotent removal) and the thread check used when a
    game starts. */
module ReplyHandler {
  import opened Wrappers

  /** A Discord snowflake: an opaque identifier compared only for equality. */
  type Snowflake = nat

  /** Outcome of `add_guess` for a text based game. */
  datatype GuessOutcome = Valid | Invalid | AlreadyMade

  /** The message a game is shown in: its own id and its channel's id. */
  datatype GameMessage = GameMessage(id: Snowflake, channelId: Snowflake)

  /** The module global `games`: it does not exist until the first
      `reset_reply_handler` (or `add_game`) runs. */
  datatype Registry<G> = Uninitialised | Games(games: map<Snowflake, G>)

  function Lookup<G>(r: Registry<G>, id: Snowflake): Option<G> {
    if r.Games? && id in r.games then Some(r.games[id]) else None
  }

  /** `reset_reply_handler`: an initialised registry holding no game. */
  function ResetReplyHandler<G>(): (r: Registry<G>)
    ensures r.Games?
    ensures forall id :: Lookup(r, id) == None
  {
    Games(map[])
  }

  /** `add_game`: creates the registry when absent, then maps `id` to `game`,
      replacing any earlier game under that id. */
  function AddGame<G>(r: Registry<G>, id: Snowflake, game: G): (r': Registry<G>)
    ensures r'.Games?
    ensures Lookup(r', id) == Some(game)
    ensures forall other :: other != id ==> Lookup(r', other) == Lookup(r, other)
  {
    var games := if r.Uninitialised? then ResetReplyHandler<G>().games else r.games;
    Games(games[id := game])
  }

  /** `remove_game`: forgets `id`; a no-op before initialisation or for an
      id that is not registered. */
  function RemoveGame<G>(r: Registry<G>, id: Snowflake): (r': Registry<G>)
    ensures r'.Games? <==> r.Games?
    ensures Lookup(r', id) == None
    ensures forall other :: other != id ==> Lookup(r', other) == Lookup(r, other)
    ensures Lookup(r, id) == None ==> r' == r
  {
    if r.Uninitialised? then r
    else Games(map k | k in r.games && k != id :: r.games[k])
  }

  /** Removing the same id twice is the same as removing it once. */
  lemma RemoveGameIdempotent<G>(r: Registry<G>, id: Snowflake)
    ensures RemoveGame(RemoveGame(r, id), id) == RemoveGame(r, id)
  {
  }

  /** Adding a game and then removing its id restores every other lookup. */
  lemma AddThenRemove<G>(r: Registry<G>, id: Snowflake, game: G)
    ensures Lookup(RemoveGame(AddGame(r, id, game), id), id) == None
    ensures forall other :: Lookup(RemoveGame(AddGame(r, id, game), id), other)
                           == (if other == id then None else Lookup(r, other))
  {
  }

  datatype ChannelType = GuildPublicThread | OtherChannelType
  datatype Channel = Channel(id: Snowflake, kind: ChannelType, name: string)

  /** `get_interaction_channel`: the channel is the cached thread when there is
      one, otherwise what the REST fetch returned (both passed in, since they
      are I/O); the interaction is in the right thread when that channel is a
      public thread named `name`. */
  function GetInteractionChannel(cached: Option<Channel>, fetched: Option<Channel>, name: string)
    : (r: (bool, Option<Channel>))
    ensures r.1 == (if cached.Some? then cached else fetched)
    ensures r.0 <==> r.1.Some? && r.1.value.kind == GuildPublicThread && r.1.value.name == name
  {
    var thread := if cached.None? then fetched else cached;
    (thread.Some? && thread.value.kind == GuildPublicThread && thread.value.name == name, thread)
  }
}

=== FILE: rps.dfy ===
/** `rockpaperscissors.py`: the two players' picks, recorded by button
    presses, and the decision once both are in. */
module RockPaperScissors {
  import opened Wrappers

  datatype Pick = Rock | Paper | Scissors

  /** The enum values: Rock = 1, Paper = 2, Scissors = 3. */
  function Ordinal(p: Pick): nat {
    match p
    case Rock => 1
    case Paper => 2
    case Scissors => 3
  }

  datatype Result = Pending | Tie | ChallengerWins | ChallengeeWins

  /** `determine_winner`: nothing until both picks are in; a tie for equal
      picks; the challenger wins with paper over rock, scissors over paper
      or rock over scissors; otherwise the challengee wins. */
  function DetermineWinner(challengerPick: Option<Pick>, challengeePick: Option<Pick>): (r: Result)
    ensures r == Pending <==> challengerPick.None? || challengeePick.None?
    ensures r == Tie <==> challengerPick.Some? && challengerPick == challengeePick
  {
    if challengerPick.None? || challengeePick.None? then Pending
    else
      var (a, b) := (challengerPick.value, challengeePick.value);
      if a == b then Tie
      else if (a == Paper && b == Rock) || (a == Scissors && b == Paper) || (a == Rock && b == Scissors)
      then ChallengerWins
      else ChallengeeWins
  }

  /** The cyclic reference: a pick beats the one whose value is one less,
      counting modulo 3. */
  predicate Beats(a: Pick, b: Pick) {
    (Ordinal(a) - Ordinal(b)) % 3 == 1
  }

  /** The decision agrees with the cyclic rule, in both directions, and
      swapping the picks swaps the winner. */
  lemma WinnerFollowsCycle(a: Pick, b: Pick)
    ensures DetermineWinner(Some(a), Some(b)) == ChallengerWins <==> Beats(a, b)
    ensures DetermineWinner(Some(a), Some(b)) == ChallengeeWins <==> Beats(b, a)
    ensures DetermineWinner(Some(a), Some(b)) == ChallengerWins <==>
            DetermineWinner(Some(b), Some(a)) == ChallengeeWins
  {
  }

  /** Exactly one of the three outcomes holds once both picks are in. */
  lemma ExactlyOneOutcome(a: Pick, b: Pick)
    ensures var r := DetermineWinner(Some(a), Some(b));
      r != Pending && (r == Tie <==> a == b) && (r == ChallengerWins <==> a != b && !Beats(b, a))
  {
  }

  datatype User = User(id: nat, username: string)

  datatype View = View(
    challenger: User,
    challengee: User,
    challengerPick: Option<Pick>,
    challengeePick: Option<Pick>,
    stopped: bool)

  /** `view_check`: only the two players may press, compared by username. */
  predicate ViewCheck(v: View, presser: User) {
    presser.username == v.challenger.username || presser.username == v.challengee.username
  }

  /** A press of the Rock, Paper or Scissors button: ignored when the view
      check fails; the challenger's press overwrites the challenger's pick,
      any other allowed press the challengee's; the view stops once both
      picks are in, with the decision as its result. */
  function Press(v: View, presser: User, pick: Pick): (r: Option<(View, Result)>)
    ensures r.None? <==> !ViewCheck(v, presser)
    ensures r.Some? && presser.username == v.challenger.username ==>
      r.value.0.challengerPick == Some(pick) && r.value.0.challengeePick == v.challengeePick
    ensures r.Some? && presser.username != v.challenger.username ==>
      r.value.0.challengeePick == Some(pick) && r.value.0.challengerPick == v.challengerPick
    ensures r.Some? ==> r.value.1 == DetermineWinner(r.value.0.challengerPick, r.value.0.challengeePick)
    ensures r.Some? ==> (r.value.0.stopped <==> v.stopped || r.value.1 != Pending)
    ensures r.Some? ==> r.value.0.challenger == v.challenger && r.value.0.challengee == v.challengee
  {
    if !ViewCheck(v, presser) then None
    else
      var v' := if presser.username == v.challenger.username then v.(challengerPick := Some(pick))
                else v.(challengeePick := Some(pick));
      var result := DetermineWinner(v'.challengerPick, v'.challengeePick);
      Some((v'.(stopped := v.stopped || result != Pending), result))
  }

  /** Two presses, one by each player, decide the game, whatever the order. */
  lemma BothPressesDecide(v: View, a: Pick, b: Pick)
    requires v.challenger.username != v.challengee.username
    requires v.challengerPick.None? && v.challengeePick.None?
    ensures var r1 := Press(v, v.challenger, a);
      && r1.Some? && r1.value.1 == Pending
      && var r2 := Press(r1.value.0, v.challengee, b);
         r2.Some? && r2.value.1 == DetermineWinner(Some(a), Some(b)) && r2.value.1 != Pending
  {
  }
}

=== FILE: text.dfy ===
/** The parts of Python's `str` behaviour that the bot's game logic relies on:
    whitespace stripping, decimal digits, `int`/`str` conversion of natural
    numbers, lexicographic comparison, ASCII case folding and `join`. */
module Text {

  /** Python's `str.isspace`, which is also what the `\s` class of `re`
      matches in a `str` pattern. */
  predicate IsSpace(c: char) {
    || c == ' '
    || ('\t' <= c <= '\r')
    || ('\U{1c}' <= c <= '\U{1f}')
    || c == '\U{85}' || c == '\U{a0}' || c == '\U{1680}'
    || ('\U{2000}' <= c <= '\U{200a}')
    || c == '\U{2028}' || c == '\U{2029}' || c == '\U{202f}'
    || c == '\U{205f}' || c == '\U{3000}'
  }

  predicate AllSpace(s: string) {
    forall i :: 0 <= i < |s| ==> IsSpace(s[i])
  }

  /** The end of the run of whitespace that starts at `i`. */
  function SpaceRunFrom(s: string, i: nat): (k: nat)
    requires i <= |s|
    ensures i <= k <= |s|
    ensures forall j :: i <= j < k ==> IsSpace(s[j])
    ensures k < |s| ==> !IsSpace(s[k])
    decreases |s| - i
  {
    if i < |s| && IsSpace(s[i]) then SpaceRunFrom(s, i + 1) else i
  }

  /** The start of the run of whitespace that ends at `e`. */
  function SpaceRunTo(s: string, e: nat): (k: nat)
    requires e <= |s|
    ensures k <= e
    ensures forall j :: k <= j < e ==> IsSpace(s[j])
    ensures k > 0 ==> !IsSpace(s[k - 1])
  {
    if e > 0 && IsSpace(s[e - 1]) then SpaceRunTo(s, e - 1) else e
  }

  /** `s.lstrip()`: drops the longest all-whitespace prefix. */
  function TrimLeft(s: string): (r: string)
    ensures |r| <= |s| && r == s[|s| - |r|..]
    ensures AllSpace(s[..|s| - |r|])
    ensures |r| > 0 ==> !IsSpace(r[0])
  {
    s[SpaceRunFrom(s, 0)..]
  }

  /** `s.rstrip()`: drops the longest all-whitespace suffix. */
  function TrimRight(s: string): (r: string)
    ensures |r| <= |s| && r == s[..|r|]
    ensures AllSpace(s[|r|..])
    ensures |r| > 0 ==> !IsSpace(r[|r| - 1])
  {
    s[..SpaceRunTo(s, |s|)]
  }

  /** `s.strip()` with no argument. */
  function Strip(s: string): (r: string)
    ensures |r| <= |s|
    ensures |r| > 0 ==> !IsSpace(r[0]) && !IsSpace(r[|r| - 1])
    ensures AllSpace(s) <==> r == []
  {
    StripEnds(s);
    TrimRight(TrimLeft(s))
  }

  lemma StripEnds(s: string)
    ensures var r := TrimRight(TrimLeft(s));
      && (|r| > 0 ==> !IsSpace(r[0]))
      && (AllSpace(s) <==> r == [])
  {
    if AllSpace(s) {
      StripOfSpace(s);
    } else {
      StripOfNonSpace(s);
    }
  }

  /** A string is its prefix followed by the rest. */
  lemma SplitAt(s: string, n: nat)
    requires n <= |s|
    ensures s == s[..n] + s[n..]
  {
  }

  /** The whitespace `Strip` removes from either end. */
  lemma AroundStripped(s: string) returns (w1: string, w4: string)
    ensures AllSpace(w1) && AllSpace(w4) && s == w1 + Strip(s) + w4
  {
    var l := TrimLeft(s);
    w1 := s[..|s| - |l|];
    SplitAt(s, |s| - |l|);
    w4 := TrimRightSplits(l);
    assert Strip(s) == TrimRight(l);
    Assoc(w1, TrimRight(l), w4);
  }

  lemma Assoc(a: string, b: string, c: string)
    ensures a + (b + c) == a + b + c
  {
    var lhs, rhs := a + (b + c), a + b + c;
    assert |lhs| == |rhs|;
    forall k | 0 <= k < |rhs| ensures lhs[k] == rhs[k] {
    }
  }


  /** The whitespace `TrimRight` removes. */
  lemma TrimRightSplits(s: string) returns (w: string)
    ensures AllSpace(w) && s == TrimRight(s) + w
  {
    w := s[|TrimRight(s)|..];
  }

  lemma StripOfSpace(s: string)
    requires AllSpace(s)
    ensures TrimLeft(s) == []
  {
  }

  lemma StripOfNonSpace(s: string)
    requires !AllSpace(s)
    ensures var r := TrimRight(TrimLeft(s)); r != [] && !IsSpace(r[0])
  {
    TrimLeftKeeps(s);
    TrimRightKeeps(TrimLeft(s));
  }

  lemma {:induction false} TrimLeftKeeps(s: string)
    requires !AllSpace(s)
    ensures TrimLeft(s) != []
    decreases |s|
  {
    if IsSpace(s[0]) {
      var i :| 0 <= i < |s| && !IsSpace(s[i]);
      assert s[1..][i - 1] == s[i];
      TrimLeftKeeps(s[1..]);
    }
  }

  lemma {:induction false} TrimRightKeeps(s: string)
    requires s != [] && !IsSpace(s[0])
    ensures TrimRight(s) != [] && TrimRight(s)[0] == s[0]
    decreases |s|
  {
    if IsSpace(s[|s| - 1]) {
      TrimRightKeeps(s[..|s| - 1]);
    }
  }

  lemma {:induction false} TrimLeftPadded(w: string, t: string)
    requires AllSpace(w)
    requires |t| > 0 ==> !IsSpace(t[0])
    ensures TrimLeft(w + t) == t
    decreases |w|
  {
    if |w| == 0 {
      assert w + t == t;
    } else {
      assert (w + t)[1..] == w[1..] + t;
      TrimLeftPadded(w[1..], t);
    }
  }

  lemma {:induction false} TrimRightPadded(t: string, w: string)
    requires AllSpace(w)
    requires |t| > 0 ==> !IsSpace(t[|t| - 1])
    ensures TrimRight(t + w) == t
    decreases |w|
  {
    if |w| == 0 {
      assert t + w == t;
    } else {
      assert (t + w)[..|t + w| - 1] == t + w[..|w| - 1];
      TrimRightPadded(t, w[..|w| - 1]);
    }
  }

  /** Stripping whitespace padding from a string whose ends are not
      whitespace gives the string back. */
  lemma StripPadded(w1: string, t: string, w2: string)
    requires AllSpace(w1) && AllSpace(w2)
    requires |t| > 0 ==> !IsSpace(t[0]) && !IsSpace(t[|t| - 1])
    ensures Strip(w1 + t + w2) == t
  {
    if |t| == 0 {
      assert AllSpace(w1 + t + w2) by {
        forall i | 0 <= i < |w1 + t + w2|
          ensures IsSpace((w1 + t + w2)[i])
        {
          if i >= |w1| { assert (w1 + t + w2)[i] == w2[i - |w1|]; }
        }
      }
    } else {
      assert w1 + t + w2 == w1 + (t + w2);
      assert (t + w2)[0] == t[0];
      TrimLeftPadded(w1, t + w2);
      TrimRightPadded(t, w2);
    }
  }

  // Decimal digits (ASCII only).

  predicate IsDigit(c: char) {
    '0' <= c <= '9'
  }

  function DigitValue(c: char): (d: nat)
    requires IsDigit(c)
    ensures d < 10
  {
    c as int - '0' as int
  }

  function DigitChar(d: nat): (c: char)
    requires d < 10
    ensures IsDigit(c) && DigitValue(c) == d
  {
    ('0' as int + d) as char
  }

  /** Python's `str.isdecimal`: non-empty and every character a digit. */
  predicate IsDecimal(s: string) {
    |s| > 0 && forall i :: 0 <= i < |s| ==> IsDigit(s[i])
  }

  function Pow10(n: nat): (p: nat)
    ensures p >= 1
  {
    if n == 0 then 1 else 10 * Pow10(n - 1)
  }

  /** Python's `int(s)` on a string of digits (leading zeros allowed). */
  function Value(s: string): nat
    requires forall i :: 0 <= i < |s| ==> IsDigit(s[i])
  {
    if |s| == 0 then 0 else DigitValue(s[0]) * Pow10(|s| - 1) + Value(s[1..])
  }

  /** Every digit string of length n is below 10^n. */
  lemma {:induction false} ValueBelow(s: string)
    requires forall i :: 0 <= i < |s| ==> IsDigit(s[i])
    ensures Value(s) < Pow10(|s|)
    decreases |s|
  {
    if |s| > 0 {
      var p := Pow10(|s| - 1);
      ValueBelow(s[1..]);
      assert Value(s[1..]) < p;
      assert DigitValue(s[0]) * p <= 9 * p by {
        MulMono(DigitValue(s[0]), 9, p);
      }
      assert Pow10(|s|) == 10 * p;
    }
  }

  lemma MulMono(a: nat, b: nat, c: nat)
    requires a <= b
    ensures a * c <= b * c
  {
  }

  lemma {:induction false} ValueSnoc(s: string, c: char)
    requires forall i :: 0 <= i < |s| ==> IsDigit(s[i])
    requires IsDigit(c)
    ensures Value(s + [c]) == Value(s) * 10 + DigitValue(c)
    decreases |s|
  {
    if |s| == 0 {
      assert s + [c] == [c];
      assert [c][1..] == [];
    } else {
      assert (s + [c])[1..] == s[1..] + [c];
      ValueSnoc(s[1..], c);
      var d, p := DigitValue(s[0]), Pow10(|s| - 1);
      assert Pow10(|s + [c]| - 1) == 10 * p;
      assert d * (10 * p) == (d * p) * 10;
      assert Value(s + [c]) == d * (10 * p) + Value(s[1..]) * 10 + DigitValue(c);
    }
  }

  /** Python's `str(n)` for a natural number. */
  function NatToString(n: nat): (s: string)
    ensures IsDecimal(s)
    ensures Value(s) == n
    ensures |s| > 1 ==> s[0] != '0'
  {
    if n < 10 then [DigitChar(n)]
    else
      var s := NatToString(n / 10) + [DigitChar(n % 10)];
      ValueSnoc(NatToString(n / 10), DigitChar(n % 10));
      s
  }

  /** `str(n)` has exactly d characters when 10^(d-1) <= n < 10^d. */
  lemma {:induction false} NatToStringLength(n: nat, d: nat)
    requires d >= 1 && Pow10(d - 1) <= n < Pow10(d)
    ensures |NatToString(n)| == d
    decreases d
  {
    if n >= 10 {
      assert d >= 2;
      assert Pow10(d - 2) <= n / 10 < Pow10(d - 1);
      NatToStringLength(n / 10, d - 1);
    }
  }

  /** A digit string whose first digit is not 0 is worth at least 10^(n-1). */
  lemma LeadingDigitBound(s: string)
    requires IsDecimal(s) && s[0] != '0'
    ensures Value(s) >= Pow10(|s| - 1)
  {
    MulMono(1, DigitValue(s[0]), Pow10(|s| - 1));
  }

  // Python's lexicographic comparison of `str` values by code point.

  predicate LexLess(a: string, b: string)
    decreases |a|
  {
    if |a| == 0 then |b| > 0
    else if |b| == 0 then false
    else if a[0] != b[0] then a[0] < b[0]
    else LexLess(a[1..], b[1..])
  }

  /** Python's `<` on strings is a strict total order: exactly one of
      `a < b`, `a == b`, `b < a` holds. */
  lemma {:induction false} LexTrichotomy(a: string, b: string)
    ensures a == b ==> !LexLess(a, b) && !LexLess(b, a)
    ensures a != b ==> (LexLess(a, b) <==> !LexLess(b, a))
    decreases |a|
  {
    if |a| > 0 && |b| > 0 && a[0] == b[0] {
      LexTrichotomy(a[1..], b[1..]);
      assert a == [a[0]] + a[1..] && b == [b[0]] + b[1..];
    }
  }

  // ASCII case folding.

  function FoldChar(c: char): char {
    if 'A' <= c <= 'Z' then (c as int + 32) as char else c
  }

  /** `s.casefold()` restricted to ASCII letters. */
  function Casefold(s: string): (r: string)
    ensures |r| == |s|
    ensures forall i :: 0 <= i < |s| ==> r[i] == FoldChar(s[i])
  {
    seq(|s|, i requires 0 <= i < |s| => FoldChar(s[i]))
  }

  /** The summed length of some strings. */
  function TotalLength(parts: seq<string>): nat {
    if parts == [] then 0 else |parts[0]| + TotalLength(parts[1..])
  }

  /** Python's `sep.join(parts)`: the parts in order, one separator between
      each two neighbours, starting with the first and ending with the last. */
  function Join(sep: string, parts: seq<string>): (r: string)
    ensures parts == [] ==> r == []
    ensures parts != [] ==> |parts[0]| <= |r| && r[..|parts[0]|] == parts[0]
    ensures parts != [] ==> |parts[|parts| - 1]| <= |r| && r[|r| - |parts[|parts| - 1]|..] == parts[|parts| - 1]
    ensures parts != [] ==> |r| == TotalLength(parts) + (|parts| - 1) * |sep|
  {
    if |parts| == 0 then []
    else if |parts| == 1 then parts[0]
    else
      var rest := Join(sep, parts[1..]);
      assert (parts[0] + sep + rest)[..|parts[0]|] == parts[0];
      assert (parts[0] + sep + rest)[|parts[0] + sep + rest| - |rest|..] == rest;
      parts[0] + sep + rest
  }

  /** Joining one more part appends the separator and that part: `Join`
      read from the other end. */
  lemma {:induction false} JoinSnoc(sep: string, parts: seq<string>, p: string)
    requires parts != []
    ensures Join(sep, parts + [p]) == Join(sep, parts) + sep + p
    decreases |parts|
  {
    if |parts| == 1 {
      assert (parts + [p])[1..] == [p];
    } else {
      assert (parts + [p])[1..] == parts[1..] + [p];
      JoinSnoc(sep, parts[1..], p);
    }
  }

  function Min(a: nat, b: nat): nat {
    if a < b then a else b
  }

  /** The number of indices below k where the two strings agree. */
  function MatchesUpTo(a: string, b: string, k: nat): nat
    requires k <= |a| && k <= |b|
  {
    if k == 0 then 0 else MatchesUpTo(a, b, k - 1) + (if a[k - 1] == b[k - 1] then 1 else 0)
  }

  /** The number of equal pairs `zip(a, b)` produces: `zip` stops at the
      end of the shorter string. */
  function ZipMatches(a: string, b: string): nat {
    MatchesUpTo(a, b, Min(|a|, |b|))
  }

  lemma {:induction false} MatchesBound(a: string, b: string, k: nat)
    requires k <= |a| && k <= |b|
    ensures MatchesUpTo(a, b, k) <= k
    decreases k
  {
    if k > 0 {
      MatchesBound(a, b, k - 1);
    }
  }

  /** Every index below k agrees exactly when all k of them count. */
  lemma {:induction false} MatchesAll(a: string, b: string, k: nat)
    requires k <= |a| && k <= |b|
    ensures MatchesUpTo(a, b, k) == k <==> a[..k] == b[..k]
    decreases k
  {
    if k > 0 {
      MatchesAll(a, b, k - 1);
      MatchesBound(a, b, k - 1);
      assert a[..k] == a[..k - 1] + [a[k - 1]];
      assert b[..k] == b[..k - 1] + [b[k - 1]];
      if a[..k] == b[..k] {
        assert a[..k - 1] == a[..k][..k - 1];
        assert b[..k - 1] == b[..k][..k - 1];
      }
    }
  }
}

=== FILE: tictactoe.dfy ===
/** `tictactoe.py`: the 3x3 grid of buttons coloured by the player who
    pressed them, the win detection over rows, columns and diagonals, the
    conversion of the view's buttons into a grid, and the press handling
    that restyles a button and passes the turn. */
module TicTacToe {
  import opened Wrappers

  /** Discord button styles; the module constants fix which is whose. */
  datatype Style = Primary | Danger | Secondary

  const ChallengerStyle: Style := Primary
  const ChallengeeStyle: Style := Danger
  const DefaultStyle: Style := Secondary

  type Board = seq<seq<Style>>

  /** `len(set(row)) == 1`: a non-empty row of one style. */
  predicate Uniform(row: seq<Style>) {
    |row| > 0 && forall i :: 0 <= i < |row| ==> row[i] == row[0]
  }

  /** `check_rows`: the style of the first uniform row that is not the
      default style. */
  function CheckRows(board: Board): (r: Option<Style>)
    ensures r.Some? <==> exists i :: 0 <= i < |board| && Uniform(board[i]) && board[i][0] != DefaultStyle
    ensures r.Some? ==> r.value != DefaultStyle
    ensures r.Some? ==> exists i :: 0 <= i < |board| && Uniform(board[i]) && board[i][0] == r.value
  {
    if board == [] then None
    else if Uniform(board[0]) && board[0][0] != DefaultStyle then Some(board[0][0])
    else
      var rest := CheckRows(board[1..]);
      assert forall i :: 1 <= i < |board| ==> board[i] == board[1..][i - 1];
      rest
  }

  /** `list(zip(*board))` of a square board: its columns as rows. */
  function Transpose(board: Board): (t: Board)
    requires forall i :: 0 <= i < |board| ==> |board[i]| == |board|
    ensures |t| == |board|
    ensures forall j :: 0 <= j < |t| ==> |t[j]| == |board|
    ensures forall i, j :: 0 <= i < |board| && 0 <= j < |board| ==> t[j][i] == board[i][j]
  {
    seq(|board|, j requires 0 <= j < |board| => seq(|board|, i requires 0 <= i < |board| => board[i][j]))
  }

  predicate IsSquare(board: Board) {
    forall i :: 0 <= i < |board| ==> |board[i]| == |board|
  }

  function MainDiagonal(board: Board): (d: seq<Style>)
    requires IsSquare(board)
    ensures |d| == |board| && forall i :: 0 <= i < |board| ==> d[i] == board[i][i]
  {
    seq(|board|, i requires 0 <= i < |board| => board[i][i])
  }

  function AntiDiagonal(board: Board): (d: seq<Style>)
    requires IsSquare(board)
    ensures |d| == |board| && forall i :: 0 <= i < |board| ==> d[i] == board[i][|board| - i - 1]
  {
    seq(|board|, i requires 0 <= i < |board| => board[i][|board| - i - 1])
  }

  /** `check_diagonals`: the top-left style when the main diagonal is
      uniform, else the top-right style when the anti-diagonal is; unlike
      `check_rows` this may return the default style. */
  function CheckDiagonals(board: Board): (r: Option<Style>)
    requires IsSquare(board)
    ensures Uniform(MainDiagonal(board)) ==> r == Some(board[0][0])
    ensures !Uniform(MainDiagonal(board)) && Uniform(AntiDiagonal(board)) ==> r == Some(board[0][|board| - 1])
    ensures r.None? <==> !Uniform(MainDiagonal(board)) && !Uniform(AntiDiagonal(board))
  {
    if Uniform(MainDiagonal(board)) then Some(board[0][0])
    else if Uniform(AntiDiagonal(board)) then Some(board[0][|board| - 1])
    else None
  }

  /** `check_win`: rows, then columns, then diagonals. */
  function CheckWin(board: Board): (r: Option<Style>)
    requires IsSquare(board)
    ensures CheckRows(board).Some? ==> r == CheckRows(board)
    ensures CheckRows(board).None? && CheckRows(Transpose(board)).Some? ==> r == CheckRows(Transpose(board))
    ensures CheckRows(board).None? && CheckRows(Transpose(board)).None? ==> r == CheckDiagonals(board)
  {
    match CheckRows(board)
    case Some(s) => Some(s)
    case None =>
      match CheckRows(Transpose(board))
      case Some(s) => Some(s)
      case None => CheckDiagonals(board)
  }

  /** `determine_winner`'s test: the game is over only when the result is one
      of the two players' styles. */
  predicate Ended(result: Option<Style>) {
    result == Some(ChallengerStyle) || result == Some(ChallengeeStyle)
  }

  /** The eight lines of a 3x3 grid, as the reference for a win. */
  predicate HasLine(b: Board, s: Style)
    requires |b| == 3 && IsSquare(b)
  {
    || (exists r :: 0 <= r < 3 && b[r][0] == s && b[r][1] == s && b[r][2] == s)
    || (exists c :: 0 <= c < 3 && b[0][c] == s && b[1][c] == s && b[2][c] == s)
    || (b[0][0] == s && b[1][1] == s && b[2][2] == s)
    || (b[0][2] == s && b[1][1] == s && b[2][0] == s)
  }

  lemma UniformThree(row: seq<Style>)
    requires |row| == 3
    ensures Uniform(row) <==> row[0] == row[1] && row[1] == row[2]
  {
  }

  lemma RowsFindLine(b: Board)
    requires |b| == 3 && IsSquare(b)
    ensures CheckRows(b).Some? <==>
      exists r :: 0 <= r < 3 && b[r][0] != DefaultStyle && b[r][0] == b[r][1] && b[r][1] == b[r][2]
    ensures CheckRows(b).Some? ==>
      exists r :: 0 <= r < 3 && b[r][0] == CheckRows(b).value && b[r][0] == b[r][1] && b[r][1] == b[r][2]
  {
    forall r | 0 <= r < 3 {
      UniformThree(b[r]);
    }
  }

  /** The game ends exactly when some line of the grid holds three cells of
      one player's style: the default-style diagonal that `check_diagonals`
      may return never ends the game, and it cannot hide a player's
      diagonal, since both diagonals share the centre cell. */
  lemma EndedIffLine(b: Board)
    requires |b| == 3 && IsSquare(b)
    ensures Ended(CheckWin(b)) <==> HasLine(b, ChallengerStyle) || HasLine(b, ChallengeeStyle)
  {
    if Ended(CheckWin(b)) {
      LineIfEnded(b);
    }
    if HasLine(b, ChallengerStyle) {
      EndedIfLine(b, ChallengerStyle);
    }
    if HasLine(b, ChallengeeStyle) {
      EndedIfLine(b, ChallengeeStyle);
    }
  }

  lemma LineIfEnded(b: Board)
    requires |b| == 3 && IsSquare(b)
    requires Ended(CheckWin(b))
    ensures HasLine(b, CheckWin(b).value)
  {
    var t := Transpose(b);
    var s := CheckWin(b).value;
    RowsFindLine(b);
    if CheckRows(b).None? {
      RowsFindLine(t);
      if CheckRows(t).Some? {
        var c :| 0 <= c < 3 && t[c][0] == s && t[c][0] == t[c][1] && t[c][1] == t[c][2];
        assert b[0][c] == s && b[1][c] == s && b[2][c] == s;
      } else {
        UniformThree(MainDiagonal(b));
        UniformThree(AntiDiagonal(b));
      }
    }
  }

  lemma EndedIfLine(b: Board, s: Style)
    requires |b| == 3 && IsSquare(b)
    requires s == ChallengerStyle || s == ChallengeeStyle
    requires HasLine(b, s)
    ensures Ended(CheckWin(b))
  {
    var t := Transpose(b);
    RowsFindLine(b);
    RowsFindLine(t);
    if exists c :: 0 <= c < 3 && b[0][c] == s && b[1][c] == s && b[2][c] == s {
      var c :| 0 <= c < 3 && b[0][c] == s && b[1][c] == s && b[2][c] == s;
      assert t[c][0] == s && t[c][1] == s && t[c][2] == s;
    } else {
      UniformThree(MainDiagonal(b));
      UniformThree(AntiDiagonal(b));
    }
  }

  // The view.

  datatype User = User(id: nat, username: string)

  datatype Button = Button(cellNumber: nat, style: Style, disabled: bool)

  datatype View = View(
    challenger: User,
    challengee: User,
    currentPlayer: User,
    children: seq<Button>,
    stopped: bool)

  /** The buttons are the nine cells in order, as the view's initialiser
      adds them. */
  predicate WellFormedView(v: View) {
    && |v.children| == 9
    && forall i :: 0 <= i < 9 ==> v.children[i].cellNumber == i
  }

  /** `TicTacToeView(challenger, challengee)`: nine default-styled enabled
      buttons, and the challenger to play. */
  function NewView(challenger: User, challengee: User): (v: View)
    ensures WellFormedView(v) && v.currentPlayer == challenger && !v.stopped
    ensures forall i :: 0 <= i < 9 ==> v.children[i].style == DefaultStyle && !v.children[i].disabled
  {
    View(challenger, challengee, challenger, seq(9, i requires 0 <= i < 9 => Button(i, DefaultStyle, false)), false)
  }

  /** The grid the buttons show: cell `3 * r + c` at row r, column c. */
  function Grid(children: seq<Button>): (b: Board)
    requires |children| == 9
    ensures |b| == 3 && IsSquare(b)
  {
    seq(3, r requires 0 <= r < 3 => seq(3, c requires 0 <= c < 3 => children[3 * r + c].style))
  }

  /** `produce_board`: walks the buttons, starting a new row whenever
      `cell_number // 3` changes, and appends the last row at the end. */
  method ProduceBoard(children: seq<Button>) returns (grid: Board)
    requires |children| == 9 && forall i :: 0 <= i < 9 ==> children[i].cellNumber == i
    ensures grid == Grid(children)
  {
    grid := [];
    var row: seq<Style> := [];
    var rowNum := -1;
    var k := 0;
    while k < |children|
      invariant 0 <= k <= 9
      invariant k == 0 ==> rowNum == -1 && grid == [] && row == []
      invariant k > 0 ==> rowNum == (k - 1) / 3 && |grid| == rowNum
                          && row == seq(k - 3 * rowNum, i requires 0 <= i < k - 3 * rowNum => children[3 * rowNum + i].style)
      invariant forall r :: 0 <= r < |grid| ==> grid[r] == Grid(children)[r]
    {
      var child := children[k];
      if child.cellNumber / 3 != rowNum {
        if k > 0 {
          assert |row| == 3;
          assert row == Grid(children)[rowNum];
          grid := grid + [row];
        }
        row := [];
        rowNum := child.cellNumber / 3;
      }
      row := row + [child.style];
      k := k + 1;
    }
    assert row == Grid(children)[2];
    grid := grid + [row];
  }

  /** `view_check`: only the player on turn may press, compared by username. */
  predicate ViewCheck(v: View, presser: User) {
    presser.username == v.currentPlayer.username
  }

  /** A press of button `cell`: `None` when the press fails the view check;
      otherwise the button takes the challengee's style and the turn passes
      to the challengee when the challenger pressed, and the other way round
      otherwise; the button is disabled. When the grid then shows a finished
      game, every button is disabled and the view stops. */
  function Press(v: View, presser: User, cell: nat): (r: Option<View>)
    requires WellFormedView(v) && cell < 9
    ensures r.None? <==> !ViewCheck(v, presser)
    ensures r.Some? ==> WellFormedView(r.value)
    ensures r.Some? && presser.username == v.challenger.username ==>
      r.value.children[cell].style == ChallengeeStyle && r.value.currentPlayer == v.challengee
    ensures r.Some? && presser.username != v.challenger.username ==>
      r.value.children[cell].style == ChallengerStyle && r.value.currentPlayer == v.challenger
    ensures r.Some? ==> r.value.children[cell].disabled
    ensures r.Some? ==> forall i :: 0 <= i < 9 && i != cell ==> r.value.children[i].style == v.children[i].style
    ensures r.Some? && Ended(CheckWin(Grid(r.value.children))) ==>
      forall i :: 0 <= i < 9 ==> r.value.children[i].disabled
    ensures r.Some? && !Ended(CheckWin(Grid(r.value.children))) ==>
      forall i :: 0 <= i < 9 && i != cell ==> r.value.children[i] == v.children[i]
    ensures r.Some? ==> (r.value.stopped <==> v.stopped || Ended(CheckWin(Grid(r.value.children))))
  {
    if !ViewCheck(v, presser) then None
    else
      var byChallenger := presser.username == v.challenger.username;
      var style := if byChallenger then ChallengeeStyle else ChallengerStyle;
      var next := if byChallenger then v.challengee else v.challenger;
      var children := v.children[cell := v.children[cell].(style := style, disabled := true)];
      if Ended(CheckWin(Grid(children))) then
        var disabledAll := seq(9, i requires 0 <= i < 9 => children[i].(disabled := true));
        assert Grid(disabledAll) == Grid(children) by {
          forall r | 0 <= r < 3 ensures Grid(disabledAll)[r] == Grid(children)[r] {
            assert forall c :: 0 <= c < 3 ==> Grid(disabledAll)[r][c] == Grid(children)[r][c];
          }
        }
        Some(v.(currentPlayer := next, children := disabledAll, stopped := true))
      else Some(v.(currentPlayer := next, children := children))
  }

  /** A line of style s that survives a change of one cell to another style
      was already there. */
  lemma LineSurvivesOtherStyle(before: Board, after: Board, r0: nat, c0: nat, s: Style)
    requires |before| == 3 && IsSquare(before) && |after| == 3 && IsSquare(after)
    requires r0 < 3 && c0 < 3 && after[r0][c0] != s
    requires forall r, c :: 0 <= r < 3 && 0 <= c < 3 && (r, c) != (r0, c0) ==> after[r][c] == before[r][c]
    requires HasLine(after, s)
    ensures HasLine(before, s)
  {
    if exists r :: 0 <= r < 3 && after[r][0] == s && after[r][1] == s && after[r][2] == s {
      var r :| 0 <= r < 3 && after[r][0] == s && after[r][1] == s && after[r][2] == s;
      assert before[r][0] == s && before[r][1] == s && before[r][2] == s;
    } else if exists c :: 0 <= c < 3 && after[0][c] == s && after[1][c] == s && after[2][c] == s {
      var c :| 0 <= c < 3 && after[0][c] == s && after[1][c] == s && after[2][c] == s;
      assert before[0][c] == s && before[1][c] == s && before[2][c] == s;
    }
  }

  /** Buttons that differ in one cell's style show grids that differ in
      that cell only. */
  lemma OneCellGrid(before: seq<Button>, after: seq<Button>, cell: nat, r0: nat, c0: nat)
    requires |before| == 9 && |after| == 9
    requires r0 < 3 && c0 < 3 && cell == 3 * r0 + c0
    requires forall i :: 0 <= i < 9 && i != cell ==> after[i].style == before[i].style
    ensures Grid(after)[r0][c0] == after[cell].style
    ensures forall r, c :: 0 <= r < 3 && 0 <= c < 3 && (r, c) != (r0, c0) ==> Grid(after)[r][c] == Grid(before)[r][c]
  {
    forall r, c | 0 <= r < 3 && 0 <= c < 3 && (r, c) != (r0, c0)
      ensures Grid(after)[r][c] == Grid(before)[r][c]
    {
      assert 3 * r + c != cell;
    }
  }

  /** A press that ends a game that had not ended is won by the style just
      placed: the announced winner is the player whose presses carry the
      winning style. */
  lemma WinningPressOwnsTheLine(v: View, presser: User, cell: nat)
    requires WellFormedView(v) && cell < 9
    requires !Ended(CheckWin(Grid(v.children)))
    requires Press(v, presser, cell).Some?
    requires Ended(CheckWin(Grid(Press(v, presser, cell).value.children)))
    ensures CheckWin(Grid(Press(v, presser, cell).value.children))
            == Some(Press(v, presser, cell).value.children[cell].style)
  {
    var after := Press(v, presser, cell).value;
    var a := Grid(after.children);
    var b := Grid(v.children);
    var s := CheckWin(a).value;
    LineIfEnded(a);
    if s != after.children[cell].style {
      var r0, c0 := cell / 3, cell % 3;
      OneCellGrid(v.children, after.children, cell, r0, c0);
      LineSurvivesOtherStyle(b, a, r0, c0, s);
      EndedIfLine(b, s);
      assert false;
    }
  }
}

=== FILE: words.dfy ===
/** `wordmanipulation.py`: the word list preparation, the two minigames
    (missing vowels and unscramble), guess bookkeeping and scoring, the win
    check, and the module's own reply registry and input filter. */
module WordManipulation {
  import opened Wrappers
  import opened Text
  import opened ReplyHandler

  // Vowels.

  /** Membership in `vowel_set`. */
  predicate IsVowel(c: char) {
    c == 'a' || c == 'e' || c == 'i' || c == 'o' || c == 'u'
  }

  /** Python iterates a `set` in an order fixed by string hashing, which
      varies between runs; the model takes that order as a parameter: each
      vowel exactly once. */
  predicate IsVowelOrder(order: seq<char>) {
    && |order| == 5
    && (forall i :: 0 <= i < |order| ==> IsVowel(order[i]))
    && (forall i, j :: 0 <= i < j < |order| ==> order[i] != order[j])
  }

  /** `str.count` of a one-character string. */
  function Count(s: string, c: char): nat {
    if s == [] then 0 else (if s[0] == c then 1 else 0) + Count(s[1..], c)
  }

  /** `_count_vowels`: the counts of each vowel, summed in iteration order. */
  function CountVowels(word: string, order: seq<char>): nat {
    if order == [] then 0 else Count(word, order[0]) + CountVowels(word, order[1..])
  }

  /** The reference: the number of positions that hold a vowel. */
  function VowelPositions(s: string): nat {
    if s == [] then 0 else (if IsVowel(s[0]) then 1 else 0) + VowelPositions(s[1..])
  }

  /** The number of entries of `order` equal to `x`. */
  function Occurrences(order: seq<char>, x: char): nat {
    if order == [] then 0 else (if order[0] == x then 1 else 0) + Occurrences(order[1..], x)
  }

  lemma {:induction false} CountVowelsCons(x: char, t: string, order: seq<char>)
    ensures CountVowels([x] + t, order) == Occurrences(order, x) + CountVowels(t, order)
    decreases order
  {
    if order != [] {
      CountVowelsCons(x, t, order[1..]);
      assert ([x] + t)[1..] == t;
    }
  }

  lemma {:induction false} OccurrencesDistinct(order: seq<char>, x: char)
    requires forall i, j :: 0 <= i < j < |order| ==> order[i] != order[j]
    ensures Occurrences(order, x) == if x in order then 1 else 0
    decreases order
  {
    if order != [] {
      OccurrencesDistinct(order[1..], x);
      if order[0] == x {
        assert x !in order[1..] by {
          forall k | 0 <= k < |order[1..]| ensures order[1..][k] != x {
            assert order[1..][k] == order[k + 1];
          }
        }
      }
    }
  }

  lemma VowelOrderCovers(order: seq<char>, x: char)
    requires IsVowelOrder(order)
    ensures x in order <==> IsVowel(x)
  {
    if IsVowel(x) && x !in order {
      var others := set i | 0 <= i < 5 :: order[i];
      assert others <= {'a', 'e', 'i', 'o', 'u'} - {x};
      assert |{'a', 'e', 'i', 'o', 'u'} - {x}| == 4;
      SetOfDistinct(order);
      SubsetCard(others, {'a', 'e', 'i', 'o', 'u'} - {x});
      assert false;
    }
  }

  lemma SetOfDistinct(order: seq<char>)
    requires |order| == 5
    requires forall i, j :: 0 <= i < j < |order| ==> order[i] != order[j]
    ensures |set i | 0 <= i < 5 :: order[i]| == 5
  {
    var s := set i | 0 <= i < 5 :: order[i];
    assert s == {order[0], order[1], order[2], order[3], order[4]};
  }

  lemma SubsetCard(a: set<char>, b: set<char>)
    requires a <= b
    ensures |a| <= |b|
  {
    assert b == a + (b - a);
  }

  /** `_count_vowels` counts the positions holding a vowel, whatever order
      the set is iterated in. */
  lemma {:induction false} CountVowelsIsVowelPositions(word: string, order: seq<char>)
    requires IsVowelOrder(order)
    ensures CountVowels(word, order) == VowelPositions(word)
    decreases word
  {
    if word != [] {
      assert word == [word[0]] + word[1..];
      CountVowelsCons(word[0], word[1..], order);
      OccurrencesDistinct(order, word[0]);
      VowelOrderCovers(order, word[0]);
      CountVowelsIsVowelPositions(word[1..], order);
    } else {
      CountVowelsOfEmpty(order);
    }
  }

  lemma {:induction false} CountVowelsOfEmpty(order: seq<char>)
    ensures CountVowels([], order) == 0
    decreases order
  {
    if order != [] {
      CountVowelsOfEmpty(order[1..]);
    }
  }

  /** `text.replace(c, r)` for one-character strings. */
  function Replace(text: string, c: char, r: char): (t: string)
    ensures |t| == |text|
    ensures forall i :: 0 <= i < |text| ==> t[i] == if text[i] == c then r else text[i]
  {
    seq(|text|, i requires 0 <= i < |text| => if text[i] == c then r else text[i])
  }

  /** `_remove_vowels`: each vowel, in iteration order, that occurs in the
      text is replaced by '?'. The result keeps the length, shows '?' at
      every vowel and keeps every other character. */
  method RemoveVowels(text: string, order: seq<char>) returns (r: string)
    requires IsVowelOrder(order)
    ensures |r| == |text|
    ensures forall i :: 0 <= i < |text| ==> r[i] == if IsVowel(text[i]) then '?' else text[i]
  {
    r := text;
    var k := 0;
    while k < |order|
      invariant 0 <= k <= |order|
      invariant |r| == |text|
      invariant forall i :: 0 <= i < |text| ==>
        r[i] == if text[i] in order[..k] then '?' else text[i]
    {
      var c := order[k];
      if c in r {
        r := Replace(r, c, '?');
      }
      assert order[..k + 1] == order[..k] + [c];
      k := k + 1;
    }
    forall i | 0 <= i < |text| ensures r[i] == if IsVowel(text[i]) then '?' else text[i] {
      assert order[..k] == order;
      VowelOrderCovers(order, text[i]);
    }
  }

  // The word list.

  /** A line of the word file with every '"' and newline removed
      (`str.translate` with a deletion table). */
  function CleanLine(line: string): (r: string)
    ensures '"' !in r && '\n' !in r
    ensures forall c :: c != '"' && c != '\n' ==> multiset(r)[c] == multiset(line)[c]
    ensures '"' !in line && '\n' !in line ==> r == line
  {
    if line == [] then []
    else
      assert line == [line[0]] + line[1..];
      (if line[0] == '"' || line[0] == '\n' then [] else [line[0]]) + CleanLine(line[1..])
  }

  /** Cleaning works character by character: the characters kept stay in
      their order. */
  lemma {:induction false} CleanLineConcat(a: string, b: string)
    ensures CleanLine(a + b) == CleanLine(a) + CleanLine(b)
  {
    if a == [] {
      assert a + b == b;
    } else {
      var head: string := if a[0] == '"' || a[0] == '\n' then [] else [a[0]];
      assert (a + b)[0] == a[0] && (a + b)[1..] == a[1..] + b;
      assert CleanLine(a + b) == head + CleanLine(a[1..] + b);
      assert CleanLine(a) == head + CleanLine(a[1..]);
      CleanLineConcat(a[1..], b);
      Assoc(head, CleanLine(a[1..]), CleanLine(b));
    }
  }

  /** `all_words`: the word file's lines, each cleaned. */
  function AllWords(lines: seq<string>): (r: seq<string>)
    ensures |r| == |lines|
    ensures forall i :: 0 <= i < |r| ==> r[i] == CleanLine(lines[i])
  {
    seq(|lines|, i requires 0 <= i < |lines| => CleanLine(lines[i]))
  }

  /** A word of the list is one of the file's lines, cleaned. */
  lemma CleanedWord(lines: seq<string>, w: string)
    requires w in AllWords(lines)
    ensures exists i :: 0 <= i < |lines| && w == CleanLine(lines[i])
    ensures '"' !in w && '\n' !in w
  {
    var i :| 0 <= i < |lines| && AllWords(lines)[i] == w;
  }

  /** Masking vowels with '?' brings in no quote and no newline. */
  lemma MaskKeepsClean(text: string, r: string)
    requires '"' !in text && '\n' !in text
    requires |r| == |text| && forall i :: 0 <= i < |text| ==> r[i] == if IsVowel(text[i]) then '?' else text[i]
    ensures '"' !in r && '\n' !in r
  {
    forall k | 0 <= k < |r| ensures r[k] != '"' && r[k] != '\n' {
      assert text[k] in text;
    }
  }

  /** A permutation brings in no quote and no newline. */
  lemma PermutationKeepsClean(a: string, b: string)
    requires '"' !in a && '\n' !in a && multiset(a) == multiset(b)
    ensures '"' !in b && '\n' !in b
  {
    assert multiset(b)['"'] == 0 && multiset(b)['\n'] == 0;
  }

  /** `vowel_words`: the words with exactly four vowels, in file order. */
  function VowelWords(words: seq<string>, order: seq<char>): (r: seq<string>)
    requires IsVowelOrder(order)
    ensures forall i :: 0 <= i < |r| ==> VowelPositions(r[i]) == 4
    ensures forall w :: w in words && VowelPositions(w) == 4 ==> w in r
    ensures forall w :: w in r ==> w in words
  {
    if words == [] then []
    else
      CountVowelsIsVowelPositions(words[0], order);
      var rest := VowelWords(words[1..], order);
      assert forall w :: w in words ==> w == words[0] || w in words[1..];
      if CountVowels(words[0], order) == 4 then [words[0]] + rest else rest
  }

  // Unscramble.

  /** `random.sample(pool, k=len(pool))` as successive draws: each pick
      names one of the elements still left. */
  function Draw(pool: string, picks: seq<nat>): (r: string)
    requires |picks| == |pool|
    requires forall k :: 0 <= k < |picks| ==> picks[k] < |pool| - k
    ensures |r| == |pool|
  {
    if pool == [] then []
    else
      var p := picks[0];
      [pool[p]] + Draw(pool[..p] + pool[p + 1..], picks[1..])
  }

  /** The scrambled word is a permutation of the chosen word. */
  lemma {:induction false} DrawIsPermutation(pool: string, picks: seq<nat>)
    requires |picks| == |pool|
    requires forall k :: 0 <= k < |picks| ==> picks[k] < |pool| - k
    ensures multiset(Draw(pool, picks)) == multiset(pool)
    decreases |pool|
  {
    if pool != [] {
      var p := picks[0];
      var rest := pool[..p] + pool[p + 1..];
      DrawIsPermutation(rest, picks[1..]);
      assert pool == pool[..p] + [pool[p]] + pool[p + 1..];
    }
  }

  // The game.

  datatype Minigame = MissingVowels | Unscramble

  datatype Game = Game(
    userId: Snowflake,
    threadId: Option<Snowflake>,
    message: Option<GameMessage>,
    word: string,
    manipulatedWord: string,
    guesses: seq<string>,
    minigame: Minigame,
    multiguesser: bool)

  /** The random choices a new game makes: the index `choice` picks from its
      list, and the draws `sample` makes for Unscramble. */
  datatype Randomness = Randomness(index: nat, draws: seq<nat>)

  predicate DrawsFit(word: string, draws: seq<nat>) {
    && |draws| == |word|
    && forall k :: 0 <= k < |draws| ==> draws[k] < |word| - k
  }

  /** `WordManipulationGame.__init__`: cleans the lines of the word file
      into the word list, picks a word from its four-vowel words
      (MissingVowels) or from all of it (Unscramble), manipulates it, and
      then strips the stored word (the manipulated text keeps the unstripped
      word). `choice` on an empty list raises, modelled as `None`. */
  method NewGame(userId: Snowflake, minigame: Minigame, multiguesser: bool,
                 lines: seq<string>, order: seq<char>, rnd: Randomness)
    returns (r: Option<Game>)
    requires IsVowelOrder(order)
    requires minigame == Unscramble && rnd.index < |lines| ==> DrawsFit(CleanLine(lines[rnd.index]), rnd.draws)
    ensures r.None? <==>
      rnd.index >= |if minigame == MissingVowels then VowelWords(AllWords(lines), order) else lines|
    ensures r.Some? ==> r.value.userId == userId && r.value.multiguesser == multiguesser && r.value.threadId == None
    ensures r.Some? ==> r.value.guesses == [] && r.value.minigame == minigame && r.value.message == None
    ensures r.Some? ==> '"' !in r.value.manipulatedWord && '\n' !in r.value.manipulatedWord
    ensures r.Some? && minigame == MissingVowels ==>
      var chosen := VowelWords(AllWords(lines), order)[rnd.index];
      && VowelPositions(chosen) == 4
      && (exists i :: 0 <= i < |lines| && chosen == CleanLine(lines[i]))
      && r.value.word == Strip(chosen)
      && |r.value.manipulatedWord| == |chosen|
      && forall i :: 0 <= i < |chosen| ==>
           r.value.manipulatedWord[i] == if IsVowel(chosen[i]) then '?' else chosen[i]
    ensures r.Some? && minigame == Unscramble ==>
      var chosen := CleanLine(lines[rnd.index]);
      && r.value.word == Strip(chosen)
      && multiset(r.value.manipulatedWord) == multiset(chosen)
  {
    var allWords := AllWords(lines);
    var candidates := if minigame == MissingVowels then VowelWords(allWords, order) else allWords;
    if rnd.index >= |candidates| {
      return None;
    }
    var chosen := candidates[rnd.index];
    CleanedWord(lines, chosen);
    var manipulated;
    if minigame == MissingVowels {
      manipulated := RemoveVowels(chosen, order);
      MaskKeepsClean(chosen, manipulated);
    } else {
      manipulated := Draw(chosen, rnd.draws);
      DrawIsPermutation(chosen, rnd.draws);
      PermutationKeepsClean(chosen, manipulated);
    }
    r := Some(Game(userId, None, None, Strip(chosen), manipulated, [], minigame, multiguesser));
  }

  /** `add_guess`: a new guess is appended once and reported as added; a
      repeated guess changes nothing. */
  function AddGuess(g: Game, guess: string): (r: (Game, bool))
    ensures r.1 <==> guess !in g.guesses
    ensures r.1 ==> r.0 == g.(guesses := g.guesses + [guess])
    ensures !r.1 ==> r.0 == g
  {
    if guess !in g.guesses then (g.(guesses := g.guesses + [guess]), true) else (g, false)
  }

  /** The scoring loop of `_get_guess_info`: the number of equal pairs
      `zip(guess, word)` yields. */
  method CorrectLetterCount(guess: string, word: string) returns (count: nat)
    ensures count == ZipMatches(guess, word)
    ensures count <= |guess| && count <= |word|
    ensures count == |word| <==> |guess| >= |word| && guess[..|word|] == word
  {
    var n := Min(|guess|, |word|);
    count := 0;
    var i := 0;
    while i < n
      invariant 0 <= i <= n
      invariant count == MatchesUpTo(guess, word, i)
    {
      if guess[i] == word[i] {
        count := count + 1;
      }
      i := i + 1;
    }
    MatchesBound(guess, word, n);
    MatchesAll(guess, word, n);
    if count == |word| {
      assert n == |word|;
    }
  }

  // The module's own registry and reply handling.

  type Handle = nat

  /** The module global `games` (created empty at import) and the game
      objects its keys refer to. */
  datatype World = World(games: map<Snowflake, Handle>, store: map<Handle, Game>)

  predicate WellFormedWorld(w: World) {
    forall k | k in w.games :: w.games[k] in w.store
  }

  /** `__str__`'s win check: when the last guess is the word, the game is
      popped under its message id and its channel id; rendering a won game
      without a message raises, modelled as `None`. */
  function RenderWin(g: Game, games: map<Snowflake, Handle>): (r: Option<(bool, map<Snowflake, Handle>)>)
    ensures r.None? <==> |g.guesses| > 0 && g.guesses[|g.guesses| - 1] == g.word && g.message.None?
    ensures r.Some? ==> (r.value.0 <==> |g.guesses| > 0 && g.guesses[|g.guesses| - 1] == g.word)
    ensures r.Some? && !r.value.0 ==> r.value.1 == games
    ensures r.Some? && r.value.0 ==>
      && g.message.value.id !in r.value.1 && g.message.value.channelId !in r.value.1
      && forall k :: k != g.message.value.id && k != g.message.value.channelId ==>
           (k in r.value.1 <==> k in games) && (k in games ==> r.value.1[k] == games[k])
  {
    if |g.guesses| == 0 || g.guesses[|g.guesses| - 1] != g.word then Some((false, games))
    else if g.message.None? then None
    else Some((true, games - {g.message.value.id, g.message.value.channelId}))
  }

  /** The input filter of `on_message_create`: the stripped, casefolded text,
      accepted when it holds nothing but the letters a to z (so the empty
      text is accepted). */
  function AcceptInput(content: string): (r: Option<string>)
    ensures r.Some? ==> r.value == Casefold(Strip(content))
    ensures r.Some? <==> forall i :: 0 <= i < |Casefold(Strip(content))| ==> 'a' <= Casefold(Strip(content))[i] <= 'z'
  {
    var text := Casefold(Strip(content));
    if forall i :: 0 <= i < |text| ==> 'a' <= text[i] <= 'z' then Some(text) else None
  }

  datatype Event = Event(
    channelId: Snowflake,
    authorId: Snowflake,
    referenced: Option<GameMessage>,
    content: Option<string>)

  datatype Action = NotifyAlreadyMade(guess: string) | EditGameMessage(messageId: Snowflake) | DeleteInput

  /** The result of handling a message; `raised` marks the exception thrown
      when a won game without a message is rendered. */
  datatype Outcome = Outcome(world: World, actions: seq<Action>, raised: bool)

  /** The game message a reply is for: the referenced message when there is
      one, otherwise the message of the game registered under the channel. */
  function Candidate(w: World, e: Event): (r: Option<GameMessage>)
    requires WellFormedWorld(w)
    ensures e.referenced.Some? ==> r == e.referenced
    ensures e.referenced.None? && r.Some? ==>
      e.channelId in w.games && w.store[w.games[e.channelId]].message == r
    ensures e.referenced.None? && e.channelId !in w.games ==> r == None
  {
    if e.referenced.Some? then e.referenced
    else if e.channelId in w.games then w.store[w.games[e.channelId]].message
    else None
  }

  /** The routing of lines 171-192: the game message and game handle a
      message is a guess for, and the accepted guess text. */
  function Route(w: World, e: Event): (r: Option<(GameMessage, Handle, string)>)
    requires WellFormedWorld(w)
    ensures e.content.None? ==> r == None
    ensures r.Some? ==> && Candidate(w, e) == Some(r.value.0)
                        && r.value.0.id in w.games && w.games[r.value.0.id] == r.value.1
                        && r.value.1 in w.store
                        && AcceptInput(e.content.value) == Some(r.value.2)
    ensures r.Some? ==> w.store[r.value.1].multiguesser || e.authorId == w.store[r.value.1].userId
    ensures (&& e.content.Some? && AcceptInput(e.content.value).Some?
             && Candidate(w, e).Some? && Candidate(w, e).value.id in w.games
             && var game := w.store[w.games[Candidate(w, e).value.id]];
                game.multiguesser || e.authorId == game.userId) ==> r.Some?
  {
    var candidate := Candidate(w, e);
    if candidate.None? || candidate.value.id !in w.games then None
    else
      var h := w.games[candidate.value.id];
      var game := w.store[h];
      if !game.multiguesser && e.authorId != game.userId then None
      else if e.content.None? then None
      else match AcceptInput(e.content.value)
        case None => None
        case Some(text) => Some((candidate.value, h, text))
  }

  /** `on_message_create`: an accepted guess is added (a repeated one
      triggers the notice), the game is rendered, which pops a won game,
      then the game message is edited and the input deleted. */
  function OnMessageCreate(w: World, e: Event): (o: Outcome)
    requires WellFormedWorld(w)
    ensures Route(w, e).None? ==> o == Outcome(w, [], false)
    ensures Route(w, e).Some? ==>
      var (gm, h, text) := Route(w, e).value;
      var (g', added) := AddGuess(w.store[h], text);
      && o.world.store == w.store[h := g']
      && (added <==> NotifyAlreadyMade(text) !in o.actions)
      && (!o.raised ==> |o.actions| >= 2 && o.actions[|o.actions| - 2..] == [EditGameMessage(gm.id), DeleteInput])
      && (o.raised <==> RenderWin(g', w.games).None?)
      && (!o.raised ==> o.world.games == RenderWin(g', w.games).value.1)
    ensures !o.raised ==> WellFormedWorld(o.world)
  {
    match Route(w, e)
    case None => Outcome(w, [], false)
    case Some((gm, h, text)) =>
      var (g', added) := AddGuess(w.store[h], text);
      var store' := w.store[h := g'];
      var notice := if added then [] else [NotifyAlreadyMade(text)];
      match RenderWin(g', w.games)
      case None => Outcome(World(w.games, store'), notice, true)
      case Some((_, games')) => Outcome(World(games', store'), notice + [EditGameMessage(gm.id), DeleteInput], false)
  }
}

=== FILE: wrappers.dfy ===
/** The optional value used wherever the bot's Python code uses `None`. */
module Wrappers {

  /** `None` or a present value, the model of Python's `Optional[T]`. */
  datatype Option<+T> = None | Some(value: T)
}
